=== FILE: README.md ===
# CSV normalisation to SQL — a Dafny model

The repository loads flat CSV exports with pandas and normalises them into
relational tables, then writes a PostgreSQL script: `CREATE TABLE`s and one
`INSERT` per row inside a transaction. This project models its core as pure
functions over an immutable table value and proves what each step promises.

The core is three Python files:

- **`utils.py`**:
  - text columns filled with `'N/A'` (`clean_text_columns`);
  - a comma-separated column split into a sorted catalog plus a junction table (`create_catalog`);
  - a table serialised as INSERT statements (`df_to_sql_insert`).
- **`normalize_hospital.py`**:
  - the column-name sanitiser (`limpiar_nombre_columna`);
  - the pure cleaning part of `cargar_y_limpiar`;
  - the first normal form step (`normalizar_1fn`), which melts the `d1_`/`h1_` measurements;
  - the second and third normal form steps (`normalizar_2fn_3fn`): patients, ICUs, diagnoses, encounters;
  - the script writer `generar_sql`, with `map_dtype`.
- **`normalize_ecommerce.py`**:
  - the dataset-specific fills;
  - the invoice date/time split, the de-duplication, the three keyed tables and the grouped order details;
  - the fixed schema and the order in which `main` assembles the script.

## How the model is built

- **Tables:** a table is `Table(cols, rows)`. It is well formed when the column names are distinct and every row has one cell per column.
- **Cells:** a cell is a `Value`:
  - `Null` covers `NaN`/`None`/`NaT`;
  - `Str` is text;
  - `Int` is an integer;
  - `Temporal(repr)` is a date, time or timestamp, carried as its `str()` text;
  - `Opaque(repr)` is any other value (floats in particular), also carried as its `str()` text.
- **Column types:** pandas column dtypes matter only in the hospital script. There a `Frame` pairs a table with one `DType` per column.
- **Missing columns:** a missing column that pandas would reject with a `KeyError` becomes an `Err` result.
- **Ordering:** sorting uses a total order on values (module `Order`). Strings compare by code point, as Python does.
- **Parameters instead of pandas:**
  - `pd.to_datetime(...).dt.date` / `.dt.time` become the function parameters `date` and `time`;
  - the `'mean'` aggregate becomes the parameter `mean`.
- **Read-back:** every serialiser has a reader. The read-back lemmas prove that the rendered SQL text gives back the rows it was written from.

Modules, one per file:

- `Text`: characters, split/join, strip, decimal text;
- `Tables`: select, drop, fill, keep-first/keep-last de-duplication;
- `Order`;
- `SqlText`: literals and value lists, with their reader;
- `Inserts`: `df_to_sql_insert`;
- `Sanitize`: the sanitiser, with `SanitizeExamples`;
- `Catalog`: `clean_text_columns`, `create_catalog`;
- `Hospital`: cleaning, first normal form, second and third normal forms, with `HospitalExamples`;
- `HospitalSql`: `generar_sql`;
- `Ecommerce`;
- `EcommerceSql`.

## Model

| member | source | states |
|---|---|---|
| Catalog.CleanTextColumns | utils.py:41-48 | Only null cells of the listed columns become `'N/A'`; listed names that are not columns are ignored; every other cell, the columns and the row count are unchanged |
| Catalog.FragmentsOfText | utils.py:63-65 | When a cell's text is the pieces joined by `", "` and no piece contains `", "`, the cell has exactly one fragment per piece: that piece stripped of surrounding white space |
| Catalog.CatalogNames | utils.py:68-69 | The catalog names are sorted strictly ascending, hence distinct, and a name is in the catalog exactly when some exploded fragment has that name |
| Catalog.CreateCatalog | utils.py:50-77 | Succeeds exactly when `show_id` and the target column exist; the catalog has columns `[id, name]` and the relation `[show_id, id]`, both well formed |
| Catalog.ExplodeCount | utils.py:63-64 | Exploding yields one pair per fragment of every kept row: the count equals the fragment total |
| Catalog.ExplodeComplete | utils.py:63-64 | Every fragment of every kept row appears, paired with that row's `show_id` |
| Catalog.ExplodeSound | utils.py:60-64 | Every exploded pair comes from a kept row: its key is that row's `show_id` and its name one of that row's fragments |
| Catalog.FragmentsOfTable | utils.py:60-65 | A name is exploded exactly when some row whose cell is neither null nor `'N/A'` has it as a fragment (both directions) |
| Catalog.CatalogNamesAreFragments | utils.py:60-69 | The `name` column of the catalog holds exactly the fragments of the kept rows |
| Catalog.CatalogOrdered | utils.py:68-71 | Catalog row `i` has id `i + 1` and its names strictly increase: ids 1..N follow name order |
| Catalog.RelationSpec | utils.py:74-75 | The relation has one row per exploded fragment. Row `k` carries the fragment's `show_id` and the id of the catalog row whose name is that fragment. The id is within 1..N and that catalog row is `[id, name]` |
| Catalog.CatalogEntriesReferenced | utils.py:68-75 | Every catalog id is used by at least one relation row |
| Catalog.CreateCatalogIgnoresSkippedRows | utils.py:60 | Deleting a row whose cell is null or `'N/A'` leaves both output tables unchanged |
| Order.SortDistinctSpec | utils.py:68-69 | Sorting the unique values gives a strictly ascending sequence with exactly the input's elements |
| Order.StrLtStrictTotal | utils.py:69 | Code-point string order is irreflexive, transitive and total |
| Order.ValueLtStrict | normalize_ecommerce.py:35 | The order on cell values is a strict total order |
| Text.JoinSplit | utils.py:63 | Joining the pieces of a split with the separator gives the original text back |
| Text.SplitPiecesFree | utils.py:63 | No piece of a split contains the separator |
| Text.SplitUnique | utils.py:63 | Splitting on `", "` is the unique inverse of joining: separator-free pieces joined by `", "` split back into exactly those pieces |
| Text.StripIsTrim | utils.py:65 | `strip()` removes exactly a white-space prefix and a white-space suffix and keeps the middle |
| Text.NatToStringValue | utils.py:103 | The decimal text `str(n)` has value `n` |
| SqlText.Escape | utils.py:97-98 | Escaping never shortens the text and leaves quote-free text unchanged |
| SqlText.ReadQuotedEscape | utils.py:98-99 | Reading the escaped text up to the closing quote gives the original text and the rest of the input |
| SqlText.QuoteRoundTrip | utils.py:97-99 | A quoted literal starts with a quote and reads back as exactly the original string, so doubling `'` is undone |
| SqlText.DialectsDiffer | normalize_hospital.py:155-161 | The generic and hospital renderings agree except on date/time values, which only the generic one quotes; null renders as `NULL` |
| SqlText.NanTextQuoted | normalize_hospital.py:156-159 | The text `"nan"` is rendered quoted, because the string test comes before the `'nan'` test |
| SqlText.ReadIntLiteral | utils.py:102-103 | An integer's `str()` reads back as that integer, negative ones included |
| SqlText.ReadRendered | utils.py:93-103 | Every readable value's literal reads back as the value (a date/time as its text) followed by the untouched rest |
| SqlText.ValueListRoundTrip | utils.py:105-107 | The `", "`-joined literal list of a row, closed by `)`, reads back as the row |
| Inserts.DfToSqlInsert | utils.py:81-109 | The output starts with the header comment for the table |
| Inserts.DfToSqlInsertLines | utils.py:86-109 | The output is the header and one statement per row, in row order, joined by line breaks |
| Inserts.StatementRoundTrip | utils.py:107 | One `INSERT INTO t VALUES (...) ON CONFLICT DO NOTHING;` statement reads back as its row |
| Inserts.StatementLinesRoundTrip | utils.py:91-107 | The statements of consecutive rows read back as those rows in order |
| Inserts.DfToSqlInsertRoundTrip | utils.py:81-109 | The whole output for a table reads back as its rows, in order, one statement each |
| Sanitize.CollapseRuns | normalize_hospital.py:15 | Replacing runs of non-word characters with `_` leaves only word characters |
| Sanitize.CollapseWordPrefix | normalize_hospital.py:15 | Collapsing a word-character prefix keeps it and continues after it outside a run |
| Sanitize.CollapseSeparatorPrefix | normalize_hospital.py:15 | A run of non-word characters at the front becomes one `_` (none if a run is already open) |
| Sanitize.StripUnderscores | normalize_hospital.py:17 | The result neither starts nor ends with `_`, and uses only characters of its input |
| Sanitize.StripUnderscoresIsTrim | normalize_hospital.py:17 | The result is a slice of the input with only `_` before and after it; as it neither starts nor ends with `_`, it is the longest such slice |
| Sanitize.Clean | normalize_hospital.py:8-18 | Every sanitised name is an identifier: word characters with no upper-case letter, and no leading or trailing `_` |
| Sanitize.CleanFixesIdentifiers | normalize_hospital.py:14-17 | An already clean identifier is returned unchanged |
| Sanitize.CleanIdempotent | normalize_hospital.py:14-17 | Sanitising twice gives the same name as sanitising once |
| Sanitize.CleanKeepsAlnums | normalize_hospital.py:14-17 | The letters and digits of the name survive, lower-cased and in order; only separators change |
| SanitizeExamples.CleanUnitExample | normalize_hospital.py:12 | `"Total (kg)"` becomes `"total_kg"` |
| SanitizeExamples.CleanUnnamedExample | normalize_hospital.py:11 | `"Unnamed: 83"` becomes `"unnamed_83"` |
| Hospital.KeptColumns | normalize_hospital.py:31-34 | Kept columns are exactly those whose name does not contain `Unnamed`, in their original order |
| Hospital.ImputeAll | normalize_hospital.py:36-40 | Each cell is replaced by its imputation under its column's dtype (a null becomes `0` in an integer column, `0.0` in a float column, `'N/A'` in an object column); columns and dtypes are unchanged |
| Hospital.CleanLoaded | normalize_hospital.py:30-40 | The result keeps every row; its columns are exactly the non-`Unnamed` columns, in order, each with its dtype |
| Hospital.CleanLoadedCells | normalize_hospital.py:36-40 | A non-null cell is unchanged. A null cell becomes `0` in an integer column, `0.0` in a float column and `'N/A'` in an object column, and stays null in any other column |
| Hospital.CleanLoadedNoNulls | normalize_hospital.py:30-40 | No column name left contains `Unnamed`, and no numeric or object column holds a null |
| Hospital.MeltRowAt | normalize_hospital.py:54-59 | Melted row `j·N + i` is `(encounter_id of row i, name of measurement j, value of measurement j in row i)` |
| Hospital.MeltRowsShape | normalize_hospital.py:54-59 | The melt has one row per measurement column and source row, each in the shape above |
| Hospital.Normalize1NF | normalize_hospital.py:47-62 | Succeeds exactly when `encounter_id` exists and no column is already named `metric_value` (KeyError and ValueError otherwise); the melted table has columns `encounter_id, metric_name, metric_value` |
| Hospital.Normalize1NFPartition | normalize_hospital.py:49-51 | The base table keeps every row. Its columns are exactly the non-`d1_`/`h1_` columns, in original order, with the original cells |
| Hospital.Normalize1NFMelt | normalize_hospital.py:49-59 | The measurement columns are exactly the `d1_`/`h1_` columns; the melted table has `|meas|·|rows|` rows, each the right triple |
| Hospital.Present | normalize_hospital.py:75 | The existing subset of a wanted column list has exactly the wanted names that are columns, and stays distinct |
| Hospital.Pacientes | normalize_hospital.py:68-70 | The patients table has columns `patient_id, gender, ethnicity` and only rows projected from the base |
| Hospital.PacientesKey | normalize_hospital.py:68-70 | `patient_id` is unique, covers every base patient, and each row is the last distinct tuple for its id |
| Hospital.Uci | normalize_hospital.py:73-77 | The ICU table has the existing ICU columns and only rows projected from the base |
| Hospital.UciKey | normalize_hospital.py:73-77 | `icu_id` is unique and covers exactly the base's ICU ids; each ICU row is the first distinct ICU tuple with that id (`keep='first'`) |
| Hospital.Diagnosticos | normalize_hospital.py:80-88 | Renamed to `diagnosis_code, body_system` exactly when both source columns exist, otherwise the existing ones; no more rows than the base, each a projection of a base row |
| Hospital.DiagnosticosShape | normalize_hospital.py:80-88 | The rename happens exactly when both columns exist; `diagnosis_code` is then unique, covers exactly the base's `apache_3j_diagnosis` values, and each row is the first distinct tuple with its code. Otherwise the rows are distinct, and with neither column present the frame keeps one empty row per base row |
| Hospital.Encuentros | normalize_hospital.py:90-94 | The encounters table keeps every row and exactly the columns not on the drop list, with their cells |
| Hospital.Normalize2NF3NF | normalize_hospital.py:64-101 | Succeeds exactly when the patient columns and `icu_id` exist. The patient and ICU column lists are as stated, and encounters keep every row |
| HospitalExamples.KeepFirstExample | normalize_hospital.py:69 | `drop_duplicates()` keeps the first copy of a repeated row, in order |
| HospitalExamples.KeepLastExample | normalize_hospital.py:70 | `keep='last'` keeps the later row of two with the same key |
| HospitalExamples.PatientTuplesExample | normalize_hospital.py:69 | Repeated patient tuples collapse to their first occurrences |
| HospitalExamples.PacientesLastDistinctExample | normalize_hospital.py:68-70 | With tuples A, B, A for one patient the table keeps B: the last distinct tuple, not the last row |
| Tables.Select | normalize_hospital.py:60 | Selecting columns keeps every row and exactly the chosen cells, in the chosen order |
| Tables.DropColumns | normalize_hospital.py:94 | Dropping keeps every row and the other columns, in order, with their cells |
| Tables.DropDuplicates | normalize_hospital.py:69 | Exactly the same set of rows as before; with at least one column the rows become distinct, and a frame without columns comes back unchanged |
| Tables.KeepFirstPicksFirst | normalize_hospital.py:77 | Each kept element is the first one with its key, in order of first appearance |
| Tables.KeepLastKeys | normalize_hospital.py:70 | The kept keys are distinct and are exactly the input's keys |
| Tables.KeepLastPicksLast | normalize_hospital.py:70 | Each kept element is the last one with its key, and every key is represented |
| Tables.KeepLastInOrder | normalize_hospital.py:70 | The kept elements appear in order of the last occurrence of their keys |
| Tables.DropDuplicatesOnSpec | normalize_hospital.py:70-77 | After de-duplicating on one column that column is unique and has the same values. Each row is the first (or last) row with its value |
| Tables.SetColumn | normalize_ecommerce.py:23-24 | Assigning a column sets its cells, appends it if new and leaves every other cell unchanged |
| HospitalSql.MapDtype | normalize_hospital.py:106-109 | Integer dtypes map to `INTEGER`, float dtypes to `FLOAT`, and every non-numeric dtype to `VARCHAR(255)` |
| HospitalSql.Head | normalize_hospital.py:120 | `head(n)` keeps the first `min(n, rows)` rows, columns and dtypes unchanged |
| HospitalSql.Orden | normalize_hospital.py:115-121 | The five tables come in the order `pacientes, unidades_uci, diagnosticos, encuentros, mediciones`. Measurements have no primary key and are capped at their first 1000 rows, and are kept whole when they have no more |
| HospitalSql.ColumnDefs | normalize_hospital.py:129-147 | A table has one definition per column plus one per foreign key |
| HospitalSql.CleanCols | normalize_hospital.py:126 | Every column name in DDL and INSERTs is the sanitised one, and is an identifier |
| HospitalSql.BlockText | normalize_hospital.py:149-166 | Each table's text starts with its `CREATE TABLE IF NOT EXISTS` line |
| HospitalSql.GenerarSql | normalize_hospital.py:103-171 | The script starts with `BEGIN;` and ends with `COMMIT;` |
| HospitalSql.ForeignKeysByTable | normalize_hospital.py:141-147 | Only `encuentros` (to patients and ICUs) and `mediciones` (to encounters) have foreign keys |
| HospitalSql.ForeignKeysPointBack | normalize_hospital.py:115-147 | Every foreign key names a table created earlier in the script, under the column that table keys on |
| HospitalSql.TablesInOrder | normalize_hospital.py:115-168 | Table `k`'s block starts at its offset in the script, offsets strictly increase, so the CREATEs appear in the listed order |
| HospitalSql.ColumnDefMark | normalize_hospital.py:135-138 | A column definition ends in `PRIMARY KEY` exactly when the column is the table's key |
| HospitalSql.PrimaryKeyOnlyOnKey | normalize_hospital.py:129-147 | Within a table, only the key column's definition is marked `PRIMARY KEY`; no foreign key line is |
| HospitalSql.OnePrimaryKeyAtMost | normalize_hospital.py:115-138 | No table has two `PRIMARY KEY` definitions, and `mediciones` has none |
| HospitalSql.ColumnDefNames | normalize_hospital.py:130-138 | Column definition `k` is the sanitised name followed by the SQL type of its dtype |
| HospitalSql.InsertLinesRoundTrip | normalize_hospital.py:153-165 | The INSERT lines of a table read back as its rows, in order |
| HospitalSql.BlockInsertsRoundTrip | normalize_hospital.py:153-165 | The INSERT head lists the sanitised columns, and the block's INSERTs read back as the table's rows |
| Ecommerce.FillIfPresent | normalize_ecommerce.py:10-15 | Only null cells of the named column get the fill value; a missing column leaves the table unchanged |
| Ecommerce.CleanSpecific | normalize_ecommerce.py:7-16 | Nulls in `CustomerID`, `Description` and `Country` become `0`, `'N/A'` and `'Unknown'`; every other cell is unchanged |
| Ecommerce.CleanSpecificIdempotent | normalize_ecommerce.py:7-16 | Cleaning twice is the same as cleaning once |
| Ecommerce.CleanSpecificFills | normalize_ecommerce.py:10-15 | After cleaning, the three columns hold no null |
| Ecommerce.AddDateTime | normalize_ecommerce.py:22-24 | `Date` and `Time` are computed from `InvoiceDate` row by row; the other cells are untouched |
| Ecommerce.SplitInvoiceDate | normalize_ecommerce.py:20-25 | Without `InvoiceDate` the table is unchanged. Otherwise `InvoiceDate` is replaced by `Date`/`Time` derived from it, with the other cells and rows kept |
| Ecommerce.Deduplicated | normalize_ecommerce.py:19-27 | After the date split the rows are exactly the split table's rows, distinct when there is a column |
| Ecommerce.FirstPerKey | normalize_ecommerce.py:31-33 | A keyed table has the selected columns and only rows projected from the source |
| Ecommerce.FirstPerKeySpec | normalize_ecommerce.py:31-33 | In a keyed table the key is unique, has exactly the source's key values, and each row is the projection of the first source row with its key (`keep='first'`) |
| Ecommerce.KeyPairs | normalize_ecommerce.py:35 | The group keys are exactly the `(InvoiceNo, StockCode)` pairs, with no null part, that occur in some row |
| Ecommerce.Members | normalize_ecommerce.py:35 | A row is a member of a group exactly when it is a row of the table with that key |
| Ecommerce.GroupTotal | normalize_ecommerce.py:35-37 | A group's summed quantity is the total quantity of all rows with its key |
| Ecommerce.Details | normalize_ecommerce.py:35-38 | One four-column detail row per group, keyed by the group |
| Ecommerce.DetailsSorted | normalize_ecommerce.py:35-38 | Detail rows are strictly ascending by `(InvoiceNo, StockCode)`, as `groupby` sorts them |
| Ecommerce.DetailsCover | normalize_ecommerce.py:35-38 | A key pair has a detail row exactly when it occurs, with no null part, in the data |
| Ecommerce.DetailsQuantity | normalize_ecommerce.py:36 | Each detail row's `Quantity` is the sum of the integer `Quantity` cells of the rows with its key (see "## Left out" for non-integer cells) |
| Ecommerce.OrderDetails | normalize_ecommerce.py:35-38 | The details table has columns `InvoiceNo, StockCode, Quantity, UnitPrice` |
| Ecommerce.NormalizeEcommerce | normalize_ecommerce.py:18-45 | Succeeds exactly when the split table has every required column. The four tables then have the columns the code selects |
| Ecommerce.NormalizedDetails | normalize_ecommerce.py:27-38 | Order details are aggregated over the de-duplicated rows: a key is listed exactly when a de-duplicated row carries it with no null part, its `Quantity` totals the de-duplicated rows with that key, and those rows are distinct, so an exact repeat of a line item counts once |
| Ecommerce.InvoiceCustomersKnown | normalize_ecommerce.py:31-33 | Every customer an invoice names has a customer row |
| Ecommerce.NormalizedKeys | normalize_ecommerce.py:27-33 | Customers, products and invoices are each keyed by their first column, cover its values in the de-duplicated data, and hold the first de-duplicated row per key. Invoices reference only known customers |
| EcommerceSql.SchemaKeysAreColumns | normalize_ecommerce.py:50-53 | Every primary key column is a column of its table |
| EcommerceSql.SchemaColumnNames | normalize_ecommerce.py:31-53 | The declared columns of each table are exactly the columns the normaliser produces, in order |
| EcommerceSql.ColumnKey | normalize_ecommerce.py:50-52 | A column is a primary key (NOT NULL and UNIQUE) exactly when its values are distinct and none is null |
| EcommerceSql.DetailsKeysPresent | normalize_ecommerce.py:35-38 | Neither part of an aggregated key is null, as `groupby` drops rows with a null key part |
| EcommerceSql.DetailsKey | normalize_ecommerce.py:35-38 | No two detail rows share `(InvoiceNo, StockCode)` and no key part is null, so the composite primary key holds |
| EcommerceSql.SingleKeyMatches | normalize_ecommerce.py:50-52 | A table with the declared columns and a unique key column matches its schema entry exactly when the key holds no null |
| EcommerceSql.KeyedTablesMatch | normalize_ecommerce.py:27-52 | Customers, products and invoices satisfy their declared columns and primary keys exactly when the key column of the de-duplicated data holds no null |
| EcommerceSql.DetailsMatch | normalize_ecommerce.py:35-53 | Order details always have the declared columns and satisfy the composite key |
| EcommerceSql.EachMatches | normalize_ecommerce.py:40-53 | The four output tables match the schema entries position by position |
| EcommerceSql.NamesMatchSchema | normalize_ecommerce.py:40-53 | The returned table names are the schema's table names, in the same order |
| EcommerceSql.TablesMatchSchema | normalize_ecommerce.py:27-53 | Every table is inserted under its declared name, and all four load into their declared tables (same columns, primary keys satisfied) exactly when CustomerID, StockCode and InvoiceNo hold no null in the de-duplicated data |
| EcommerceSql.ScriptParts | normalize_ecommerce.py:76-86 | The parts are the opening with `BEGIN;`, the given DDL, the four tables' INSERT blocks in order, and `COMMIT;` |
| EcommerceSql.ScriptOrder | normalize_ecommerce.py:76-89 | In the written body each part appears at its offset, and the next part begins one line break later |
| EcommerceSql.ScriptBracketed | normalize_ecommerce.py:76-86 | The body starts with the `BEGIN;` opening and ends with `COMMIT;` |
| EcommerceSql.ScriptInsertsRoundTrip | normalize_ecommerce.py:82-84 | Each INSERT part reads back as the rows of its table |

## Left out

- **File I/O and environment.** The model covers none of it:
  - reading CSVs (`load_data` with its encoding fallback, `pd.read_csv`), the file-existence check, `get_project_paths`;
  - opening and writing files (the model computes the text `write_sql_file` and `generar_sql` would write);
  - `print` calls, and the `try/except` blocks that turn errors into messages.
- **pandas dtype detection** (`select_dtypes`, `is_integer_dtype`, ...): dtypes are inputs of the hospital model, one per column.
- **Float values and their `str()` rendering** are out of scope: non-integer numbers are `Opaque(repr)`, rendered as their text, and do not read back.
- Ecommerce.DetailsQuantity: the `Quantity` sum adds only `Int` cells; a non-integer cell (a float such as `6.0`, which pandas produces for the whole column once it holds a NaN) counts as 0, and the sum is always written as an integer (`11`, where pandas writes `11.0` for a float column). Float arithmetic is out of scope.
- **`pd.to_datetime`, `.dt.date` and `.dt.time`** (parsing, coercion to `NaT`) are the parameters `date` and `time`.
- **The `'mean'` aggregate over `UnitPrice`** is the parameter `mean`.
- **The text form of dates and times**, as `str()` prints it, is carried in `Temporal(repr)`.
- **Unicode:**
  - the sanitiser's `\W` and `lower()` are modelled on ASCII: letters, digits and `_` are word characters;
  - `strip()` removes ASCII white space.
- **`iterrows` upcasting** (an integer shown as a float when its row mixes types) is not modelled.
- Hospital.MeltRowAt (and with it Hospital.MeltRowsShape and Hospital.Normalize1NFMelt): `metric_value` is the source cell as it is. pandas builds that column from all measurement columns together, so it takes their common dtype: when integer and float measurement columns are melted together, an integer `5` becomes the float `5.0` and `generar_sql` writes `5.0`, where the model writes `5`. Dtype promotion is not modelled.
- Catalog.RelationSpec: the relation rows follow explode order. `merge` may reorder them (it groups them by catalog name), so the model states the content row by row in explode order, not pandas' row order.
- Ecommerce.CleanSpecific: `astype(int)` on `CustomerID` is not modelled. The fill value is the integer `0`; existing values are not converted.
- **Mixed-type group keys:** keys of mixed types are sorted by the model's order on values (nulls, then integers, then text, ...). pandas may refuse to sort such keys or order them differently. Rows with a null key part are dropped, as `groupby` does by default.
- EcommerceSql.Ddl: the schema text is built from the `Schema` table of column names and types. It is not proved character-equal to the literal in `get_ddl_ecommerce`.
- `normalize_netflix.py` is not part of this model. Only `create_catalog` and `clean_text_columns`, which it calls, are modelled.
- `create_catalog`'s own column names must not clash (`id_col_name` different from `'name'` and `'show_id'`, the target different from both). This is a precondition here. In pandas a clash gives a different frame shape.

## Notes on the code

Where the repository's description and its code differ, the model follows the code:

- **`create_catalog` keeps empty fragments.** A value such as `"a, "` yields `"a"` and `""`, and `""` enters the catalog.
- **`create_catalog` keeps repeated fragments.** A repeated fragment in one cell, as in `"a, a"`, gives two identical junction rows, which the code does not de-duplicate (`Catalog.RelationSpec` counts one relation row per fragment).
- **`create_catalog` requires a `show_id` column.** Without one `CreateCatalog` returns an error.
- **The `val == 'nan'` test in `generar_sql` never fires for text.** The string test comes first, so the text `"nan"` is written quoted (`SqlText.NanTextQuoted`).
- **The generic and hospital serialisers differ only on dates and times.** `generar_sql` writes them unquoted (`SqlText.DialectsDiffer`).
- **A null key reaches the INSERTs.** `drop_duplicates('StockCode')` and `drop_duplicates('InvoiceNo')` keep one row with a null key, and nothing fills those columns. The script then inserts `NULL` into a PRIMARY KEY column, which PostgreSQL rejects (`EcommerceSql.KeyedTablesMatch` states exactly when the keys hold). `CustomerID` is filled with `0` by `clean_ecommerce_specific`.
- **No diagnosis columns means one empty row per encounter.** With neither diagnosis column present, `df_base[[]]` has no columns but keeps every row, and `drop_duplicates` returns such a frame unchanged (`Hospital.DiagnosticosShape`).
- **A float column is filled with `0.0`, not `0`.** `fillna(0)` keeps a float column's dtype, so the filled cell is written as `0.0` (`Hospital.CleanLoadedCells`).

=== FILE: catalog.dfy ===
/** The shared table utilities: `clean_text_columns`, which fills the nulls
    of chosen text columns, and `create_catalog`, which turns a column of
    `", "`-joined lists (e.g. "Action, Drama") into a catalog of distinct
    names with surrogate ids and a many-to-many relation from `show_id` to
    those ids. */
module Catalog {
  import opened Text
  import opened Tables
  import opened Order

  // ---------------------------------------------------------------------
  // clean_text_columns

  /** `clean_text_columns(df, columns)`: every listed column that exists has
      its nulls replaced by 'N/A'; listed names that are not columns are
      skipped and every other cell is left as it was. */
  function CleanTextColumns(t: Table, columns: seq<string>): (r: Table)
    requires WellFormed(t)
    ensures WellFormed(r) && r.cols == t.cols && |r.rows| == |t.rows|
    ensures forall i, k :: 0 <= i < |t.rows| && 0 <= k < |t.cols| ==>
              r.rows[i][k] == (if t.cols[k] in columns && t.rows[i][k].Null? then Str("N/A") else t.rows[i][k])
    decreases |columns|
  {
    if |columns| == 0 then t
    else
      var next := if columns[0] in t.cols then FillNull(t, IndexOf(t.cols, columns[0]), Str("N/A")) else t;
      CleanTextColumns(next, columns[1..])
  }

  // ---------------------------------------------------------------------
  // create_catalog: exploding the lists

  /** Rows whose target value is null or exactly 'N/A' are dropped. */
  predicate Kept(v: Value)
  {
    !v.Null? && v != Str("N/A")
  }

  /** `astype(str)`. Only applied to kept, hence non-null, values. */
  function AsText(v: Value): string
  {
    match v
    case Null => "nan"
    case Str(s) => s
    case Int(i) => IntToString(i)
    case Temporal(repr) => repr
    case Opaque(repr) => repr
  }

  /** `str(v).split(', ')`, each piece stripped of surrounding whitespace. */
  function Fragments(v: Value): (fs: seq<string>)
    ensures |fs| == |Split(AsText(v), ListSep)|
    ensures forall j :: 0 <= j < |fs| ==> fs[j] == Strip(Split(AsText(v), ListSep)[j])
  {
    var parts := Split(AsText(v), ListSep);
    seq(|parts|, j requires 0 <= j < |parts| => Strip(parts[j]))
  }

  /** The fragments are the stripped pieces of any cut of the cell's text
      at `", "` that leaves no `", "` inside a piece: with `SplitUnique` this
      is `str.split(', ')` followed by `str.strip()`, independently of how
      `Split` computes it. */
  lemma FragmentsOfText(v: Value, pieces: seq<string>)
    requires |pieces| > 0 && Join(ListSep, pieces) == AsText(v)
    requires forall j :: 0 <= j < |pieces| ==> !Contains(pieces[j], ListSep)
    ensures |Fragments(v)| == |pieces|
    ensures forall j :: 0 <= j < |pieces| ==> Fragments(v)[j] == Strip(pieces[j])
  {
    SplitUnique(pieces, AsText(v));
  }

  /** The `(show_id, target)` pairs of a table, row by row. */
  function Entries(t: Table, col: string): (es: seq<(Value, Value)>)
    requires WellFormed(t) && "show_id" in t.cols && col in t.cols
    ensures |es| == |t.rows|
    ensures forall i :: 0 <= i < |es| ==> es[i] == (Cell(t, i, "show_id"), Cell(t, i, col))
  {
    seq(|t.rows|, i requires 0 <= i < |t.rows| => (Cell(t, i, "show_id"), Cell(t, i, col)))
  }

  /** Pairs one key with each of its fragments. */
  function WithKey(key: Value, fs: seq<string>): (r: seq<(Value, string)>)
    ensures |r| == |fs|
    ensures forall j :: 0 <= j < |fs| ==> r[j] == (key, fs[j])
  {
    seq(|fs|, j requires 0 <= j < |fs| => (key, fs[j]))
  }

  /** The pairs one row explodes into: none when the filter drops it. */
  function ExplodeOne(e: (Value, Value)): seq<(Value, string)>
  {
    if Kept(e.1) then WithKey(e.0, Fragments(e.1)) else []
  }

  /** The filter, split and `explode`: one `(show_id, fragment)` pair per
      fragment of every kept row, in row order. */
  function Explode(es: seq<(Value, Value)>): seq<(Value, string)>
  {
    if |es| == 0 then [] else ExplodeOne(es[0]) + Explode(es[1..])
  }

  /** The fragment column of the exploded pairs. */
  function FragmentNames(ex: seq<(Value, string)>): (ns: seq<string>)
    ensures |ns| == |ex|
    ensures forall k :: 0 <= k < |ex| ==> ns[k] == ex[k].1
  {
    seq(|ex|, k requires 0 <= k < |ex| => ex[k].1)
  }

  /** `unique()` then `sort_values('name')`: the distinct fragments in
      ascending order. */
  function CatalogNames(ex: seq<(Value, string)>): (names: seq<string>)
    ensures Sorted(names, StrLt) && Distinct(names)
    ensures forall n :: n in names <==> n in FragmentNames(ex)
  {
    StrLtStrictTotal();
    SortDistinctSpec(FragmentNames(ex), StrLt);
    SortedDistinct(SortDistinct(FragmentNames(ex), StrLt), StrLt);
    SortDistinct(FragmentNames(ex), StrLt)
  }

  // ---------------------------------------------------------------------
  // create_catalog: the two tables

  datatype CatalogOutput = CatalogOutput(catalog: Table, relation: Table)

  /** `catalog_df[[id_col_name, 'name']]`: row `i` holds id `i + 1`. */
  function CatalogTable(names: seq<string>, idCol: string): (r: Table)
    requires idCol != "name"
    ensures WellFormed(r) && |r.rows| == |names|
  {
    Table([idCol, "name"], seq(|names|, i requires 0 <= i < |names| => [Int(i + 1), Str(names[i])]))
  }

  /** The merge on `name` and projection to `['show_id', id_col_name]`:
      each exploded pair with the id of its fragment. */
  function RelationTable(ex: seq<(Value, string)>, names: seq<string>, idCol: string): (r: Table)
    requires idCol != "show_id"
    requires forall k :: 0 <= k < |ex| ==> ex[k].1 in names
    ensures WellFormed(r) && |r.rows| == |ex|
  {
    Table(["show_id", idCol], seq(|ex|, k requires 0 <= k < |ex| => [ex[k].0, Int(IndexOf(names, ex[k].1) + 1)]))
  }

  /** `create_catalog(df, col_name, id_col_name)`. Selecting `show_id` or the
      target column fails with a KeyError when either is missing. */
  function CreateCatalog(t: Table, col: string, idCol: string): (r: Result<CatalogOutput>)
    requires WellFormed(t)
    requires col != "show_id" && idCol != "name" && idCol != "show_id" && idCol != col
    ensures r.Ok? <==> "show_id" in t.cols && col in t.cols
    ensures r.Ok? ==> r.value.catalog.cols == [idCol, "name"] && r.value.relation.cols == ["show_id", idCol]
    ensures r.Ok? ==> WellFormed(r.value.catalog) && WellFormed(r.value.relation)
  {
    if "show_id" !in t.cols || col !in t.cols then Err("KeyError")
    else
      var ex := Explode(Entries(t, col));
      var names := CatalogNames(ex);
      assert forall k :: 0 <= k < |ex| ==> ex[k].1 in names by {
        forall k | 0 <= k < |ex| ensures ex[k].1 in names {
          assert FragmentNames(ex)[k] == ex[k].1;
        }
      }
      Ok(CatalogOutput(CatalogTable(names, idCol), RelationTable(ex, names, idCol)))
  }

  // ---------------------------------------------------------------------
  // Properties of the exploded pairs

  lemma {:induction false} ExplodeAppend(a: seq<(Value, Value)>, b: seq<(Value, Value)>)
    ensures Explode(a + b) == Explode(a) + Explode(b)
    decreases |a|
  {
    if |a| == 0 {
      assert a + b == b;
    } else {
      var ab := a + b;
      assert ab[0] == a[0];
      assert ab[1..] == a[1..] + b;
      ExplodeAppend(a[1..], b);
      calc {
        Explode(ab);
        ExplodeOne(a[0]) + Explode(a[1..] + b);
        ExplodeOne(a[0]) + (Explode(a[1..]) + Explode(b));
        (ExplodeOne(a[0]) + Explode(a[1..])) + Explode(b);
      }
    }
  }

  /** The number of fragments over the kept rows: the reference count the
      relation is measured against. */
  function FragmentTotal(es: seq<(Value, Value)>): nat
  {
    if |es| == 0 then 0
    else FragmentTotal(es[..|es| - 1]) + (if Kept(es[|es| - 1].1) then |Split(AsText(es[|es| - 1].1), ListSep)| else 0)
  }

  /** Exploding yields exactly one pair per fragment: a fragment repeated in
      one value is not collapsed. */
  lemma {:induction false} ExplodeCount(es: seq<(Value, Value)>)
    ensures |Explode(es)| == FragmentTotal(es)
    decreases |es|
  {
    if |es| > 0 {
      var init := es[..|es| - 1];
      var last := es[|es| - 1];
      assert es == init + [last];
      ExplodeAppend(init, [last]);
      ExplodeCount(init);
      assert [last][1..] == [];
    }
  }

  /** Every fragment of every kept row is exploded with that row's key. */
  lemma ExplodeComplete(es: seq<(Value, Value)>, i: nat, j: nat)
    requires i < |es| && Kept(es[i].1) && j < |Fragments(es[i].1)|
    ensures (es[i].0, Fragments(es[i].1)[j]) in Explode(es)
  {
    var a, b := es[..i], es[i + 1..];
    var tail := [es[i]] + b;
    assert es == a + tail;
    ExplodeAppend(a, tail);
    assert tail[0] == es[i] && tail[1..] == b;
    var one := ExplodeOne(es[i]);
    assert Explode(tail) == one + Explode(b);
    assert one[j] == (es[i].0, Fragments(es[i].1)[j]);
    assert Explode(es) == Explode(a) + (one + Explode(b));
    assert Explode(es)[|Explode(a)| + j] == one[j];
  }

  /** A pair one row explodes into carries that row's key and one of its
      fragments. */
  lemma ExplodeOneSound(e: (Value, Value), p: (Value, string))
    requires p in ExplodeOne(e)
    ensures Kept(e.1) && p.0 == e.0 && p.1 in Fragments(e.1)
  {
    var head := ExplodeOne(e);
    var j :| 0 <= j < |head| && head[j] == p;
    assert Fragments(e.1)[j] == p.1;
  }

  /** Every exploded pair is a fragment of a kept row, with that row's key. */
  lemma {:induction false} ExplodeSound(es: seq<(Value, Value)>, p: (Value, string))
    requires p in Explode(es)
    ensures exists i :: 0 <= i < |es| && Kept(es[i].1) && p.0 == es[i].0 && p.1 in Fragments(es[i].1)
    decreases |es|
  {
    var rest := es[1..];
    assert p in ExplodeOne(es[0]) || p in Explode(rest);
    if p in ExplodeOne(es[0]) {
      ExplodeOneSound(es[0], p);
    } else {
      ExplodeSound(rest, p);
      var i :| 0 <= i < |rest| && Kept(rest[i].1) && p.0 == rest[i].0 && p.1 in Fragments(rest[i].1);
      assert es[i + 1] == rest[i];
    }
  }

  lemma ExplodeSkipsHead(e: (Value, Value), rest: seq<(Value, Value)>)
    requires !Kept(e.1)
    ensures Explode([e] + rest) == Explode(rest)
  {
    var es := [e] + rest;
    assert es[0] == e && es[1..] == rest;
  }

  /** A row that is dropped by the filter contributes nothing. */
  lemma ExplodeSkips(es: seq<(Value, Value)>, i: nat)
    requires i < |es| && !Kept(es[i].1)
    ensures Explode(es[..i] + es[i + 1..]) == Explode(es)
  {
    var a, b := es[..i], es[i + 1..];
    var tail := [es[i]] + b;
    assert es == a + tail;
    ExplodeAppend(a, tail);
    ExplodeAppend(a, b);
    ExplodeSkipsHead(es[i], b);
    calc {
      Explode(es);
      Explode(a + tail);
      Explode(a) + Explode(tail);
      Explode(a) + Explode(b);
      Explode(a + b);
    }
  }

  // ---------------------------------------------------------------------
  // Properties of create_catalog

  lemma CatalogIs(t: Table, col: string, idCol: string)
    requires WellFormed(t) && "show_id" in t.cols && col in t.cols
    requires col != "show_id" && idCol != "name" && idCol != "show_id" && idCol != col
    ensures CreateCatalog(t, col, idCol).value.catalog == CatalogTable(CatalogNames(Explode(Entries(t, col))), idCol)
  {
  }

  lemma NamesCoverFragments(ex: seq<(Value, string)>)
    ensures forall k :: 0 <= k < |ex| ==> ex[k].1 in CatalogNames(ex)
  {
    forall k | 0 <= k < |ex| ensures ex[k].1 in CatalogNames(ex) {
      assert FragmentNames(ex)[k] == ex[k].1;
    }
  }

  lemma RelationIs(t: Table, col: string, idCol: string)
    requires WellFormed(t) && "show_id" in t.cols && col in t.cols
    requires col != "show_id" && idCol != "name" && idCol != "show_id" && idCol != col
    ensures var ex := Explode(Entries(t, col));
            && (forall k :: 0 <= k < |ex| ==> ex[k].1 in CatalogNames(ex))
            && CreateCatalog(t, col, idCol).value.relation == RelationTable(ex, CatalogNames(ex), idCol)
  {
    NamesCoverFragments(Explode(Entries(t, col)));
  }

  lemma CatalogTableOrdered(names: seq<string>, idCol: string)
    requires idCol != "name" && Sorted(names, StrLt)
    ensures var cat := CatalogTable(names, idCol);
            && (forall i :: 0 <= i < |cat.rows| ==> cat.rows[i][0] == Int(i + 1) && cat.rows[i][1].Str?)
            && (forall i, j :: 0 <= i < j < |cat.rows| ==> StrLt(cat.rows[i][1].s, cat.rows[j][1].s))
  {
  }

  /** The catalog lists each distinct fragment once, in ascending order of
      name, with ids `1..N` in that order. */
  lemma CatalogOrdered(t: Table, col: string, idCol: string)
    requires WellFormed(t) && "show_id" in t.cols && col in t.cols
    requires col != "show_id" && idCol != "name" && idCol != "show_id" && idCol != col
    ensures var cat := CreateCatalog(t, col, idCol).value.catalog;
            && (forall i :: 0 <= i < |cat.rows| ==> cat.rows[i][0] == Int(i + 1) && cat.rows[i][1].Str?)
            && (forall i, j :: 0 <= i < j < |cat.rows| ==> StrLt(cat.rows[i][1].s, cat.rows[j][1].s))
  {
    CatalogIs(t, col, idCol);
    CatalogTableOrdered(CatalogNames(Explode(Entries(t, col))), idCol);
  }

  lemma CatalogTableNames(names: seq<string>, idCol: string)
    requires idCol != "name"
    ensures forall n :: Str(n) in Column(CatalogTable(names, idCol), "name") <==> n in names
  {
    var cat := CatalogTable(names, idCol);
    assert IndexOf(cat.cols, "name") == 1;
    forall n ensures Str(n) in Column(cat, "name") <==> n in names
    {
      if n in names {
        var i := IndexOf(names, n);
        assert Column(cat, "name")[i] == Str(n);
      }
      if Str(n) in Column(cat, "name") {
        var i :| 0 <= i < |cat.rows| && Column(cat, "name")[i] == Str(n);
        assert cat.rows[i][1] == Str(names[i]);
      }
    }
  }

  lemma FragmentFromRow(t: Table, col: string, n: string)
    requires WellFormed(t) && "show_id" in t.cols && col in t.cols
    requires n in FragmentNames(Explode(Entries(t, col)))
    ensures exists i :: 0 <= i < |t.rows| && Kept(Cell(t, i, col)) && n in Fragments(Cell(t, i, col))
  {
    var es := Entries(t, col);
    var ex := Explode(es);
    var k :| 0 <= k < |ex| && FragmentNames(ex)[k] == n;
    var p := ex[k];
    ExplodeSound(es, p);
    var i :| 0 <= i < |es| && Kept(es[i].1) && p.0 == es[i].0 && p.1 in Fragments(es[i].1);
    assert es[i].1 == Cell(t, i, col);
  }

  lemma FragmentOfRow(t: Table, col: string, n: string, i: nat)
    requires WellFormed(t) && "show_id" in t.cols && col in t.cols
    requires i < |t.rows| && Kept(Cell(t, i, col)) && n in Fragments(Cell(t, i, col))
    ensures n in FragmentNames(Explode(Entries(t, col)))
  {
    var es := Entries(t, col);
    var ex := Explode(es);
    assert es[i].1 == Cell(t, i, col);
    var j :| 0 <= j < |Fragments(es[i].1)| && Fragments(es[i].1)[j] == n;
    ExplodeComplete(es, i, j);
    var k :| 0 <= k < |ex| && ex[k] == (es[i].0, n);
    assert FragmentNames(ex)[k] == n;
  }

  /** A text is a fragment of the exploded pairs exactly when it is a
      stripped fragment of the target value of some kept row. */
  lemma FragmentsOfTable(t: Table, col: string)
    requires WellFormed(t) && "show_id" in t.cols && col in t.cols
    ensures forall n :: n in FragmentNames(Explode(Entries(t, col))) <==>
              exists i :: 0 <= i < |t.rows| && Kept(Cell(t, i, col)) && n in Fragments(Cell(t, i, col))
  {
    forall n ensures n in FragmentNames(Explode(Entries(t, col))) <==>
                     exists i :: 0 <= i < |t.rows| && Kept(Cell(t, i, col)) && n in Fragments(Cell(t, i, col))
    {
      if n in FragmentNames(Explode(Entries(t, col))) {
        FragmentFromRow(t, col, n);
      }
      if i :| 0 <= i < |t.rows| && Kept(Cell(t, i, col)) && n in Fragments(Cell(t, i, col)) {
        FragmentOfRow(t, col, n, i);
      }
    }
  }

  /** A name is in the catalog exactly when it is a stripped fragment of the
      target value of some kept row. */
  lemma CatalogNamesAreFragments(t: Table, col: string, idCol: string)
    requires WellFormed(t) && "show_id" in t.cols && col in t.cols
    requires col != "show_id" && idCol != "name" && idCol != "show_id" && idCol != col
    ensures var cat := CreateCatalog(t, col, idCol).value.catalog;
            forall n :: Str(n) in Column(cat, "name") <==>
              exists i :: 0 <= i < |t.rows| && Kept(Cell(t, i, col)) && n in Fragments(Cell(t, i, col))
  {
    CatalogIs(t, col, idCol);
    CatalogTableNames(CatalogNames(Explode(Entries(t, col))), idCol);
    FragmentsOfTable(t, col);
  }

  lemma RelationTableLinks(ex: seq<(Value, string)>, names: seq<string>, idCol: string)
    requires idCol != "show_id" && idCol != "name"
    requires forall k :: 0 <= k < |ex| ==> ex[k].1 in names
    ensures var cat := CatalogTable(names, idCol);
            var rel := RelationTable(ex, names, idCol);
            forall k :: 0 <= k < |ex| ==>
              && rel.rows[k][0] == ex[k].0
              && rel.rows[k][1].Int?
              && 1 <= rel.rows[k][1].i <= |cat.rows|
              && cat.rows[rel.rows[k][1].i - 1] == [rel.rows[k][1], Str(ex[k].1)]
  {
    var cat := CatalogTable(names, idCol);
    var rel := RelationTable(ex, names, idCol);
    forall k | 0 <= k < |ex|
      ensures && rel.rows[k][0] == ex[k].0
              && rel.rows[k][1].Int?
              && 1 <= rel.rows[k][1].i <= |cat.rows|
              && cat.rows[rel.rows[k][1].i - 1] == [rel.rows[k][1], Str(ex[k].1)]
    {
      var id := IndexOf(names, ex[k].1);
      assert rel.rows[k] == [ex[k].0, Int(id + 1)];
      assert cat.rows[id] == [Int(id + 1), Str(names[id])];
    }
  }

  /** The relation has one row per fragment of every kept row, in row order;
      each row carries its `show_id` and the id of the catalog entry named by
      its fragment. */
  lemma RelationSpec(t: Table, col: string, idCol: string)
    requires WellFormed(t) && "show_id" in t.cols && col in t.cols
    requires col != "show_id" && idCol != "name" && idCol != "show_id" && idCol != col
    ensures var out := CreateCatalog(t, col, idCol).value;
            var ex := Explode(Entries(t, col));
            && |out.relation.rows| == |ex| == FragmentTotal(Entries(t, col))
            && forall k :: 0 <= k < |ex| ==>
                 && out.relation.rows[k][0] == ex[k].0
                 && out.relation.rows[k][1].Int?
                 && 1 <= out.relation.rows[k][1].i <= |out.catalog.rows|
                 && out.catalog.rows[out.relation.rows[k][1].i - 1] == [out.relation.rows[k][1], Str(ex[k].1)]
  {
    var ex := Explode(Entries(t, col));
    ExplodeCount(Entries(t, col));
    CatalogIs(t, col, idCol);
    RelationIs(t, col, idCol);
    RelationTableLinks(ex, CatalogNames(ex), idCol);
  }

  /** Every catalog id occurs in the relation's id column. */
  predicate AllReferenced(catalog: Table, relation: Table)
  {
    forall i :: 0 <= i < |catalog.rows| && |catalog.rows[i]| > 0 ==>
      exists k :: 0 <= k < |relation.rows| && |relation.rows[k]| > 1 && relation.rows[k][1] == catalog.rows[i][0]
  }

  lemma RelationTableCovers(ex: seq<(Value, string)>, names: seq<string>, idCol: string)
    requires idCol != "show_id" && idCol != "name" && Distinct(names)
    requires forall k :: 0 <= k < |ex| ==> ex[k].1 in names
    requires forall n :: n in names ==> n in FragmentNames(ex)
    ensures AllReferenced(CatalogTable(names, idCol), RelationTable(ex, names, idCol))
  {
    var cat := CatalogTable(names, idCol);
    var rel := RelationTable(ex, names, idCol);
    forall i | 0 <= i < |cat.rows| && |cat.rows[i]| > 0
      ensures exists k :: 0 <= k < |rel.rows| && |rel.rows[k]| > 1 && rel.rows[k][1] == cat.rows[i][0]
    {
      assert names[i] in FragmentNames(ex);
      var k :| 0 <= k < |ex| && FragmentNames(ex)[k] == names[i];
      assert IndexOf(names, names[i]) == i;
      assert rel.rows[k][1] == Int(i + 1) == cat.rows[i][0];
      assert 0 <= k < |rel.rows| && |rel.rows[k]| > 1 && rel.rows[k][1] == cat.rows[i][0];
    }
  }

  /** Every catalog entry is referenced by at least one relation row. */
  lemma CatalogEntriesReferenced(t: Table, col: string, idCol: string)
    requires WellFormed(t) && "show_id" in t.cols && col in t.cols
    requires col != "show_id" && idCol != "name" && idCol != "show_id" && idCol != col
    ensures AllReferenced(CreateCatalog(t, col, idCol).value.catalog, CreateCatalog(t, col, idCol).value.relation)
  {
    var ex := Explode(Entries(t, col));
    CatalogIs(t, col, idCol);
    RelationIs(t, col, idCol);
    RelationTableCovers(ex, CatalogNames(ex), idCol);
  }

  /** Removing a row whose target value is null or 'N/A' changes neither
      table: such rows add no catalog entry and no relation row. */
  lemma CreateCatalogIgnoresSkippedRows(t: Table, col: string, idCol: string, i: nat)
    requires WellFormed(t) && "show_id" in t.cols && col in t.cols && i < |t.rows|
    requires col != "show_id" && idCol != "name" && idCol != "show_id" && idCol != col
    requires !Kept(Cell(t, i, col))
    ensures CreateCatalog(Table(t.cols, t.rows[..i] + t.rows[i + 1..]), col, idCol) == CreateCatalog(t, col, idCol)
  {
    var u := Table(t.cols, t.rows[..i] + t.rows[i + 1..]);
    var es := Entries(t, col);
    assert Entries(u, col) == es[..i] + es[i + 1..] by {
      forall k | 0 <= k < |u.rows| ensures Entries(u, col)[k] == (es[..i] + es[i + 1..])[k] {
        if k < i { assert u.rows[k] == t.rows[k]; } else { assert u.rows[k] == t.rows[k + 1]; }
      }
    }
    ExplodeSkips(es, i);
  }
}

=== FILE: ecommerce.dfy ===
/** The e-commerce pipeline: fill the known gaps, split the invoice
    timestamp into a date and a time, drop repeated rows, and split the
    sales lines into customers, products, invoices and per-invoice product
    totals. */
module Ecommerce {
  import opened Text
  import opened Tables
  import opened Order

  // ---------------------------------------------------------------------
  // clean_ecommerce_specific

  /** `df[c] = df[c].fillna(v)` when the column exists; nothing otherwise. */
  function FillIfPresent(t: Table, c: string, v: Value): (r: Table)
    requires WellFormed(t)
    ensures WellFormed(r) && r.cols == t.cols && |r.rows| == |t.rows|
    ensures forall i, k :: 0 <= i < |t.rows| && 0 <= k < |t.cols| ==>
              r.rows[i][k] == (if t.cols[k] == c && t.rows[i][k] == Null then v else t.rows[i][k])
  {
    if c in t.cols then FillNull(t, IndexOf(t.cols, c), v) else t
  }

  /** The value `clean_ecommerce_specific` puts in place of a null in column
      `c`, if it fills that column at all. */
  function FillFor(c: string): Value
  {
    if c == "CustomerID" then Int(0)
    else if c == "Description" then Str("N/A")
    else if c == "Country" then Str("Unknown")
    else Null
  }

  /** `clean_ecommerce_specific`: a null CustomerID becomes 0, a null
      Description 'N/A' and a null Country 'Unknown'; every other cell, and
      every column the table lacks, is left alone. */
  function CleanSpecific(t: Table): (r: Table)
    requires WellFormed(t)
    ensures WellFormed(r) && r.cols == t.cols && |r.rows| == |t.rows|
    ensures forall i, k :: 0 <= i < |t.rows| && 0 <= k < |t.cols| ==>
              r.rows[i][k] == (if t.rows[i][k] == Null then FillFor(t.cols[k]) else t.rows[i][k])
  {
    FillIfPresent(FillIfPresent(FillIfPresent(t, "CustomerID", Int(0)), "Description", Str("N/A")), "Country", Str("Unknown"))
  }

  /** Cleaning a cleaned table changes nothing. */
  lemma CleanSpecificIdempotent(t: Table)
    requires WellFormed(t)
    ensures CleanSpecific(CleanSpecific(t)) == CleanSpecific(t)
  {
    var once := CleanSpecific(t);
    var twice := CleanSpecific(once);
    forall i | 0 <= i < |once.rows| ensures twice.rows[i] == once.rows[i] {
      forall k | 0 <= k < |once.cols| ensures twice.rows[i][k] == once.rows[i][k] {
      }
    }
  }

  /** After cleaning, the three columns hold no null. */
  lemma CleanSpecificFills(t: Table)
    requires WellFormed(t)
    ensures forall i, c :: 0 <= i < |t.rows| && c in t.cols && c in ["CustomerID", "Description", "Country"] ==>
              Cell(CleanSpecific(t), i, c) != Null
  {
  }

  // ---------------------------------------------------------------------
  // normalize_ecommerce

  /** `df['Date'] = ...; df['Time'] = ...`: sets (or appends) the two
      columns from InvoiceDate. */
  function AddDateTime(t: Table, date: Value -> Value, time: Value -> Value): (r: Table)
    requires WellFormed(t) && "InvoiceDate" in t.cols
    ensures WellFormed(r) && |r.rows| == |t.rows|
    ensures forall c :: c in r.cols <==> c in t.cols || c == "Date" || c == "Time"
    ensures forall i :: 0 <= i < |r.rows| ==> Cell(r, i, "Date") == date(Cell(t, i, "InvoiceDate"))
    ensures forall i :: 0 <= i < |r.rows| ==> Cell(r, i, "Time") == time(Cell(t, i, "InvoiceDate"))
    ensures forall i, c :: 0 <= i < |r.rows| && c in t.cols && c != "Date" && c != "Time" ==> Cell(r, i, c) == Cell(t, i, c)
  {
    var stamps := Column(t, "InvoiceDate");
    var t1 := SetColumn(t, "Date", seq(|stamps|, i requires 0 <= i < |stamps| => date(stamps[i])));
    SetColumn(t1, "Time", seq(|stamps|, i requires 0 <= i < |stamps| => time(stamps[i])))
  }

  /** Replaces InvoiceDate by Date and Time. `date` and `time` stand for
      `pd.to_datetime(..., errors='coerce')` followed by `.dt.date` and
      `.dt.time`; a table without InvoiceDate is returned unchanged. */
  function SplitInvoiceDate(t: Table, date: Value -> Value, time: Value -> Value): (r: Table)
    requires WellFormed(t)
    ensures WellFormed(r) && |r.rows| == |t.rows|
    ensures "InvoiceDate" !in t.cols ==> r == t
    ensures "InvoiceDate" in t.cols ==>
              forall c :: c in r.cols <==> (c in t.cols || c == "Date" || c == "Time") && c != "InvoiceDate"
    ensures "InvoiceDate" in t.cols ==>
              forall i :: 0 <= i < |r.rows| ==> (Cell(r, i, "Date") == date(Cell(t, i, "InvoiceDate"))
                                                 && Cell(r, i, "Time") == time(Cell(t, i, "InvoiceDate")))
    ensures "InvoiceDate" in t.cols ==>
              forall i, c :: 0 <= i < |r.rows| && c in r.cols && c != "Date" && c != "Time" ==> Cell(r, i, c) == Cell(t, i, c)
  {
    if "InvoiceDate" !in t.cols then t
    else DropColumns(AddDateTime(t, date, time), ["InvoiceDate"])
  }

  const CustomerCols: seq<string> := ["CustomerID", "Country"]
  const ProductCols: seq<string> := ["StockCode", "Description"]
  const InvoiceCols: seq<string> := ["InvoiceNo", "CustomerID", "Date", "Time"]
  const DetailCols: seq<string> := ["InvoiceNo", "StockCode", "Quantity", "UnitPrice"]

  predicate HasAll(t: Table, names: seq<string>) {
    forall c :: c in names ==> c in t.cols
  }

  /** `df[names].drop_duplicates(key)`: the first row of each key. */
  function FirstPerKey(d: Table, names: seq<string>, key: string): (r: Table)
    requires WellFormed(d) && Distinct(names) && HasAll(d, names) && key in names
    ensures WellFormed(r) && r.cols == names
    ensures forall j :: 0 <= j < |r.rows| ==> r.rows[j] in Select(d, names).rows
  {
    DropDuplicatesOn(Select(d, names), key, true)
  }

  /** `r` is `d[names].drop_duplicates(key)`: the key is unique in `r`, every
      key value of `d` appears in `r`, and each row of `r` is the projection
      of the first row of `d` that carries its key (`keep='first'`). */
  ghost predicate FirstRowPerKey(r: Table, d: Table, names: seq<string>, key: string)
    requires WellFormed(d) && Distinct(names) && HasAll(d, names) && key in names
    requires WellFormed(r) && r.cols == names
  {
    && Distinct(Column(r, key))
    && (forall x :: x in Column(r, key) <==> x in Column(d, key))
    && (forall j :: 0 <= j < |r.rows| ==>
          && Column(r, key)[j] in Column(d, key)
          && r.rows[j] == Select(d, names).rows[IndexOf(Column(d, key), Column(r, key)[j])])
  }

  /** Keeping the first row per key is exactly that. */
  lemma FirstPerKeySpec(d: Table, names: seq<string>, key: string)
    requires WellFormed(d) && Distinct(names) && HasAll(d, names) && key in names
    ensures FirstRowPerKey(FirstPerKey(d, names, key), d, names, key)
  {
    DropDuplicatesOnSpec(Select(d, names), key, true);
    SelectColumn(d, names, key);
  }

  // Order_Details: groupby(['InvoiceNo', 'StockCode']).agg(...).reset_index()

  /** The group key of a row: its InvoiceNo and StockCode cells. */
  function KeyOf(row: Row, ik: nat, sk: nat): (Value, Value)
  {
    (if ik < |row| then row[ik] else Null, if sk < |row| then row[sk] else Null)
  }

  /** `groupby` drops the rows whose key has a null part. */
  predicate HasKey(row: Row, ik: nat, sk: nat) {
    KeyOf(row, ik, sk).0 != Null && KeyOf(row, ik, sk).1 != Null
  }

  /** Some row of `rows` belongs to group `g`. */
  predicate Grouped(rows: seq<Row>, ik: nat, sk: nat, g: (Value, Value)) {
    exists i :: 0 <= i < |rows| && HasKey(rows[i], ik, sk) && KeyOf(rows[i], ik, sk) == g
  }

  /** The keys of the rows that belong to some group, in row order. */
  function KeyPairs(rows: seq<Row>, ik: nat, sk: nat): (r: seq<(Value, Value)>)
    ensures forall g :: g in r <==> Grouped(rows, ik, sk, g)
  {
    if |rows| == 0 then []
    else
      var rest := KeyPairs(rows[1..], ik, sk);
      assert forall g :: Grouped(rows[1..], ik, sk, g) ==> Grouped(rows, ik, sk, g) by {
        forall g | Grouped(rows[1..], ik, sk, g) ensures Grouped(rows, ik, sk, g) {
          var i :| 0 <= i < |rows[1..]| && HasKey(rows[1..][i], ik, sk) && KeyOf(rows[1..][i], ik, sk) == g;
          assert rows[i + 1] == rows[1..][i];
        }
      }
      assert forall g :: Grouped(rows, ik, sk, g) && g != KeyOf(rows[0], ik, sk) ==> Grouped(rows[1..], ik, sk, g) by {
        forall g | Grouped(rows, ik, sk, g) && g != KeyOf(rows[0], ik, sk) ensures Grouped(rows[1..], ik, sk, g) {
          var i :| 0 <= i < |rows| && HasKey(rows[i], ik, sk) && KeyOf(rows[i], ik, sk) == g;
          assert rows[1..][i - 1] == rows[i];
        }
      }
      (if HasKey(rows[0], ik, sk) then [KeyOf(rows[0], ik, sk)] else []) + rest
  }

  /** The rows of group `g`, in row order. */
  function Members(rows: seq<Row>, ik: nat, sk: nat, g: (Value, Value)): (r: seq<Row>)
    ensures forall row :: row in r <==> row in rows && KeyOf(row, ik, sk) == g
  {
    if |rows| == 0 then []
    else (if KeyOf(rows[0], ik, sk) == g then [rows[0]] else []) + Members(rows[1..], ik, sk, g)
  }

  /** The integer a Quantity cell contributes to a sum: nulls are skipped. */
  function Amount(row: Row, qk: nat): int
  {
    if qk < |row| && row[qk].Int? then row[qk].i else 0
  }

  /** `sum` over a list of rows' Quantity cells. */
  function Total(rows: seq<Row>, qk: nat): int
  {
    if |rows| == 0 then 0 else Amount(rows[0], qk) + Total(rows[1..], qk)
  }

  /** The reference the aggregate is measured against: the Quantity of every
      input row whose key is `g`, added up in one pass. */
  function QuantityOfKey(rows: seq<Row>, ik: nat, sk: nat, qk: nat, g: (Value, Value)): int
  {
    if |rows| == 0 then 0
    else (if KeyOf(rows[|rows| - 1], ik, sk) == g then Amount(rows[|rows| - 1], qk) else 0)
         + QuantityOfKey(rows[..|rows| - 1], ik, sk, qk, g)
  }

  lemma {:induction false} TotalAppend(a: seq<Row>, b: seq<Row>, qk: nat)
    ensures Total(a + b, qk) == Total(a, qk) + Total(b, qk)
    decreases |a|
  {
    if |a| > 0 {
      assert (a + b)[1..] == a[1..] + b;
      TotalAppend(a[1..], b, qk);
    } else {
      assert a + b == b;
    }
  }

  lemma {:induction false} MembersAppend(a: seq<Row>, b: seq<Row>, ik: nat, sk: nat, g: (Value, Value))
    ensures Members(a + b, ik, sk, g) == Members(a, ik, sk, g) + Members(b, ik, sk, g)
    decreases |a|
  {
    if |a| > 0 {
      assert (a + b)[1..] == a[1..] + b;
      MembersAppend(a[1..], b, ik, sk, g);
    } else {
      assert a + b == b;
    }
  }

  /** Summing the members of a group equals the one-pass total of its key. */
  lemma {:induction false} GroupTotal(rows: seq<Row>, ik: nat, sk: nat, qk: nat, g: (Value, Value))
    ensures Total(Members(rows, ik, sk, g), qk) == QuantityOfKey(rows, ik, sk, qk, g)
    decreases |rows|
  {
    if |rows| > 0 {
      var init := rows[..|rows| - 1];
      var last := rows[|rows| - 1];
      assert rows == init + [last];
      MembersAppend(init, [last], ik, sk, g);
      GroupTotal(init, ik, sk, qk, g);
      assert Members([last], ik, sk, g) == (if KeyOf(last, ik, sk) == g then [last] else []);
      TotalAppend(Members(init, ik, sk, g), Members([last], ik, sk, g), qk);
    }
  }

  /** One row of Order_Details: the key, the summed Quantity and the
      UnitPrice aggregate `mean` gives for the group's prices. */
  function DetailRow(rows: seq<Row>, ik: nat, sk: nat, qk: nat, pk: nat, mean: seq<Value> -> Value, g: (Value, Value)): Row
  {
    var members := Members(rows, ik, sk, g);
    [g.0, g.1, Int(Total(members, qk)),
     mean(seq(|members|, j requires 0 <= j < |members| => if pk < |members[j]| then members[j][pk] else Null))]
  }

  /** The sorted distinct keys of the rows that have one. */
  function GroupKeys(rows: seq<Row>, ik: nat, sk: nat): seq<(Value, Value)>
  {
    SortDistinct(KeyPairs(rows, ik, sk), PairLt)
  }

  /** The aggregated rows: one per group, groups in ascending key order. */
  function Details(rows: seq<Row>, ik: nat, sk: nat, qk: nat, pk: nat, mean: seq<Value> -> Value): (ds: seq<Row>)
    ensures |ds| == |GroupKeys(rows, ik, sk)|
    ensures forall j :: 0 <= j < |ds| ==> |ds[j]| == 4 && KeyOf(ds[j], 0, 1) == GroupKeys(rows, ik, sk)[j]
  {
    var keys := GroupKeys(rows, ik, sk);
    seq(|keys|, j requires 0 <= j < |keys| => DetailRow(rows, ik, sk, qk, pk, mean, keys[j]))
  }

  /** Some aggregated row has key `g`. */
  predicate Listed(ds: seq<Row>, g: (Value, Value)) {
    exists j :: 0 <= j < |ds| && KeyOf(ds[j], 0, 1) == g
  }

  /** The aggregated rows are in strictly ascending key order, so no key is
      listed twice. */
  lemma DetailsSorted(rows: seq<Row>, ik: nat, sk: nat, qk: nat, pk: nat, mean: seq<Value> -> Value)
    ensures forall i, j :: 0 <= i < j < |Details(rows, ik, sk, qk, pk, mean)| ==>
              PairLt(KeyOf(Details(rows, ik, sk, qk, pk, mean)[i], 0, 1), KeyOf(Details(rows, ik, sk, qk, pk, mean)[j], 0, 1))
  {
    PairLtStrictTotal();
    SortDistinctSpec(KeyPairs(rows, ik, sk), PairLt);
  }

  /** A key is listed exactly when some input row with neither key part null
      carries it. */
  lemma DetailsCover(rows: seq<Row>, ik: nat, sk: nat, qk: nat, pk: nat, mean: seq<Value> -> Value)
    ensures forall g :: Listed(Details(rows, ik, sk, qk, pk, mean), g) <==> Grouped(rows, ik, sk, g)
  {
    var ds := Details(rows, ik, sk, qk, pk, mean);
    var keys := GroupKeys(rows, ik, sk);
    PairLtStrictTotal();
    SortDistinctSpec(KeyPairs(rows, ik, sk), PairLt);
    forall g ensures Listed(ds, g) <==> g in keys {
      if g in keys {
        var j :| 0 <= j < |keys| && keys[j] == g;
        assert KeyOf(ds[j], 0, 1) == g;
      }
    }
  }

  /** Each aggregated Quantity is the total of the group's Quantity cells. */
  lemma DetailsQuantity(rows: seq<Row>, ik: nat, sk: nat, qk: nat, pk: nat, mean: seq<Value> -> Value)
    ensures forall j :: 0 <= j < |Details(rows, ik, sk, qk, pk, mean)| ==>
              Details(rows, ik, sk, qk, pk, mean)[j][2]
              == Int(QuantityOfKey(rows, ik, sk, qk, KeyOf(Details(rows, ik, sk, qk, pk, mean)[j], 0, 1)))
  {
    var ds := Details(rows, ik, sk, qk, pk, mean);
    var keys := GroupKeys(rows, ik, sk);
    forall j | 0 <= j < |ds| ensures ds[j][2] == Int(QuantityOfKey(rows, ik, sk, qk, KeyOf(ds[j], 0, 1))) {
      GroupTotal(rows, ik, sk, qk, keys[j]);
    }
  }

  /** `Order_Details`. */
  function OrderDetails(d: Table, mean: seq<Value> -> Value): (r: Table)
    requires WellFormed(d) && HasAll(d, DetailCols)
    ensures WellFormed(r) && r.cols == DetailCols
  {
    Table(DetailCols, Details(d.rows, IndexOf(d.cols, "InvoiceNo"), IndexOf(d.cols, "StockCode"),
                              IndexOf(d.cols, "Quantity"), IndexOf(d.cols, "UnitPrice"), mean))
  }

  datatype Normalized = Normalized(customers: Table, products: Table, invoices: Table, details: Table)

  /** The columns `normalize_ecommerce` reads after the timestamp split. */
  const Required: seq<string> :=
    ["CustomerID", "Country", "StockCode", "Description", "InvoiceNo", "Date", "Time", "Quantity", "UnitPrice"]

  /** The table the four outputs are built from: the timestamp split, then
      `drop_duplicates()` over whole rows. */
  function Deduplicated(t: Table, date: Value -> Value, time: Value -> Value): (d: Table)
    requires WellFormed(t)
    ensures WellFormed(d) && (|d.cols| > 0 ==> Distinct(d.rows))
    ensures d.cols == SplitInvoiceDate(t, date, time).cols
    ensures forall row :: row in d.rows <==> row in SplitInvoiceDate(t, date, time).rows
  {
    DropDuplicates(SplitInvoiceDate(t, date, time))
  }

  /** Every column list the outputs select is distinct and among the
      required columns. */
  lemma RequiredCovers(d: Table)
    requires HasAll(d, Required)
    ensures Distinct(CustomerCols) && HasAll(d, CustomerCols) && "CustomerID" in CustomerCols
    ensures Distinct(ProductCols) && HasAll(d, ProductCols) && "StockCode" in ProductCols
    ensures Distinct(InvoiceCols) && HasAll(d, InvoiceCols) && "InvoiceNo" in InvoiceCols
    ensures HasAll(d, DetailCols)
  {
    assert Required[0] == "CustomerID" && Required[1] == "Country";
    assert Required[2] == "StockCode" && Required[3] == "Description";
    assert Required[4] == "InvoiceNo" && Required[5] == "Date" && Required[6] == "Time";
    assert Required[7] == "Quantity" && Required[8] == "UnitPrice";
  }

  /** `normalize_ecommerce`. Selecting a missing column, or aggregating one,
      raises a KeyError. `mean` stands for the UnitPrice average. */
  function NormalizeEcommerce(t: Table, date: Value -> Value, time: Value -> Value, mean: seq<Value> -> Value): (r: Result<Normalized>)
    requires WellFormed(t)
    ensures r.Ok? <==> HasAll(SplitInvoiceDate(t, date, time), Required)
    ensures r.Ok? ==> && WellFormed(r.value.customers) && WellFormed(r.value.products)
                      && WellFormed(r.value.invoices) && WellFormed(r.value.details)
                      && r.value.customers.cols == CustomerCols
                      && r.value.products.cols == ProductCols
                      && r.value.invoices.cols == InvoiceCols
                      && r.value.details.cols == DetailCols
  {
    var d := Deduplicated(t, date, time);
    if !HasAll(d, Required) then Err("KeyError")
    else
      RequiredCovers(d);
      Ok(Normalized(FirstPerKey(d, CustomerCols, "CustomerID"),
                    FirstPerKey(d, ProductCols, "StockCode"),
                    FirstPerKey(d, InvoiceCols, "InvoiceNo"),
                    OrderDetails(d, mean)))
  }

  /** What a successful normalisation is made of. */
  lemma NormalizedParts(t: Table, date: Value -> Value, time: Value -> Value, mean: seq<Value> -> Value)
    requires WellFormed(t) && NormalizeEcommerce(t, date, time, mean).Ok?
    ensures var n := NormalizeEcommerce(t, date, time, mean).value;
            var d := Deduplicated(t, date, time);
            && HasAll(d, Required)
            && n.customers == FirstPerKey(d, CustomerCols, "CustomerID")
            && n.products == FirstPerKey(d, ProductCols, "StockCode")
            && n.invoices == FirstPerKey(d, InvoiceCols, "InvoiceNo")
  {
    RequiredCovers(Deduplicated(t, date, time));
  }

  /** Order_Details is aggregated over the de-duplicated rows: a key is listed
      exactly when some de-duplicated row carries it with neither part null,
      its Quantity is the total over the de-duplicated rows with that key,
      and those rows are distinct, so two identical line items of the input
      count once. */
  lemma NormalizedDetails(t: Table, date: Value -> Value, time: Value -> Value, mean: seq<Value> -> Value)
    requires WellFormed(t) && NormalizeEcommerce(t, date, time, mean).Ok?
    ensures var n := NormalizeEcommerce(t, date, time, mean).value;
            var d := Deduplicated(t, date, time);
            && HasAll(d, DetailCols)
            && var ik, sk, qk := IndexOf(d.cols, "InvoiceNo"), IndexOf(d.cols, "StockCode"), IndexOf(d.cols, "Quantity");
               && (forall g :: Listed(n.details.rows, g) <==> Grouped(d.rows, ik, sk, g))
               && (forall j :: 0 <= j < |n.details.rows| ==>
                     |n.details.rows[j]| == 4
                     && n.details.rows[j][2] == Int(QuantityOfKey(d.rows, ik, sk, qk, KeyOf(n.details.rows[j], 0, 1))))
               && (|d.cols| > 0 ==> Distinct(d.rows))
  {
    var d := Deduplicated(t, date, time);
    RequiredCovers(d);
    var ik, sk := IndexOf(d.cols, "InvoiceNo"), IndexOf(d.cols, "StockCode");
    var qk, pk := IndexOf(d.cols, "Quantity"), IndexOf(d.cols, "UnitPrice");
    assert NormalizeEcommerce(t, date, time, mean).value.details == OrderDetails(d, mean);
    DetailsCover(d.rows, ik, sk, qk, pk, mean);
    DetailsQuantity(d.rows, ik, sk, qk, pk, mean);
  }

  /** Every CustomerID an invoice row names is the key of a customer row. */
  lemma InvoiceCustomersKnown(d: Table)
    requires WellFormed(d) && HasAll(d, CustomerCols) && HasAll(d, InvoiceCols)
    ensures forall x :: x in Column(FirstPerKey(d, InvoiceCols, "InvoiceNo"), "CustomerID") ==>
              x in Column(FirstPerKey(d, CustomerCols, "CustomerID"), "CustomerID")
  {
    var invoices := FirstPerKey(d, InvoiceCols, "InvoiceNo");
    FirstPerKeySpec(d, CustomerCols, "CustomerID");
    var s := Select(d, InvoiceCols);
    SelectColumn(d, InvoiceCols, "CustomerID");
    forall x | x in Column(invoices, "CustomerID")
      ensures x in Column(FirstPerKey(d, CustomerCols, "CustomerID"), "CustomerID")
    {
      var j :| 0 <= j < |invoices.rows| && Column(invoices, "CustomerID")[j] == x;
      RowCellInColumn(s, invoices.rows[j], "CustomerID");
    }
  }

  /** Customers, Products and Invoices are keyed by their first column,
      keep every key of the deduplicated input, and hold for each key the
      projection of the first deduplicated row with that key; every
      CustomerID an invoice names is a customer. */
  lemma NormalizedKeys(t: Table, date: Value -> Value, time: Value -> Value, mean: seq<Value> -> Value)
    requires WellFormed(t) && NormalizeEcommerce(t, date, time, mean).Ok?
    ensures var n := NormalizeEcommerce(t, date, time, mean).value;
            var d := Deduplicated(t, date, time);
            && FirstRowPerKey(n.customers, d, CustomerCols, "CustomerID")
            && FirstRowPerKey(n.products, d, ProductCols, "StockCode")
            && FirstRowPerKey(n.invoices, d, InvoiceCols, "InvoiceNo")
            && (forall x :: x in Column(n.invoices, "CustomerID") ==> x in Column(n.customers, "CustomerID"))
  {
    var d := Deduplicated(t, date, time);
    NormalizedParts(t, date, time, mean);
    RequiredCovers(d);
    FirstPerKeySpec(d, CustomerCols, "CustomerID");
    FirstPerKeySpec(d, ProductCols, "StockCode");
    FirstPerKeySpec(d, InvoiceCols, "InvoiceNo");
    InvoiceCustomersKnown(d);
  }
}

=== FILE: ecommerce_sql.dfy ===
/** The e-commerce script: a fixed schema (`get_ddl_ecommerce`), then the
    INSERTs of each normalised table in the order the normaliser returns
    them, inside one transaction, joined by line breaks as the file writer
    does. */
module EcommerceSql {
  import opened Text
  import opened Tables
  import opened SqlText
  import opened Inserts
  import opened Order
  import opened Ecommerce

  datatype ColumnSpec = ColumnSpec(name: string, sqlType: string)

  /** A table of the schema; `key` lists the primary key columns. */
  datatype TableSpec = TableSpec(name: string, columns: seq<ColumnSpec>, key: seq<string>)

  /** The schema `get_ddl_ecommerce` declares, table by table. */
  const Schema: seq<TableSpec> := [
    TableSpec("Customers", [ColumnSpec("CustomerID", "INT"), ColumnSpec("Country", "VARCHAR(100)")], ["CustomerID"]),
    TableSpec("Products", [ColumnSpec("StockCode", "VARCHAR(50)"), ColumnSpec("Description", "TEXT")], ["StockCode"]),
    TableSpec("Invoices", [ColumnSpec("InvoiceNo", "VARCHAR(50)"), ColumnSpec("CustomerID", "INT"),
                           ColumnSpec("Date", "DATE"), ColumnSpec("Time", "TIME")], ["InvoiceNo"]),
    TableSpec("Order_Details", [ColumnSpec("InvoiceNo", "VARCHAR(50)"), ColumnSpec("StockCode", "VARCHAR(50)"),
                                ColumnSpec("Quantity", "INT"), ColumnSpec("UnitPrice", "DECIMAL(10,2)")],
              ["InvoiceNo", "StockCode"])
  ]

  function ColumnNames(columns: seq<ColumnSpec>): (r: seq<string>)
    ensures |r| == |columns|
    ensures forall k :: 0 <= k < |r| ==> r[k] == columns[k].name
  {
    if |columns| == 0 then [] else [columns[0].name] + ColumnNames(columns[1..])
  }

  /** A column definition; a single-column key is marked inline. */
  function ColumnSql(c: ColumnSpec, key: seq<string>): string
  {
    c.name + " " + c.sqlType + (if key == [c.name] then " PRIMARY KEY" else "")
  }

  function ColumnItems(columns: seq<ColumnSpec>, key: seq<string>): (r: seq<string>)
    ensures |r| == |columns|
  {
    if |columns| == 0 then [] else [ColumnSql(columns[0], key)] + ColumnItems(columns[1..], key)
  }

  /** The items inside the parentheses: the columns, then a composite key
      clause when the key has several columns. */
  function TableItems(ts: TableSpec): seq<string>
  {
    ColumnItems(ts.columns, ts.key)
    + (if |ts.key| > 1 then ["PRIMARY KEY(" + Join(", ", ts.key) + ")"] else [])
  }

  function TableSql(ts: TableSpec): string
  {
    "CREATE TABLE IF NOT EXISTS " + ts.name + " (" + Join(", ", TableItems(ts)) + ");"
  }

  function DdlLines(specs: seq<TableSpec>): string
  {
    if |specs| == 0 then "" else "    " + TableSql(specs[0]) + "\n" + DdlLines(specs[1..])
  }

  /** `get_ddl_ecommerce()`: the statements one per indented line, between
      the line break after the opening quotes and the indentation before the
      closing ones. */
  function Ddl(): string
  {
    "\n" + DdlLines(Schema) + "    "
  }

  /** Every schema table names its key among its own columns. */
  lemma SchemaKeysAreColumns()
    ensures forall k, c :: 0 <= k < |Schema| && c in Schema[k].key ==> c in ColumnNames(Schema[k].columns)
  {
    SchemaColumnNames();
  }

  lemma SchemaColumnNames()
    ensures ColumnNames(Schema[0].columns) == CustomerCols
    ensures ColumnNames(Schema[1].columns) == ProductCols
    ensures ColumnNames(Schema[2].columns) == InvoiceCols
    ensures ColumnNames(Schema[3].columns) == DetailCols
  {
  }

  // ---------------------------------------------------------------------
  // The tables against the schema

  /** The table names the script inserts into, in the order of the
      dictionary `normalize_ecommerce` returns. */
  const TableNames: seq<string> := ["Customers", "Products", "Invoices", "Order_Details"]

  function OutputTables(n: Normalized): (ts: seq<Table>)
    ensures |ts| == 4
  {
    [n.customers, n.products, n.invoices, n.details]
  }

  /** The key cells of row `i`. */
  function KeyCells(t: Table, i: nat, key: seq<string>): (r: seq<Value>)
    requires WellFormed(t) && i < |t.rows|
    requires forall c :: c in key ==> c in t.cols
    ensures |r| == |key|
  {
    seq(|key|, m requires 0 <= m < |key| => Cell(t, i, key[m]))
  }

  /** The table's rows can all be inserted under the PRIMARY KEY constraint,
      which is NOT NULL and UNIQUE together: no key cell is null and no two
      rows agree on every key column. */
  predicate SatisfiesKey(t: Table, key: seq<string>)
    requires WellFormed(t) && forall c :: c in key ==> c in t.cols
  {
    && (forall i :: 0 <= i < |t.rows| ==> Null !in KeyCells(t, i, key))
    && (forall i, j :: 0 <= i < j < |t.rows| ==> KeyCells(t, i, key) != KeyCells(t, j, key))
  }

  /** A single column is a primary key exactly when its values are distinct
      and none is null. */
  lemma ColumnKey(t: Table, c: string)
    requires WellFormed(t) && c in t.cols
    ensures SatisfiesKey(t, [c]) <==> Distinct(Column(t, c)) && Null !in Column(t, c)
  {
    forall i | 0 <= i < |t.rows| ensures KeyCells(t, i, [c]) == [Column(t, c)[i]] {
    }
    if SatisfiesKey(t, [c]) {
      forall i, j | 0 <= i < j < |t.rows| ensures Column(t, c)[i] != Column(t, c)[j] {
        assert KeyCells(t, i, [c]) != KeyCells(t, j, [c]);
      }
    }
  }

  /** No part of an aggregated key is null. */
  lemma DetailsKeysPresent(rows: seq<Row>, ik: nat, sk: nat, qk: nat, pk: nat, mean: seq<Value> -> Value)
    ensures forall j :: 0 <= j < |Details(rows, ik, sk, qk, pk, mean)| ==>
              Details(rows, ik, sk, qk, pk, mean)[j][0] != Null && Details(rows, ik, sk, qk, pk, mean)[j][1] != Null
  {
    var ds := Details(rows, ik, sk, qk, pk, mean);
    DetailsCover(rows, ik, sk, qk, pk, mean);
    forall j | 0 <= j < |ds| ensures ds[j][0] != Null && ds[j][1] != Null {
      var g := KeyOf(ds[j], 0, 1);
      assert Listed(ds, g);
      var m :| 0 <= m < |rows| && HasKey(rows[m], ik, sk) && KeyOf(rows[m], ik, sk) == g;
    }
  }

  /** Order details hold no two rows with the same `(InvoiceNo, StockCode)`,
      and neither part of a key is null, as `groupby` drops those rows. */
  lemma DetailsKey(d: Table, mean: seq<Value> -> Value)
    requires WellFormed(d) && HasAll(d, DetailCols)
    ensures SatisfiesKey(OrderDetails(d, mean), ["InvoiceNo", "StockCode"])
  {
    var r := OrderDetails(d, mean);
    var ik, sk := IndexOf(d.cols, "InvoiceNo"), IndexOf(d.cols, "StockCode");
    var qk, pk := IndexOf(d.cols, "Quantity"), IndexOf(d.cols, "UnitPrice");
    DetailsSorted(d.rows, ik, sk, qk, pk, mean);
    DetailsKeysPresent(d.rows, ik, sk, qk, pk, mean);
    PairLtStrictTotal();
    assert IndexOf(r.cols, "InvoiceNo") == 0 && IndexOf(r.cols, "StockCode") == 1;
    forall i | 0 <= i < |r.rows| ensures Null !in KeyCells(r, i, ["InvoiceNo", "StockCode"]) {
      assert KeyCells(r, i, ["InvoiceNo", "StockCode"]) == [r.rows[i][0], r.rows[i][1]];
    }
    forall i, j | 0 <= i < j < |r.rows|
      ensures KeyCells(r, i, ["InvoiceNo", "StockCode"]) != KeyCells(r, j, ["InvoiceNo", "StockCode"])
    {
      assert PairLt(KeyOf(r.rows[i], 0, 1), KeyOf(r.rows[j], 0, 1));
      assert KeyCells(r, i, ["InvoiceNo", "StockCode"]) == [r.rows[i][0], r.rows[i][1]];
      assert KeyCells(r, j, ["InvoiceNo", "StockCode"]) == [r.rows[j][0], r.rows[j][1]];
    }
  }

  /** Table `tb` has exactly the columns of `spec`, in its order, and
      satisfies its primary key. */
  predicate Matches(tb: Table, spec: TableSpec)
  {
    && WellFormed(tb)
    && tb.cols == ColumnNames(spec.columns)
    && (forall c :: c in spec.key ==> c in tb.cols)
    && SatisfiesKey(tb, spec.key)
  }

  /** A table with the declared columns and a unique single-column key
      matches its schema entry exactly when no key cell is null. */
  lemma SingleKeyMatches(tb: Table, spec: TableSpec)
    requires WellFormed(tb) && tb.cols == ColumnNames(spec.columns)
    requires |spec.key| == 1 && spec.key[0] in tb.cols && Distinct(Column(tb, spec.key[0]))
    ensures Matches(tb, spec) <==> Null !in Column(tb, spec.key[0])
  {
    ColumnKey(tb, spec.key[0]);
    assert spec.key == [spec.key[0]];
  }

  /** A column of the first-row-per-key table holds a null exactly when the
      source column does. */
  lemma KeyedNull(r: Table, d: Table, names: seq<string>, key: string)
    requires WellFormed(d) && Distinct(names) && HasAll(d, names) && key in names
    requires WellFormed(r) && r.cols == names && FirstRowPerKey(r, d, names, key)
    ensures Null in Column(r, key) <==> Null in Column(d, key)
  {
  }

  /** Customers, Products and Invoices load under their primary keys exactly
      when the key column of the deduplicated input holds no null:
      `drop_duplicates` on a key keeps one row with a null key, and
      CustomerID is the only one of the three the cleaning step fills. */
  lemma KeyedTablesMatch(t: Table, date: Value -> Value, time: Value -> Value, mean: seq<Value> -> Value)
    requires WellFormed(t) && NormalizeEcommerce(t, date, time, mean).Ok?
    ensures var n := NormalizeEcommerce(t, date, time, mean).value;
            var d := Deduplicated(t, date, time);
            && HasAll(d, Required)
            && (Matches(n.customers, Schema[0]) <==> Null !in Column(d, "CustomerID"))
            && (Matches(n.products, Schema[1]) <==> Null !in Column(d, "StockCode"))
            && (Matches(n.invoices, Schema[2]) <==> Null !in Column(d, "InvoiceNo"))
  {
    var n := NormalizeEcommerce(t, date, time, mean).value;
    var d := Deduplicated(t, date, time);
    SchemaColumnNames();
    NormalizedParts(t, date, time, mean);
    RequiredCovers(d);
    NormalizedKeys(t, date, time, mean);
    SingleKeyMatches(n.customers, Schema[0]);
    SingleKeyMatches(n.products, Schema[1]);
    SingleKeyMatches(n.invoices, Schema[2]);
    KeyedNull(n.customers, d, CustomerCols, "CustomerID");
    KeyedNull(n.products, d, ProductCols, "StockCode");
    KeyedNull(n.invoices, d, InvoiceCols, "InvoiceNo");
  }

  /** Order details always load under their composite key. */
  lemma DetailsMatch(t: Table, date: Value -> Value, time: Value -> Value, mean: seq<Value> -> Value)
    requires WellFormed(t) && NormalizeEcommerce(t, date, time, mean).Ok?
    ensures Matches(NormalizeEcommerce(t, date, time, mean).value.details, Schema[3])
  {
    SchemaColumnNames();
    DetailsKey(Deduplicated(t, date, time), mean);
  }

  /** Each normalised table is inserted into under the name of the schema
      table at its position, and all four hold exactly their table's columns
      in the schema's order and satisfy its primary key exactly when none of
      the three single-column keys is null in the deduplicated input. */
  lemma TablesMatchSchema(t: Table, date: Value -> Value, time: Value -> Value, mean: seq<Value> -> Value)
    requires WellFormed(t) && NormalizeEcommerce(t, date, time, mean).Ok?
    ensures forall k :: 0 <= k < |Schema| ==> TableNames[k] == Schema[k].name
    ensures var ts := OutputTables(NormalizeEcommerce(t, date, time, mean).value);
            var d := Deduplicated(t, date, time);
            && HasAll(d, Required)
            && ((forall k :: 0 <= k < |Schema| ==> Matches(ts[k], Schema[k]))
                <==> Null !in Column(d, "CustomerID") && Null !in Column(d, "StockCode") && Null !in Column(d, "InvoiceNo"))
  {
    var n := NormalizeEcommerce(t, date, time, mean).value;
    var ts := OutputTables(n);
    KeyedTablesMatch(t, date, time, mean);
    DetailsMatch(t, date, time, mean);
    assert ts[0] == n.customers && ts[1] == n.products && ts[2] == n.invoices && ts[3] == n.details;
    if && Matches(n.customers, Schema[0]) && Matches(n.products, Schema[1])
       && Matches(n.invoices, Schema[2]) {
      EachMatches(n);
    }
    NamesMatchSchema();
  }

  lemma EachMatches(n: Normalized)
    requires && Matches(n.customers, Schema[0]) && Matches(n.products, Schema[1])
             && Matches(n.invoices, Schema[2]) && Matches(n.details, Schema[3])
    ensures forall k :: 0 <= k < |Schema| ==> Matches(OutputTables(n)[k], Schema[k])
  {
    var ts := OutputTables(n);
    forall k | 0 <= k < |Schema| ensures Matches(ts[k], Schema[k]) {
      if k == 0 { assert ts[0] == n.customers; }
      else if k == 1 { assert ts[1] == n.products; }
      else if k == 2 { assert ts[2] == n.invoices; }
      else { assert ts[3] == n.details; }
    }
  }

  lemma NamesMatchSchema()
    ensures |TableNames| == |Schema|
    ensures forall k :: 0 <= k < |Schema| ==> TableNames[k] == Schema[k].name
  {
  }

  // ---------------------------------------------------------------------
  // The script

  const Opening: string := "-- Script E-commerce\nBEGIN;\n"
  const Closing: string := "\nCOMMIT;"

  /** The INSERT block of output table `k`, under its schema name. */
  function InsertPart(n: Normalized, k: nat): string
    requires k < 4
  {
    DfToSqlInsert(OutputTables(n)[k], TableNames[k])
  }

  /** `sql_parts`: the opening, the DDL text `ddl`, one INSERT block per
      table, the closing. */
  function ScriptParts(n: Normalized, ddl: string): (parts: seq<string>)
    ensures |parts| == 7 && parts[0] == Opening && parts[1] == ddl && parts[6] == Closing
    ensures forall k :: 0 <= k < 4 ==> parts[k + 2] == InsertPart(n, k)
  {
    [Opening, ddl] + seq(4, k requires 0 <= k < 4 => InsertPart(n, k)) + [Closing]
  }

  /** What `write_sql_file` writes for the parts: two comment lines, a blank
      line, and the parts joined by line breaks. */
  function WrittenFile(parts: seq<string>): string
  {
    "-- Script generado automáticamente\n" + "-- Base de Datos: PostgreSQL\n\n" + Join("\n", parts)
  }

  /** The e-commerce script. */
  function EcommerceScript(n: Normalized): string
  {
    WrittenFile(ScriptParts(n, Ddl()))
  }

  /** Part `k` of the script occurs at offset `JoinOffset(k)` of the joined
      body, and the next part begins one line break after it: the body is
      the opening (with BEGIN), the DDL, the Customers, Products, Invoices
      and Order_Details INSERT blocks, and the closing COMMIT, in that
      order and nothing between them but line breaks. */
  lemma ScriptOrder(n: Normalized, ddl: string, k: nat)
    requires k < 7
    ensures var body := Join("\n", ScriptParts(n, ddl));
            var at := JoinOffset("\n", ScriptParts(n, ddl), k);
            && at + |ScriptParts(n, ddl)[k]| <= |body|
            && body[at..at + |ScriptParts(n, ddl)[k]|] == ScriptParts(n, ddl)[k]
            && (k + 1 < 7 ==> JoinOffset("\n", ScriptParts(n, ddl), k + 1) == at + |ScriptParts(n, ddl)[k]| + 1)
  {
    JoinPartAt("\n", ScriptParts(n, ddl), k);
    if k + 1 < 7 {
      JoinOffsetStep("\n", ScriptParts(n, ddl), k);
    }
  }

  /** The body begins with the transaction's BEGIN and ends with its
      COMMIT. */
  lemma ScriptBracketed(n: Normalized, ddl: string)
    ensures StartsWith(Join("\n", ScriptParts(n, ddl)), Opening)
    ensures EndsWith(Join("\n", ScriptParts(n, ddl)), Closing)
  {
    var parts := ScriptParts(n, ddl);
    JoinPartAt("\n", parts, 0);
    JoinPartAt("\n", parts, 6);
    JoinLast("\n", parts);
  }

  /** Each INSERT block of the script reads back as its table's rows, for
      tables of nulls, texts, integers and dates. */
  lemma ScriptInsertsRoundTrip(n: Normalized, ddl: string, k: nat)
    requires k < 4
    requires forall i :: 0 <= i < |OutputTables(n)[k].rows| ==> ReadableRow(GenericDialect, OutputTables(n)[k].rows[i])
    ensures ReadInsertScript(ScriptParts(n, ddl)[k + 2], TableNames[k]) == Ok(ReadBackRows(OutputTables(n)[k].rows))
  {
    DfToSqlInsertRoundTrip(OutputTables(n)[k], TableNames[k]);
  }
}

=== FILE: hospital.dfy ===
/** The hospital pipeline up to the point where tables are written: cleaning
    the loaded file, splitting measurements off into a long table (first
    normal form), and splitting patients, ICUs and diagnoses off the
    encounters (second and third normal form). */
module Hospital {
  import opened Text
  import opened Tables

  /** The pandas dtype of a column, as far as the pipeline looks at it:
      `select_dtypes(include=np.number)` picks integer and float columns,
      `select_dtypes(include='object')` picks text columns, and `map_dtype`
      tells integers from floats. Booleans, datetimes and categories are
      `OtherDtype`. */
  datatype DType = IntDtype | FloatDtype | ObjectDtype | OtherDtype

  predicate IsNumeric(d: DType) { d.IntDtype? || d.FloatDtype? }

  /** A table together with one dtype per column. */
  datatype Frame = Frame(table: Table, dtypes: seq<DType>)

  predicate FrameOk(f: Frame) {
    WellFormed(f.table) && |f.dtypes| == |f.table.cols|
  }

  function DtypeOf(f: Frame, c: string): DType
    requires FrameOk(f) && c in f.table.cols
  {
    f.dtypes[IndexOf(f.table.cols, c)]
  }

  /** `df[names]` on a frame: the columns keep their dtypes. */
  function Project(f: Frame, names: seq<string>): (r: Frame)
    requires FrameOk(f) && Distinct(names)
    requires forall k :: 0 <= k < |names| ==> names[k] in f.table.cols
    ensures FrameOk(r) && r.table == Select(f.table, names)
    ensures forall c :: c in names ==> DtypeOf(r, c) == DtypeOf(f, c)
  {
    Frame(Select(f.table, names), seq(|names|, k requires 0 <= k < |names| => DtypeOf(f, names[k])))
  }

  // ---------------------------------------------------------------------
  // cargar_y_limpiar, after the file is read

  /** A pandas placeholder header such as `Unnamed: 83`. */
  predicate IsJunk(c: string) { Contains(c, "Unnamed") }

  /** `fillna(0)` on numeric columns and `fillna('N/A')` on object columns.
      A float column stores the filled zero as the float `0.0`, which `str()`
      writes as `0.0`. */
  function Impute(d: DType, v: Value): Value
  {
    if v != Null then v
    else if d.IntDtype? then Int(0)
    else if d.FloatDtype? then Opaque("0.0")
    else if d.ObjectDtype? then Str("N/A")
    else Null
  }

  /** The columns `cargar_y_limpiar` keeps: all but the placeholders, in
      their order. */
  function KeptColumns(cols: seq<string>): (r: seq<string>)
    ensures forall c :: c in r <==> c in cols && !IsJunk(c)
    ensures Distinct(cols) ==> Distinct(r) && OrderedIn(cols, r)
  {
    Without(cols, Filter(cols, IsJunk))
  }

  /** Imputes every cell of a frame by its column's dtype. */
  function ImputeAll(p: Frame): (r: Frame)
    requires FrameOk(p)
    ensures FrameOk(r) && r.table.cols == p.table.cols && r.dtypes == p.dtypes
    ensures |r.table.rows| == |p.table.rows|
    ensures forall i, k :: 0 <= i < |r.table.rows| && 0 <= k < |r.table.cols| ==>
              r.table.rows[i][k] == Impute(p.dtypes[k], p.table.rows[i][k])
  {
    var t := p.table;
    Frame(Table(t.cols, seq(|t.rows|, i requires 0 <= i < |t.rows| =>
                          seq(|t.cols|, k requires 0 <= k < |t.cols| => Impute(p.dtypes[k], t.rows[i][k])))),
          p.dtypes)
  }

  /** The cleaning half of `cargar_y_limpiar`: drops every column whose name
      contains `Unnamed`, keeping the others in order with their dtypes,
      and imputes nulls by dtype. */
  function CleanLoaded(f: Frame): (r: Frame)
    requires FrameOk(f)
    ensures FrameOk(r) && |r.table.rows| == |f.table.rows|
    ensures forall c :: c in r.table.cols <==> c in f.table.cols && !IsJunk(c)
    ensures OrderedIn(f.table.cols, r.table.cols)
    ensures forall c :: c in r.table.cols ==> DtypeOf(r, c) == DtypeOf(f, c)
  {
    var kept := KeptColumns(f.table.cols);
    assert forall k :: 0 <= k < |kept| ==> kept[k] in f.table.cols;
    ImputeAll(Project(f, kept))
  }

  /** Cleaning keeps every non-null cell and fills a null with 0 in an
      integer column, 0.0 in a float column, 'N/A' in a text column, and
      leaves it null otherwise. */
  lemma CleanLoadedCells(f: Frame, i: nat, c: string)
    requires FrameOk(f) && i < |f.table.rows| && c in f.table.cols && !IsJunk(c)
    ensures c in CleanLoaded(f).table.cols
    ensures var before := Cell(f.table, i, c);
            var after := Cell(CleanLoaded(f).table, i, c);
            && (before != Null ==> after == before)
            && (before == Null && DtypeOf(f, c).IntDtype? ==> after == Int(0))
            && (before == Null && DtypeOf(f, c).FloatDtype? ==> after == Opaque("0.0"))
            && (before == Null && DtypeOf(f, c).ObjectDtype? ==> after == Str("N/A"))
            && (before == Null && DtypeOf(f, c).OtherDtype? ==> after == Null)
  {
    var kept := KeptColumns(f.table.cols);
    assert forall k :: 0 <= k < |kept| ==> kept[k] in f.table.cols;
    var p := Project(f, kept);
    var k := IndexOf(kept, c);
    assert CleanLoaded(f) == ImputeAll(p);
    assert p.table.rows[i][k] == Cell(f.table, i, c);
    assert p.dtypes[k] == DtypeOf(f, c);
  }

  /** After cleaning no numeric or text column holds a null, and no
      placeholder column is left. */
  lemma CleanLoadedNoNulls(f: Frame, i: nat, c: string)
    requires FrameOk(f) && i < |f.table.rows| && c in CleanLoaded(f).table.cols
    requires IsNumeric(DtypeOf(CleanLoaded(f), c)) || DtypeOf(CleanLoaded(f), c).ObjectDtype?
    ensures !Contains(c, "Unnamed")
    ensures Cell(CleanLoaded(f).table, i, c) != Null
  {
    CleanLoadedCells(f, i, c);
  }

  // ---------------------------------------------------------------------
  // normalizar_1fn

  /** `re.compile(r'^(d1|h1)_').match(c)`. */
  predicate IsMeasurement(c: string) { StartsWith(c, "d1_") || StartsWith(c, "h1_") }

  const MeltCols: seq<string> := ["encounter_id", "metric_name", "metric_value"]

  /** The long-format rows of one measurement column, one per source row. */
  function MeltColumn(t: Table, c: string): (r: seq<Row>)
    requires WellFormed(t) && "encounter_id" in t.cols && c in t.cols
    ensures |r| == |t.rows|
  {
    seq(|t.rows|, i requires 0 <= i < |t.rows| => [Cell(t, i, "encounter_id"), Str(c), Cell(t, i, c)])
  }

  /** `df.melt(id_vars=['encounter_id'], value_vars=meas, ...)`: the rows of
      the first measurement column, then those of the second, and so on. */
  function MeltRows(t: Table, meas: seq<string>): (r: seq<Row>)
    requires WellFormed(t) && "encounter_id" in t.cols
    requires forall k :: 0 <= k < |meas| ==> meas[k] in t.cols
  {
    if |meas| == 0 then [] else MeltColumn(t, meas[0]) + MeltRows(t, meas[1..])
  }

  lemma {:induction false} MeltRowsLength(t: Table, meas: seq<string>)
    requires WellFormed(t) && "encounter_id" in t.cols
    requires forall k :: 0 <= k < |meas| ==> meas[k] in t.cols
    ensures |MeltRows(t, meas)| == |meas| * |t.rows|
    decreases |meas|
  {
    if |meas| > 0 {
      MeltRowsLength(t, meas[1..]);
      assert |meas| * |t.rows| == |t.rows| + (|meas| - 1) * |t.rows|;
    }
  }

  /** Row `j * N + i` of the melted table comes from measurement column `j`
      and source row `i`. */
  lemma {:induction false} MeltRowAt(t: Table, meas: seq<string>, j: nat, i: nat)
    requires WellFormed(t) && "encounter_id" in t.cols
    requires forall k :: 0 <= k < |meas| ==> meas[k] in t.cols
    requires j < |meas| && i < |t.rows|
    ensures 0 <= j * |t.rows| + i < |MeltRows(t, meas)|
    ensures MeltRows(t, meas)[j * |t.rows| + i] == [Cell(t, i, "encounter_id"), Str(meas[j]), Cell(t, i, meas[j])]
    decreases j
  {
    var n := |t.rows|;
    var head := MeltColumn(t, meas[0]);
    var rest := MeltRows(t, meas[1..]);
    assert MeltRows(t, meas) == head + rest;
    if j > 0 {
      MeltRowAt(t, meas[1..], j - 1, i);
      assert j * n + i == n + ((j - 1) * n + i);
      assert meas[1..][j - 1] == meas[j];
    }
  }

  /** Row `j * N + i` of `m` is source row `i` melted on measurement
      column `j`. */
  predicate MeltedAt(t: Table, meas: seq<string>, m: seq<Row>, j: nat, i: nat)
    requires WellFormed(t) && "encounter_id" in t.cols
    requires forall k :: 0 <= k < |meas| ==> meas[k] in t.cols
    requires j < |meas| && i < |t.rows|
  {
    0 <= j * |t.rows| + i < |m| && m[j * |t.rows| + i] == [Cell(t, i, "encounter_id"), Str(meas[j]), Cell(t, i, meas[j])]
  }

  /** The melted table has one row per (measurement column, source row)
      pair: row `j * N + i` holds source row `i`'s encounter, the name of
      measurement column `j` and that row's value in it. */
  lemma MeltRowsShape(t: Table, meas: seq<string>)
    requires WellFormed(t) && "encounter_id" in t.cols
    requires forall k :: 0 <= k < |meas| ==> meas[k] in t.cols
    ensures |MeltRows(t, meas)| == |meas| * |t.rows|
    ensures forall j, i :: 0 <= j < |meas| && 0 <= i < |t.rows| ==> MeltedAt(t, meas, MeltRows(t, meas), j, i)
  {
    MeltRowsLength(t, meas);
    forall j, i | 0 <= j < |meas| && 0 <= i < |t.rows|
      ensures MeltedAt(t, meas, MeltRows(t, meas), j, i)
    {
      MeltRowAt(t, meas, j, i);
    }
  }

  /** `normalizar_1fn`: the encounters base table (every column that is not a
      `d1_`/`h1_` measurement) and the long measurement table. Melting
      without an `encounter_id` column raises a KeyError, and melting a
      table that already has a `metric_value` column raises a ValueError,
      as the value column's name may not clash with an input column. */
  function Normalize1NF(t: Table): (r: Result<(Table, Table)>)
    requires WellFormed(t)
    ensures r.Ok? <==> "encounter_id" in t.cols && "metric_value" !in t.cols
    ensures r.Ok? ==> r.value.1.cols == MeltCols
  {
    if "encounter_id" !in t.cols then Err("KeyError: encounter_id")
    else if "metric_value" in t.cols then Err("ValueError: metric_value")
    else
      var meas := Filter(t.cols, IsMeasurement);
      var base := Without(t.cols, meas);
      Ok((Select(t, base), Table(MeltCols, MeltRows(t, meas))))
  }

  /** The measurement and base columns partition the input's columns, each
      in input order; the base table keeps every row and cell. */
  lemma Normalize1NFPartition(t: Table)
    requires WellFormed(t) && "encounter_id" in t.cols && "metric_value" !in t.cols
    ensures var base := Normalize1NF(t).value.0;
            && WellFormed(base) && |base.rows| == |t.rows|
            && (forall c :: c in base.cols <==> c in t.cols && !IsMeasurement(c))
            && (forall i, j :: 0 <= i < j < |base.cols| ==> IndexOf(t.cols, base.cols[i]) < IndexOf(t.cols, base.cols[j]))
            && (forall i, c :: 0 <= i < |base.rows| && c in base.cols ==> Cell(base, i, c) == Cell(t, i, c))
  {
  }

  /** The measurement table has |rows| x |measurement columns| rows, each an
      (encounter_id, metric_name, metric_value) triple, column by column. */
  lemma Normalize1NFMelt(t: Table)
    requires WellFormed(t) && "encounter_id" in t.cols && "metric_value" !in t.cols
    ensures var meas := Filter(t.cols, IsMeasurement);
            var m := Normalize1NF(t).value.1;
            && |m.rows| == |meas| * |t.rows|
            && (forall c :: c in meas <==> c in t.cols && IsMeasurement(c))
            && (forall j, i :: 0 <= j < |meas| && 0 <= i < |t.rows| ==> MeltedAt(t, meas, m.rows, j, i))
  {
    MeltRowsShape(t, Filter(t.cols, IsMeasurement));
  }

  // ---------------------------------------------------------------------
  // normalizar_2fn_3fn

  const PatientCols: seq<string> := ["patient_id", "gender", "ethnicity"]
  const UciCols: seq<string> := ["icu_id", "icu_type", "hospital_id", "icu_admit_source"]
  const DiagCols: seq<string> := ["apache_3j_diagnosis", "apache_3j_bodysystem"]
  const DiagRenamed: seq<string> := ["diagnosis_code", "body_system"]
  const EncounterDrop: seq<string> :=
    ["gender", "ethnicity", "icu_type", "hospital_id", "icu_admit_source", "apache_3j_bodysystem", "bmi"]

  /** `[c for c in want if c in have]`. */
  function Present(want: seq<string>, have: seq<string>): (r: seq<string>)
    ensures |r| <= |want|
    ensures forall c :: c in r <==> c in want && c in have
    ensures Distinct(want) ==> Distinct(r)
  {
    Filter(want, c => c in have)
  }

  predicate HasPatientCols(base: Table) {
    forall k :: 0 <= k < |PatientCols| ==> PatientCols[k] in base.cols
  }

  /** The distinct (patient_id, gender, ethnicity) tuples, in first-seen
      order. */
  function PatientTuples(base: Table): (r: Table)
    requires WellFormed(base) && HasPatientCols(base)
    ensures WellFormed(r) && r.cols == PatientCols
  {
    DropDuplicates(Select(base, PatientCols))
  }

  /** `df_pacientes`: one row per patient, the last distinct tuple seen. */
  function Pacientes(base: Table): (r: Table)
    requires WellFormed(base) && HasPatientCols(base)
    ensures WellFormed(r) && r.cols == PatientCols
    ensures forall j :: 0 <= j < |r.rows| ==> r.rows[j] in Select(base, PatientCols).rows
  {
    DropDuplicatesOn(PatientTuples(base), "patient_id", false)
  }

  /** The distinct tuples of the present ICU columns, in first-seen order. */
  function UciTuples(base: Table): (r: Table)
    requires WellFormed(base)
    ensures WellFormed(r) && r.cols == Present(UciCols, base.cols)
  {
    DropDuplicates(Select(base, Present(UciCols, base.cols)))
  }

  /** `df_uci`: the present ICU columns, one row per icu_id, the first
      distinct tuple seen. */
  function Uci(base: Table): (r: Table)
    requires WellFormed(base) && "icu_id" in base.cols
    ensures WellFormed(r) && r.cols == Present(UciCols, base.cols)
    ensures forall j :: 0 <= j < |r.rows| ==> r.rows[j] in Select(base, Present(UciCols, base.cols)).rows
  {
    DropDuplicatesOn(UciTuples(base), "icu_id", true)
  }

  /** The distinct tuples of the present diagnosis columns, in first-seen
      order. */
  function DiagTuples(base: Table): (r: Table)
    requires WellFormed(base)
    ensures WellFormed(r) && r.cols == Present(DiagCols, base.cols)
  {
    DropDuplicates(Select(base, Present(DiagCols, base.cols)))
  }

  /** The diagnosis tuples under the new column names. */
  function DiagRenamedTuples(base: Table): (r: Table)
    requires WellFormed(base) && |Present(DiagCols, base.cols)| == 2
    ensures WellFormed(r) && r.cols == DiagRenamed
  {
    Table(DiagRenamed, DiagTuples(base).rows)
  }

  /** `df_diagnosticos`: the distinct diagnosis tuples; when both diagnosis
      columns are present they are renamed and deduplicated on the code. */
  function Diagnosticos(base: Table): (r: Table)
    requires WellFormed(base)
    ensures WellFormed(r)
    ensures r.cols == (if |Present(DiagCols, base.cols)| == 2 then DiagRenamed else Present(DiagCols, base.cols))
    ensures |r.rows| <= |base.rows|
    ensures forall j :: 0 <= j < |r.rows| ==> r.rows[j] in Select(base, Present(DiagCols, base.cols)).rows
  {
    if |Present(DiagCols, base.cols)| == 2 then
      DropDuplicatesOn(DiagRenamedTuples(base), "diagnosis_code", true)
    else DiagTuples(base)
  }

  /** `df_encuentros_final`: the base table without the columns that moved
      to the other tables (and `bmi`). */
  function Encuentros(base: Table): (r: Table)
    requires WellFormed(base)
    ensures WellFormed(r) && |r.rows| == |base.rows|
    ensures forall c :: c in r.cols <==> c in base.cols && c !in EncounterDrop
    ensures forall i, c :: 0 <= i < |r.rows| && c in r.cols ==> Cell(r, i, c) == Cell(base, i, c)
  {
    DropColumns(base, EncounterDrop)
  }

  datatype Master = Master(pacientes: Table, uci: Table, diagnosticos: Table, encuentros: Table)

  /** `normalizar_2fn_3fn`. Selecting the patient columns raises a KeyError
      when one is missing, and so does deduplicating ICUs on a missing
      icu_id; the ICU and diagnosis columns are otherwise optional. */
  function Normalize2NF3NF(base: Table): (r: Result<Master>)
    requires WellFormed(base)
    ensures r.Ok? <==> HasPatientCols(base) && "icu_id" in base.cols
    ensures r.Ok? ==> && r.value.pacientes.cols == PatientCols
                      && r.value.uci.cols == Present(UciCols, base.cols)
                      && |r.value.encuentros.rows| == |base.rows|
  {
    if !HasPatientCols(base) then Err("KeyError: patient columns")
    else if "icu_id" !in base.cols then Err("KeyError: icu_id")
    else Ok(Master(Pacientes(base), Uci(base), Diagnosticos(base), Encuentros(base)))
  }

  /** The distinct tuples of a projection carry the same values in each
      projected column as the input. */
  lemma DistinctTuplesColumn(base: Table, names: seq<string>, c: string)
    requires WellFormed(base) && Distinct(names)
    requires forall k :: 0 <= k < |names| ==> names[k] in base.cols
    requires c in names
    ensures forall x :: x in Column(DropDuplicates(Select(base, names)), c) <==> x in Column(base, c)
  {
    var s := Select(base, names);
    var d := DropDuplicates(s);
    var k := IndexOf(names, c);
    forall x ensures x in Column(d, c) <==> x in Column(base, c) {
      if x in Column(d, c) {
        var i :| 0 <= i < |d.rows| && Column(d, c)[i] == x;
        assert d.rows[i] in s.rows;
        var m :| 0 <= m < |s.rows| && s.rows[m] == d.rows[i];
        assert s.rows[m][k] == Cell(base, m, c);
        assert Column(base, c)[m] == x;
      }
      if x in Column(base, c) {
        var m :| 0 <= m < |base.rows| && Column(base, c)[m] == x;
        assert s.rows[m][k] == Cell(base, m, c);
        assert s.rows[m] in d.rows;
        var i :| 0 <= i < |d.rows| && d.rows[i] == s.rows[m];
        assert Column(d, c)[i] == x;
      }
    }
  }

  /** Patients: patient_id is a key, every patient of the input is kept, and
      each row is the last of the distinct tuples for that patient — which
      need not be the patient's last row in the input. */
  lemma PacientesKey(base: Table)
    requires WellFormed(base) && HasPatientCols(base)
    ensures Distinct(Column(Pacientes(base), "patient_id"))
    ensures forall x :: x in Column(Pacientes(base), "patient_id") <==> x in Column(base, "patient_id")
    ensures forall x :: x in Column(Pacientes(base), "patient_id") ==> x in Column(PatientTuples(base), "patient_id")
    ensures forall j :: 0 <= j < |Pacientes(base).rows| ==>
              Pacientes(base).rows[j]
              == PatientTuples(base).rows[LastIndexOf(Column(PatientTuples(base), "patient_id"),
                                                      Column(Pacientes(base), "patient_id")[j])]
  {
    DropDuplicatesOnSpec(PatientTuples(base), "patient_id", false);
    DistinctTuplesColumn(base, PatientCols, "patient_id");
  }

  /** ICUs: icu_id is a key, every ICU of the input is kept, and each row is
      the first distinct tuple for that ICU (`keep='first'`). */
  lemma UciKey(base: Table)
    requires WellFormed(base) && "icu_id" in base.cols
    ensures "icu_id" in Uci(base).cols
    ensures Distinct(Column(Uci(base), "icu_id"))
    ensures forall x :: x in Column(Uci(base), "icu_id") <==> x in Column(base, "icu_id")
    ensures "icu_id" in UciTuples(base).cols
    ensures forall j :: 0 <= j < |Uci(base).rows| ==>
              && Column(Uci(base), "icu_id")[j] in Column(UciTuples(base), "icu_id")
              && Uci(base).rows[j]
                 == UciTuples(base).rows[IndexOf(Column(UciTuples(base), "icu_id"), Column(Uci(base), "icu_id")[j])]
  {
    DropDuplicatesOnSpec(UciTuples(base), "icu_id", true);
    DistinctTuplesColumn(base, Present(UciCols, base.cols), "icu_id");
  }

  /** With both diagnosis columns present, they are selected in their own
      order. */
  lemma PresentDiagBoth(have: seq<string>)
    requires "apache_3j_diagnosis" in have && "apache_3j_bodysystem" in have
    ensures Present(DiagCols, have) == DiagCols
  {
    var p := (c: string) => c in have;
    assert Filter(DiagCols[1..][1..], p) == [];
    assert Filter(DiagCols[1..], p) == [DiagCols[1]];
  }

  /** Diagnoses: renamed to (diagnosis_code, body_system) exactly when both
      source columns are present, and then keyed by diagnosis_code, every
      diagnosis of the input kept with its first distinct tuple; with fewer
      columns the rows are the distinct tuples, and with none of the columns
      present the frame has no columns and keeps one (empty) row per input
      row. */
  lemma DiagnosticosShape(base: Table)
    requires WellFormed(base)
    ensures Diagnosticos(base).cols == DiagRenamed <==> "apache_3j_diagnosis" in base.cols && "apache_3j_bodysystem" in base.cols
    ensures Diagnosticos(base).cols == DiagRenamed ==>
              && "apache_3j_diagnosis" in base.cols
              && Distinct(Column(Diagnosticos(base), "diagnosis_code"))
              && (forall x :: x in Column(Diagnosticos(base), "diagnosis_code") <==> x in Column(base, "apache_3j_diagnosis"))
    ensures Diagnosticos(base).cols == DiagRenamed ==>
              && |Present(DiagCols, base.cols)| == 2
              && forall j :: 0 <= j < |Diagnosticos(base).rows| ==>
                   && Column(Diagnosticos(base), "diagnosis_code")[j] in Column(DiagRenamedTuples(base), "diagnosis_code")
                   && Diagnosticos(base).rows[j]
                      == DiagTuples(base).rows[IndexOf(Column(DiagRenamedTuples(base), "diagnosis_code"),
                                                       Column(Diagnosticos(base), "diagnosis_code")[j])]
    ensures Diagnosticos(base).cols != DiagRenamed && |Diagnosticos(base).cols| > 0 ==> Distinct(Diagnosticos(base).rows)
    ensures |Diagnosticos(base).cols| == 0 ==> |Diagnosticos(base).rows| == |base.rows|
  {
    var present := Present(DiagCols, base.cols);
    if "apache_3j_diagnosis" in base.cols && "apache_3j_bodysystem" in base.cols {
      PresentDiagBoth(base.cols);
      var d := DiagTuples(base);
      var n := DiagRenamedTuples(base);
      DropDuplicatesOnSpec(n, "diagnosis_code", true);
      DistinctTuplesColumn(base, DiagCols, "apache_3j_diagnosis");
      assert Column(n, "diagnosis_code") == Column(d, "apache_3j_diagnosis");
    }
  }
}

/** A worked example of patient deduplication. */
module HospitalExamples {
  import opened Tables
  import opened Hospital

  lemma KeepFirstExample(r0: Row, r1: Row)
    requires r0 != r1
    ensures KeepFirst([r0, r1, r0], WholeRow) == [r0, r1]
  {
    assert KeepFirst([r0], WholeRow) == [r0];
    assert [r0, r1][..1] == [r0];
    assert KeepFirst([r0, r1], WholeRow) == [r0, r1];
    assert [r0, r1, r0][..2] == [r0, r1];
  }

  lemma KeepLastExample(r0: Row, r1: Row)
    requires |r0| > 0 && |r1| > 0 && r0[0] == r1[0]
    ensures KeepLast([r0, r1], CellAt(0)) == [r1]
  {
    assert KeepLast([r1], CellAt(0)) == [r1];
    assert [r0, r1][1..] == [r1];
  }

  /** The repeated (M, A) tuple is dropped before the key is looked at. */
  lemma PatientTuplesExample(r0: Row, r1: Row)
    requires r0 == [Int(1), Str("M"), Str("A")] && r1 == [Int(1), Str("F"), Str("B")]
    ensures PatientTuples(Table(PatientCols, [r0, r1, r0])) == Table(PatientCols, [r0, r1])
  {
    SelectAll(Table(PatientCols, [r0, r1, r0]));
    KeepFirstExample(r0, r1);
  }

  /** A patient recorded as (M, A), then (F, B), then (M, A) again keeps
      (F, B): the repeated (M, A) row is dropped as a duplicate tuple before
      the patient key is deduplicated, so the surviving tuple is not the
      patient's last row in the input. */
  lemma PacientesLastDistinctExample()
    ensures Pacientes(Table(PatientCols, [[Int(1), Str("M"), Str("A")], [Int(1), Str("F"), Str("B")], [Int(1), Str("M"), Str("A")]])).rows
            == [[Int(1), Str("F"), Str("B")]]
  {
    var r0: Row := [Int(1), Str("M"), Str("A")];
    var r1: Row := [Int(1), Str("F"), Str("B")];
    PatientTuplesExample(r0, r1);
    assert IndexOf(PatientCols, "patient_id") == 0;
    KeepLastExample(r0, r1);
  }
}

=== FILE: hospital_sql.dfy ===
/** `generar_sql`: the hospital script. It opens a transaction, then for
    each table in dependency order writes a CREATE TABLE with sanitised
    column names, typed by dtype, and one INSERT per row, and finally
    commits. */
module HospitalSql {
  import opened Text
  import opened Tables
  import opened Sanitize
  import opened SqlText
  import opened Inserts
  import opened Hospital

  datatype SqlType = Integer | Float | Varchar255

  /** `map_dtype`: integers and floats keep their kind, everything else is
      stored as text. */
  function MapDtype(d: DType): (r: SqlType)
    ensures r == Integer <==> d.IntDtype?
    ensures r == Float <==> d.FloatDtype?
    ensures r == Varchar255 <==> !IsNumeric(d)
  {
    if d.IntDtype? then Integer else if d.FloatDtype? then Float else Varchar255
  }

  function TypeName(ty: SqlType): string
  {
    match ty
    case Integer => "INTEGER"
    case Float => "FLOAT"
    case Varchar255 => "VARCHAR(255)"
  }

  datatype Option<T> = None | Some(value: T)

  datatype ForeignKey = ForeignKey(col: string, refTable: string, refCol: string)

  /** One entry of `orden`: a table name, its frame and its primary key. */
  datatype Block = Block(name: string, frame: Frame, pk: Option<string>)

  /** The dictionary `normalizar_2fn_3fn` returns, with dtypes. */
  datatype Tablas = Tablas(pacientes: Frame, uci: Frame, diagnosticos: Frame, encuentros: Frame)

  predicate TablasOk(t: Tablas) {
    FrameOk(t.pacientes) && FrameOk(t.uci) && FrameOk(t.diagnosticos) && FrameOk(t.encuentros)
  }

  const MeasurementCap: nat := 1000

  const TableOrder: seq<string> := ["pacientes", "unidades_uci", "diagnosticos", "encuentros", "mediciones"]

  function Min(a: nat, b: nat): nat { if a < b then a else b }

  /** `df.head(n)`: the first `n` rows, or all of them when there are fewer. */
  function Head(f: Frame, n: nat): (r: Frame)
    requires FrameOk(f)
    ensures FrameOk(r) && r.table.cols == f.table.cols && r.dtypes == f.dtypes
    ensures |r.table.rows| == Min(n, |f.table.rows|)
    ensures forall i :: 0 <= i < |r.table.rows| ==> r.table.rows[i] == f.table.rows[i]
  {
    Frame(Table(f.table.cols, f.table.rows[..Min(n, |f.table.rows|)]), f.dtypes)
  }

  /** `orden`: the five tables in the order they are written, each with the
      column its CREATE TABLE declares as primary key. Only the first
      `MeasurementCap` measurements are written. */
  function Orden(t: Tablas, mediciones: Frame): (bs: seq<Block>)
    requires TablasOk(t) && FrameOk(mediciones)
    ensures |bs| == |TableOrder|
    ensures forall k :: 0 <= k < |bs| ==> bs[k].name == TableOrder[k] && FrameOk(bs[k].frame)
    ensures bs[4].pk == None
    ensures bs[4].frame.table.cols == mediciones.table.cols
    ensures |bs[4].frame.table.rows| == Min(MeasurementCap, |mediciones.table.rows|)
    ensures bs[4].frame.table.rows == mediciones.table.rows[..|bs[4].frame.table.rows|]
    ensures |mediciones.table.rows| <= MeasurementCap ==> bs[4].frame == mediciones
  {
    [ Block("pacientes", t.pacientes, Some("patient_id")),
      Block("unidades_uci", t.uci, Some("icu_id")),
      Block("diagnosticos", t.diagnosticos, Some("diagnosis_code")),
      Block("encuentros", t.encuentros, Some("encounter_id")),
      Block("mediciones", Head(mediciones, MeasurementCap), None) ]
  }

  /** The foreign keys the script declares, by table name. */
  function ForeignKeys(name: string): seq<ForeignKey>
  {
    if name == "encuentros" then
      [ForeignKey("patient_id", "pacientes", "patient_id"), ForeignKey("icu_id", "unidades_uci", "icu_id")]
    else if name == "mediciones" then
      [ForeignKey("encounter_id", "encuentros", "encounter_id")]
    else []
  }

  const PrimaryKeyMark: string := " PRIMARY KEY"

  function ForeignKeyDef(fk: ForeignKey): string
  {
    "    FOREIGN KEY (" + fk.col + ") REFERENCES " + fk.refTable + "(" + fk.refCol + ")"
  }

  /** The definition of one column: the sanitised name, the mapped type and,
      for the primary key, the PRIMARY KEY mark. The key is matched against
      the column's original name. */
  function ColumnDef(col: string, d: DType, pk: Option<string>): string
  {
    "    " + Clean(col) + " " + TypeName(MapDtype(d)) + (if pk == Some(col) then PrimaryKeyMark else "")
  }

  /** `cols_def`: the column definitions, then the foreign keys. */
  function ColumnDefs(b: Block): (defs: seq<string>)
    requires FrameOk(b.frame)
    ensures |defs| == |b.frame.table.cols| + |ForeignKeys(b.name)|
  {
    var cols := b.frame.table.cols;
    var fks := ForeignKeys(b.name);
    seq(|cols|, k requires 0 <= k < |cols| => ColumnDef(cols[k], b.frame.dtypes[k], b.pk))
    + seq(|fks|, j requires 0 <= j < |fks| => ForeignKeyDef(fks[j]))
  }

  /** The opening of a table's CREATE TABLE statement. */
  function CreateHeader(name: string): string
  {
    "CREATE TABLE IF NOT EXISTS " + name + " (\n"
  }

  function CreateTable(b: Block): string
    requires FrameOk(b.frame)
  {
    CreateHeader(b.name) + Join(",\n", ColumnDefs(b)) + "\n);\n"
  }

  /** `cols_limpias`: every name sanitised, in column order. */
  function CleanCols(cols: seq<string>): (r: seq<string>)
    ensures |r| == |cols|
    ensures forall k :: 0 <= k < |cols| ==> r[k] == Clean(cols[k]) && IsIdentifier(r[k])
  {
    seq(|cols|, k requires 0 <= k < |cols| => Clean(cols[k]))
  }

  function InsertHead(b: Block): string
  {
    ListedHead(b.name, CleanCols(b.frame.table.cols))
  }

  /** The INSERT lines of a block, each ended by a line break. */
  function InsertLines(head: string, rows: seq<Row>): string
  {
    if |rows| == 0 then "" else Statement(head, HospitalDialect, rows[0]) + "\n" + InsertLines(head, rows[1..])
  }

  function BlockText(b: Block): (s: string)
    requires FrameOk(b.frame)
    ensures StartsWith(s, CreateHeader(b.name))
  {
    CreateTable(b) + InsertLines(InsertHead(b), b.frame.table.rows) + "\n"
  }

  function Concat(parts: seq<string>): string
  {
    if |parts| == 0 then "" else parts[0] + Concat(parts[1..])
  }

  function BlockTexts(bs: seq<Block>): (r: seq<string>)
    requires forall k :: 0 <= k < |bs| ==> FrameOk(bs[k].frame)
    ensures |r| == |bs| && forall k :: 0 <= k < |bs| ==> r[k] == BlockText(bs[k])
  {
    seq(|bs|, k requires 0 <= k < |bs| => BlockText(bs[k]))
  }

  /** The blocks' texts, one after the other. */
  function BlocksText(bs: seq<Block>): string
    requires forall k :: 0 <= k < |bs| ==> FrameOk(bs[k].frame)
  {
    Concat(BlockTexts(bs))
  }

  const ScriptStart: string := "BEGIN;\n\n"
  const ScriptEnd: string := "COMMIT;\n"

  /** The blocks' texts inside one transaction. */
  function Script(bs: seq<Block>): (r: string)
    requires forall k :: 0 <= k < |bs| ==> FrameOk(bs[k].frame)
    ensures StartsWith(r, ScriptStart) && EndsWith(r, ScriptEnd)
  {
    var r := ScriptStart + BlocksText(bs) + ScriptEnd;
    assert r[..|ScriptStart|] == ScriptStart;
    assert r[|r| - |ScriptEnd|..] == ScriptEnd;
    r
  }

  /** `generar_sql`: the whole script, one transaction. */
  function GenerarSql(t: Tablas, mediciones: Frame): (r: string)
    requires TablasOk(t) && FrameOk(mediciones)
    ensures StartsWith(r, ScriptStart) && EndsWith(r, ScriptEnd)
  {
    Script(Orden(t, mediciones))
  }

  // ---------------------------------------------------------------------
  // Dependency order

  /** `fk` names a table written before block `b`, by the column that table
      declares as its primary key. */
  predicate RefersBack(bs: seq<Block>, b: nat, fk: ForeignKey)
  {
    exists a :: 0 <= a < b && a < |bs| && bs[a].name == fk.refTable && bs[a].pk == Some(fk.refCol)
  }

  lemma ForeignKeysByTable()
    ensures ForeignKeys(TableOrder[0]) == [] && ForeignKeys(TableOrder[1]) == [] && ForeignKeys(TableOrder[2]) == []
    ensures ForeignKeys(TableOrder[3])
            == [ForeignKey("patient_id", "pacientes", "patient_id"), ForeignKey("icu_id", "unidades_uci", "icu_id")]
    ensures ForeignKeys(TableOrder[4]) == [ForeignKey("encounter_id", "encuentros", "encounter_id")]
  {
  }

  /** Every foreign key refers to a table written earlier in the script, and
      to the column that table declares as its primary key. */
  lemma ForeignKeysPointBack(t: Tablas, mediciones: Frame)
    requires TablasOk(t) && FrameOk(mediciones)
    ensures forall b, fk :: 0 <= b < |Orden(t, mediciones)| && fk in ForeignKeys(Orden(t, mediciones)[b].name) ==>
              RefersBack(Orden(t, mediciones), b, fk)
  {
    var bs := Orden(t, mediciones);
    ForeignKeysByTable();
    forall b, fk | 0 <= b < |bs| && fk in ForeignKeys(bs[b].name) ensures RefersBack(bs, b, fk) {
      if b == 3 {
        if fk == ForeignKey("patient_id", "pacientes", "patient_id") {
          assert bs[0].name == fk.refTable && bs[0].pk == Some(fk.refCol);
        } else {
          assert bs[1].name == fk.refTable && bs[1].pk == Some(fk.refCol);
        }
      } else if b == 4 {
        assert bs[3].name == fk.refTable && bs[3].pk == Some(fk.refCol);
      }
    }
  }

  lemma {:induction false} ConcatSplit(parts: seq<string>, k: nat)
    requires k < |parts|
    ensures Concat(parts) == Concat(parts[..k]) + parts[k] + Concat(parts[k + 1..])
    decreases k
  {
    if k > 0 {
      ConcatSplit(parts[1..], k - 1);
      assert parts[1..][..k - 1] == parts[1..k];
      assert parts[1..][k..] == parts[k + 1..];
      assert parts[..k][0] == parts[0] && parts[..k][1..] == parts[1..k];
    } else {
      assert parts[1..] == parts[k + 1..];
    }
  }

  /** In a concatenation, part `k` starts right after the parts before it. */
  lemma ConcatStarts(parts: seq<string>, k: nat, prefix: string)
    requires k < |parts| && |prefix| > 0 && StartsWith(parts[k], prefix)
    ensures |Concat(parts[..k])| < |Concat(parts[..k + 1])| <= |Concat(parts)|
    ensures StartsWith(Concat(parts)[|Concat(parts[..k])|..], prefix)
  {
    var pre := parts[..k + 1];
    ConcatSplit(parts, k);
    ConcatSplit(pre, k);
    assert pre[..k] == parts[..k] && pre[k] == parts[k] && pre[k + 1..] == [];
    var before := Concat(parts[..k]);
    var after := Concat(parts[k + 1..]);
    assert Concat(parts)[|before|..] == parts[k] + after;
  }

  lemma WrappedStarts(pre: string, body: string, post: string, n: nat, prefix: string)
    requires n <= |body| && StartsWith(body[n..], prefix)
    ensures |pre| + n <= |pre + body + post|
    ensures StartsWith((pre + body + post)[|pre| + n..], prefix)
  {
    assert (pre + body + post)[|pre| + n..] == body[n..] + post;
  }

  /** Where the text of block `k` starts in the script. */
  function BlockOffset(bs: seq<Block>, k: nat): nat
    requires forall j :: 0 <= j < |bs| ==> FrameOk(bs[j].frame)
    requires k <= |bs|
  {
    |ScriptStart| + |Concat(BlockTexts(bs)[..k])|
  }

  /** Block `k`'s CREATE TABLE starts at `BlockOffset(k)`, and the offsets
      increase with `k`. */
  lemma ScriptBlocksInOrder(bs: seq<Block>, k: nat)
    requires forall j :: 0 <= j < |bs| ==> FrameOk(bs[j].frame)
    requires k < |bs|
    ensures BlockOffset(bs, k) < BlockOffset(bs, k + 1) <= |Script(bs)|
    ensures StartsWith(Script(bs)[BlockOffset(bs, k)..], CreateHeader(bs[k].name))
  {
    var texts := BlockTexts(bs);
    ConcatStarts(texts, k, CreateHeader(bs[k].name));
    WrappedStarts(ScriptStart, Concat(texts), ScriptEnd, |Concat(texts[..k])|, CreateHeader(bs[k].name));
  }

  /** The hospital script creates its tables in the order pacientes,
      unidades_uci, diagnosticos, encuentros, mediciones: table `k`'s
      CREATE TABLE starts at offset `BlockOffset(k)`, and the offsets
      increase with `k`. */
  lemma TablesInOrder(t: Tablas, mediciones: Frame, k: nat)
    requires TablasOk(t) && FrameOk(mediciones) && k < |TableOrder|
    ensures BlockOffset(Orden(t, mediciones), k) < BlockOffset(Orden(t, mediciones), k + 1)
    ensures BlockOffset(Orden(t, mediciones), k + 1) <= |GenerarSql(t, mediciones)|
    ensures StartsWith(GenerarSql(t, mediciones)[BlockOffset(Orden(t, mediciones), k)..], CreateHeader(TableOrder[k]))
  {
    ScriptBlocksInOrder(Orden(t, mediciones), k);
  }

  // ---------------------------------------------------------------------
  // Keys and column definitions

  lemma EndsWithLast(s: string, suffix: string)
    requires |suffix| > 0 && EndsWith(s, suffix)
    ensures s[|s| - 1] == suffix[|suffix| - 1]
  {
    assert s[|s| - |suffix|..][|suffix| - 1] == s[|s| - 1];
  }

  lemma ColumnDefMark(col: string, d: DType, pk: Option<string>)
    ensures EndsWith(ColumnDef(col, d, pk), PrimaryKeyMark) <==> pk == Some(col)
  {
    var s := ColumnDef(col, d, pk);
    if pk != Some(col) && EndsWith(s, PrimaryKeyMark) {
      EndsWithLast(s, PrimaryKeyMark);
      assert false;
    }
    if pk == Some(col) {
      assert s[|s| - |PrimaryKeyMark|..] == PrimaryKeyMark;
    }
  }

  /** Only the column whose original name is the table's key is marked
      PRIMARY KEY; no foreign key line is. */
  lemma PrimaryKeyOnlyOnKey(b: Block)
    requires FrameOk(b.frame)
    ensures forall k :: 0 <= k < |b.frame.table.cols| ==>
              (EndsWith(ColumnDefs(b)[k], PrimaryKeyMark) <==> b.pk == Some(b.frame.table.cols[k]))
    ensures forall k :: |b.frame.table.cols| <= k < |ColumnDefs(b)| ==> !EndsWith(ColumnDefs(b)[k], PrimaryKeyMark)
  {
    var cols := b.frame.table.cols;
    var defs := ColumnDefs(b);
    forall k | 0 <= k < |cols|
      ensures EndsWith(defs[k], PrimaryKeyMark) <==> b.pk == Some(cols[k])
    {
      ColumnDefMark(cols[k], b.frame.dtypes[k], b.pk);
    }
    forall k | |cols| <= k < |defs| ensures !EndsWith(defs[k], PrimaryKeyMark) {
      var fk := ForeignKeys(b.name)[k - |cols|];
      assert defs[k] == ForeignKeyDef(fk);
      if EndsWith(defs[k], PrimaryKeyMark) {
        EndsWithLast(defs[k], PrimaryKeyMark);
        assert false;
      }
    }
  }

  /** The measurements table declares no primary key, and every other table
      marks at most one column. */
  lemma OnePrimaryKeyAtMost(t: Tablas, mediciones: Frame)
    requires TablasOk(t) && FrameOk(mediciones)
    ensures forall d :: d in ColumnDefs(Orden(t, mediciones)[4]) ==> !EndsWith(d, PrimaryKeyMark)
    ensures forall b, i, j :: 0 <= b < |Orden(t, mediciones)| && 0 <= i < j < |ColumnDefs(Orden(t, mediciones)[b])| ==>
              !(EndsWith(ColumnDefs(Orden(t, mediciones)[b])[i], PrimaryKeyMark)
                && EndsWith(ColumnDefs(Orden(t, mediciones)[b])[j], PrimaryKeyMark))
  {
    var bs := Orden(t, mediciones);
    forall b | 0 <= b < |bs| {
      PrimaryKeyOnlyOnKey(bs[b]);
    }
  }

  /** A column definition names the column by its sanitised name and types
      it by its dtype. */
  lemma ColumnDefNames(b: Block, k: nat)
    requires FrameOk(b.frame) && k < |b.frame.table.cols|
    ensures StartsWith(ColumnDefs(b)[k], "    " + Clean(b.frame.table.cols[k]) + " " + TypeName(MapDtype(b.frame.dtypes[k])))
    ensures IsIdentifier(Clean(b.frame.table.cols[k]))
  {
  }

  // ---------------------------------------------------------------------
  // Reading the INSERT lines back

  /** Reads `<statement>\n` repeatedly to the end of the text. */
  function ReadInsertLines(s: string, head: string): Result<seq<Row>>
    decreases |s|
  {
    if |s| == 0 then Ok([])
    else
      var st := ReadStatement(s, head);
      if st.Err? then Err(st.reason)
      else if !StartsWith(st.value.1, "\n") then Err("expected a line break")
      else
        var more := ReadInsertLines(st.value.1[1..], head);
        if more.Err? then more else Ok([st.value.0] + more.value)
  }

  /** A table's INSERT lines read back as its rows, in order, when every
      cell is a null, a text or an integer. */
  lemma {:induction false} InsertLinesRoundTrip(head: string, rows: seq<Row>)
    requires |head| > 0
    requires forall i :: 0 <= i < |rows| ==> ReadableRow(HospitalDialect, rows[i])
    ensures ReadInsertLines(InsertLines(head, rows), head) == Ok(ReadBackRows(rows))
    decreases |rows|
  {
    if |rows| > 0 {
      var more := InsertLines(head, rows[1..]);
      var s := InsertLines(head, rows);
      assert s == Statement(head, HospitalDialect, rows[0]) + ("\n" + more);
      StatementRoundTrip(head, HospitalDialect, rows[0], "\n" + more);
      assert ("\n" + more)[1..] == more;
      InsertLinesRoundTrip(head, rows[1..]);
      assert ReadBackRows(rows) == [ReadBackRow(rows[0])] + ReadBackRows(rows[1..]);
    }
  }

  /** Every table's INSERTs name the sanitised columns in column order, the
      same names its CREATE TABLE declares, and read back as its rows. */
  lemma BlockInsertsRoundTrip(b: Block)
    requires FrameOk(b.frame)
    requires forall i :: 0 <= i < |b.frame.table.rows| ==> ReadableRow(HospitalDialect, b.frame.table.rows[i])
    ensures InsertHead(b) == "INSERT INTO " + b.name + " (" + Join(", ", CleanCols(b.frame.table.cols)) + ") VALUES ("
    ensures ReadInsertLines(InsertLines(InsertHead(b), b.frame.table.rows), InsertHead(b))
            == Ok(ReadBackRows(b.frame.table.rows))
  {
    InsertLinesRoundTrip(InsertHead(b), b.frame.table.rows);
  }
}

=== FILE: inserts.dfy ===
/** INSERT statements. `df_to_sql_insert` (shared utilities) writes a header
    comment and one `INSERT INTO t VALUES (...) ON CONFLICT DO NOTHING;` per
    row, joined by newlines and with no column list; the hospital script
    writes the sanitised column list before `VALUES`. A statement reader
    recovers the rows, which is what the rendering promises a database
    loading the script. */
module Inserts {
  import opened Text
  import opened Tables
  import opened SqlText

  const ConflictClause: string := " ON CONFLICT DO NOTHING;"

  /** The text of an INSERT up to and including the opening parenthesis of
      the value list. Without a column list: `INSERT INTO t VALUES (`. */
  function PlainHead(name: string): string
  {
    "INSERT INTO " + name + " VALUES ("
  }

  /** With a column list: `INSERT INTO t (c1, c2) VALUES (`. */
  function ListedHead(name: string, cols: seq<string>): string
  {
    "INSERT INTO " + name + " (" + Join(", ", cols) + ") VALUES ("
  }

  /** One INSERT statement, without the line break after it. */
  function Statement(head: string, d: Dialect, row: Row): string
  {
    head + ValueList(d, row) + ")" + ConflictClause
  }

  /** Reads one statement that starts with `head`; returns its row and what
      follows the statement. */
  function ReadStatement(s: string, head: string): (r: Result<(Row, string)>)
    ensures r.Ok? ==> |r.value.1| < |s|
  {
    if !StartsWith(s, head) then Err("expected " + head)
    else
      var vl := ReadValueList(s[|head|..]);
      if vl.Err? then Err(vl.reason)
      else if !StartsWith(vl.value.1, ConflictClause) then Err("expected" + ConflictClause)
      else Ok((vl.value.0, vl.value.1[|ConflictClause|..]))
  }

  /** A statement reads back as the row it was written from. */
  lemma StatementRoundTrip(head: string, d: Dialect, row: Row, tail: string)
    requires ReadableRow(d, row)
    ensures ReadStatement(Statement(head, d, row) + tail, head) == Ok((ReadBackRow(row), tail))
  {
    var s := Statement(head, d, row) + tail;
    var after := ConflictClause + tail;
    assert s == head + (ValueList(d, row) + ")" + after);
    assert s[|head|..] == ValueList(d, row) + ")" + after;
    ValueListRoundTrip(d, row, after);
    assert after[|ConflictClause|..] == tail;
  }

  // ---------------------------------------------------------------------
  // df_to_sql_insert

  /** `f"\n-- Datos para tabla: {table_name} --"`. */
  function Header(name: string): string
  {
    "\n-- Datos para tabla: " + name + " --"
  }

  /** Each row's statement, each preceded by the line break that joins it to
      the text before. */
  function StatementLines(name: string, rows: seq<Row>): string
  {
    if |rows| == 0 then ""
    else "\n" + Statement(PlainHead(name), GenericDialect, rows[0]) + StatementLines(name, rows[1..])
  }

  /** `df_to_sql_insert(df, table_name)`: the header, then one statement per
      row in row order. */
  function DfToSqlInsert(t: Table, name: string): (r: string)
    ensures StartsWith(r, Header(name))
  {
    Header(name) + StatementLines(name, t.rows)
  }

  /** The statements of a table, as the list the source joins. */
  function StatementList(name: string, rows: seq<Row>): (r: seq<string>)
    ensures |r| == |rows|
    ensures forall i :: 0 <= i < |rows| ==> r[i] == Statement(PlainHead(name), GenericDialect, rows[i])
  {
    seq(|rows|, i requires 0 <= i < |rows| => Statement(PlainHead(name), GenericDialect, rows[i]))
  }

  lemma {:induction false} JoinLines(first: string, name: string, rows: seq<Row>)
    ensures Join("\n", [first] + StatementList(name, rows)) == first + StatementLines(name, rows)
    decreases |rows|
  {
    if |rows| > 0 {
      var rest := StatementList(name, rows[1..]);
      assert StatementList(name, rows) == [StatementList(name, rows)[0]] + rest;
      assert ([first] + StatementList(name, rows))[1..] == StatementList(name, rows);
      JoinLines(Statement(PlainHead(name), GenericDialect, rows[0]), name, rows[1..]);
    }
  }

  /** The output is `"\n".join([header] + statements)`: one header line and
      exactly one statement per row, in row order. */
  lemma DfToSqlInsertLines(t: Table, name: string)
    ensures DfToSqlInsert(t, name) == Join("\n", [Header(name)] + StatementList(name, t.rows))
  {
    JoinLines(Header(name), name, t.rows);
  }

  /** Reads `\n<statement>` repeatedly to the end of the text. */
  function ReadStatementLines(s: string, head: string): Result<seq<Row>>
    decreases |s|
  {
    if |s| == 0 then Ok([])
    else if s[0] != '\n' then Err("expected a line break")
    else
      var st := ReadStatement(s[1..], head);
      if st.Err? then Err(st.reason)
      else
        var more := ReadStatementLines(st.value.1, head);
        if more.Err? then more else Ok([st.value.0] + more.value)
  }

  /** Reads the output of `df_to_sql_insert` for a table name. */
  function ReadInsertScript(s: string, name: string): Result<seq<Row>>
  {
    if !StartsWith(s, Header(name)) then Err("missing header")
    else ReadStatementLines(s[|Header(name)|..], PlainHead(name))
  }

  /** The rows a reader recovers from a table. */
  function ReadBackRows(rows: seq<Row>): (r: seq<Row>)
    ensures |r| == |rows|
    ensures forall i :: 0 <= i < |rows| ==> r[i] == ReadBackRow(rows[i])
  {
    seq(|rows|, i requires 0 <= i < |rows| => ReadBackRow(rows[i]))
  }

  lemma {:induction false} StatementLinesRoundTrip(name: string, rows: seq<Row>)
    requires forall i :: 0 <= i < |rows| ==> ReadableRow(GenericDialect, rows[i])
    ensures ReadStatementLines(StatementLines(name, rows), PlainHead(name)) == Ok(ReadBackRows(rows))
    decreases |rows|
  {
    if |rows| > 0 {
      var more := StatementLines(name, rows[1..]);
      var s := StatementLines(name, rows);
      assert s == "\n" + (Statement(PlainHead(name), GenericDialect, rows[0]) + more);
      assert s[1..] == Statement(PlainHead(name), GenericDialect, rows[0]) + more;
      StatementRoundTrip(PlainHead(name), GenericDialect, rows[0], more);
      StatementLinesRoundTrip(name, rows[1..]);
      assert ReadBackRows(rows) == [ReadBackRow(rows[0])] + ReadBackRows(rows[1..]);
    }
  }

  /** Reading back the output of `df_to_sql_insert` gives the table's rows,
      in order, for a table of nulls, texts, integers and dates. */
  lemma DfToSqlInsertRoundTrip(t: Table, name: string)
    requires forall i :: 0 <= i < |t.rows| ==> ReadableRow(GenericDialect, t.rows[i])
    ensures ReadInsertScript(DfToSqlInsert(t, name), name) == Ok(ReadBackRows(t.rows))
  {
    var s := DfToSqlInsert(t, name);
    assert s[|Header(name)|..] == StatementLines(name, t.rows);
    StatementLinesRoundTrip(name, t.rows);
  }
}

=== FILE: order.dfy ===
/** Orderings the pipeline sorts by, and sorting a list into its distinct
    values. `sort_values('name')` in the catalog compares Python strings;
    `groupby([...])` sorts its composite keys. */
module Order {
  import opened Tables

  /** Python's `a < b` on `str`: lexicographic by code point, a proper prefix
      coming first. */
  predicate StrLt(a: string, b: string)
    decreases |a|
  {
    if |a| == 0 then |b| > 0
    else if |b| == 0 then false
    else a[0] < b[0] || (a[0] == b[0] && StrLt(a[1..], b[1..]))
  }

  lemma {:induction false} StrLtIrreflexive(a: string)
    ensures !StrLt(a, a)
    decreases |a|
  {
    if |a| > 0 { StrLtIrreflexive(a[1..]); }
  }

  lemma {:induction false} StrLtTransitive(a: string, b: string, c: string)
    requires StrLt(a, b) && StrLt(b, c)
    ensures StrLt(a, c)
    decreases |a|
  {
    if |a| > 0 && a[0] == b[0] && b[0] == c[0] {
      StrLtTransitive(a[1..], b[1..], c[1..]);
    }
  }

  lemma {:induction false} StrLtTotal(a: string, b: string)
    requires a != b
    ensures StrLt(a, b) || StrLt(b, a)
    decreases |a|
  {
    if |a| > 0 && |b| > 0 && a[0] == b[0] {
      assert a == [a[0]] + a[1..] && b == [b[0]] + b[1..];
      StrLtTotal(a[1..], b[1..]);
    }
  }

  /** Rank of each kind of cell when keys of different kinds are compared. */
  function Rank(v: Value): nat
  {
    match v
    case Null => 0
    case Int(_) => 1
    case Str(_) => 2
    case Temporal(_) => 3
    case Opaque(_) => 4
  }

  /** The order group keys are sorted in: integers numerically, text
      lexicographically, and kinds by `Rank` when they differ. */
  predicate ValueLt(a: Value, b: Value)
  {
    if Rank(a) != Rank(b) then Rank(a) < Rank(b)
    else match (a, b)
      case (Int(x), Int(y)) => x < y
      case (Str(x), Str(y)) => StrLt(x, y)
      case (Temporal(x), Temporal(y)) => StrLt(x, y)
      case (Opaque(x), Opaque(y)) => StrLt(x, y)
      case _ => false
  }

  lemma ValueLtStrict(a: Value, b: Value, c: Value)
    ensures !ValueLt(a, a)
    ensures ValueLt(a, b) && ValueLt(b, c) ==> ValueLt(a, c)
    ensures a != b ==> ValueLt(a, b) || ValueLt(b, a)
  {
    match a {
      case Str(x) => StrLtIrreflexive(x);
      case Temporal(x) => StrLtIrreflexive(x);
      case Opaque(x) => StrLtIrreflexive(x);
      case _ =>
    }
    if ValueLt(a, b) && ValueLt(b, c) && Rank(a) == Rank(b) == Rank(c) {
      match (a, b, c) {
        case (Str(x), Str(y), Str(z)) => StrLtTransitive(x, y, z);
        case (Temporal(x), Temporal(y), Temporal(z)) => StrLtTransitive(x, y, z);
        case (Opaque(x), Opaque(y), Opaque(z)) => StrLtTransitive(x, y, z);
        case _ =>
      }
    }
    if a != b && Rank(a) == Rank(b) {
      match (a, b) {
        case (Str(x), Str(y)) => StrLtTotal(x, y);
        case (Temporal(x), Temporal(y)) => StrLtTotal(x, y);
        case (Opaque(x), Opaque(y)) => StrLtTotal(x, y);
        case _ =>
      }
    }
  }

  /** Lexicographic order on two-column keys. */
  predicate PairLt(a: (Value, Value), b: (Value, Value))
  {
    ValueLt(a.0, b.0) || (a.0 == b.0 && ValueLt(a.1, b.1))
  }

  // ---------------------------------------------------------------------
  // Sorting into distinct values

  /** `lt` is a strict total order. */
  ghost predicate StrictTotal<T(!new)>(lt: (T, T) -> bool)
  {
    && (forall a :: !lt(a, a))
    && (forall a, b, c :: lt(a, b) && lt(b, c) ==> lt(a, c))
    && (forall a, b :: a != b ==> lt(a, b) || lt(b, a))
  }

  predicate Sorted<T>(s: seq<T>, lt: (T, T) -> bool)
  {
    forall i, j :: 0 <= i < j < |s| ==> lt(s[i], s[j])
  }

  lemma StrLtStrictTotal()
    ensures StrictTotal(StrLt)
  {
    forall a ensures !StrLt(a, a) { StrLtIrreflexive(a); }
    forall a, b, c | StrLt(a, b) && StrLt(b, c) ensures StrLt(a, c) {
      StrLtTransitive(a, b, c);
    }
    forall a, b | a != b ensures StrLt(a, b) || StrLt(b, a) { StrLtTotal(a, b); }
  }

  lemma PairLtStrictTotal()
    ensures StrictTotal(PairLt)
  {
    forall a: (Value, Value) ensures !PairLt(a, a) { ValueLtStrict(a.0, a.0, a.0); ValueLtStrict(a.1, a.1, a.1); }
    forall a: (Value, Value), b: (Value, Value), c: (Value, Value) | PairLt(a, b) && PairLt(b, c)
      ensures PairLt(a, c)
    {
      ValueLtStrict(a.0, b.0, c.0);
      ValueLtStrict(a.1, b.1, c.1);
      ValueLtStrict(a.0, a.0, a.0);
      ValueLtStrict(b.0, b.0, b.0);
    }
    forall a: (Value, Value), b: (Value, Value) | a != b ensures PairLt(a, b) || PairLt(b, a) {
      ValueLtStrict(a.0, b.0, b.0);
      ValueLtStrict(a.1, b.1, b.1);
    }
  }

  /** Inserts `x` into a strictly ascending list unless it is already there. */
  function Insert<T(==)>(s: seq<T>, x: T, lt: (T, T) -> bool): seq<T>
  {
    if |s| == 0 then [x]
    else if x == s[0] then s
    else if lt(x, s[0]) then [x] + s
    else [s[0]] + Insert(s[1..], x, lt)
  }

  lemma {:induction false} InsertSorted<T(!new)>(s: seq<T>, x: T, lt: (T, T) -> bool)
    requires Sorted(s, lt) && StrictTotal(lt)
    ensures Sorted(Insert(s, x, lt), lt)
    ensures forall y :: y in Insert(s, x, lt) <==> y in s || y == x
  {
    if |s| > 0 && x != s[0] && !lt(x, s[0]) {
      assert lt(s[0], x);
      var tail := s[1..];
      InsertSorted(tail, x, lt);
      var ins := Insert(tail, x, lt);
      var r := Insert(s, x, lt);
      assert r == [s[0]] + ins;
      forall j | 0 < j < |r| ensures lt(s[0], r[j]) {
        assert r[j] == ins[j - 1];
        assert r[j] in ins;
        if r[j] != x {
          var k :| 0 <= k < |tail| && tail[k] == r[j];
          assert s[k + 1] == r[j];
        }
      }
      forall y ensures y in r <==> y in s || y == x {
        assert s == [s[0]] + tail;
      }
    } else if |s| > 0 && x != s[0] {
      var r := Insert(s, x, lt);
      assert r == [x] + s;
      forall i, j | 0 <= i < j < |r| ensures lt(r[i], r[j]) {
        if i == 0 && j > 1 {
          assert lt(x, s[0]) && lt(s[0], s[j - 1]);
        }
      }
    }
  }

  /** The distinct elements of `xs`, in ascending order. */
  function SortDistinct<T(==)>(xs: seq<T>, lt: (T, T) -> bool): seq<T>
  {
    if |xs| == 0 then [] else Insert(SortDistinct(xs[..|xs| - 1], lt), xs[|xs| - 1], lt)
  }

  /** Sorting into distinct values gives an ascending list holding exactly the
      input's values. */
  lemma {:induction false} SortDistinctSpec<T(!new)>(xs: seq<T>, lt: (T, T) -> bool)
    requires StrictTotal(lt)
    ensures Sorted(SortDistinct(xs, lt), lt)
    ensures forall y :: y in SortDistinct(xs, lt) <==> y in xs
  {
    if |xs| > 0 {
      var init := xs[..|xs| - 1];
      var last := xs[|xs| - 1];
      assert xs == init + [last];
      SortDistinctSpec(init, lt);
      InsertSorted(SortDistinct(init, lt), last, lt);
    }
  }

  /** A list ascending under a strict order has no repeated element. */
  lemma SortedDistinct<T(!new)>(s: seq<T>, lt: (T, T) -> bool)
    requires Sorted(s, lt) && StrictTotal(lt)
    ensures Distinct(s)
  {
    forall i, j | 0 <= i < j < |s| ensures s[i] != s[j] {
      assert lt(s[i], s[j]);
    }
  }
}

=== FILE: sanitize.dfy ===
/** Column-name sanitising (`limpiar_nombre_columna`): every run of non-word
    characters becomes one `_`, the result is lower-cased, and `_` is cut
    from both ends. ASCII only: a word character is a letter, a digit or `_`. */
module Sanitize {
  import opened Text

  /** `re.sub(r'\W+', '_', s)`. `inRun` records that the character before
      `s` was a non-word character whose run already produced its `_`. */
  function CollapseRuns(s: string, inRun: bool): (r: string)
    ensures forall i :: 0 <= i < |r| ==> IsWordChar(r[i])
    decreases |s|
  {
    if |s| == 0 then ""
    else if IsWordChar(s[0]) then [s[0]] + CollapseRuns(s[1..], false)
    else if inRun then CollapseRuns(s[1..], true)
    else "_" + CollapseRuns(s[1..], true)
  }

  function TrimLeftUnderscores(s: string): (r: string)
    ensures |r| <= |s| && r == s[|s| - |r|..]
    ensures |r| > 0 ==> r[0] != '_'
    ensures forall k :: 0 <= k < |s| - |r| ==> s[k] == '_'
  {
    if |s| > 0 && s[0] == '_' then TrimLeftUnderscores(s[1..]) else s
  }

  function TrimRightUnderscores(s: string): (r: string)
    ensures |r| <= |s| && r == s[..|r|]
    ensures |r| > 0 ==> r[|r| - 1] != '_'
    ensures forall k :: |r| <= k < |s| ==> s[k] == '_'
  {
    if |s| > 0 && s[|s| - 1] == '_' then TrimRightUnderscores(s[..|s| - 1]) else s
  }

  /** `s.strip('_')`. */
  function StripUnderscores(s: string): (r: string)
    ensures |r| <= |s|
    ensures |r| > 0 ==> r[0] != '_' && r[|r| - 1] != '_'
    ensures forall i :: 0 <= i < |r| ==> r[i] in s
  {
    var l := TrimLeftUnderscores(s);
    var r := TrimRightUnderscores(l);
    assert |r| > 0 ==> r[0] == l[0];
    assert forall i :: 0 <= i < |r| ==> r[i] == s[|s| - |l| + i];
    r
  }

  /** `strip('_')` removes only underscores: what it returns is a slice of
      the input with nothing but `_` on either side; as the slice neither
      starts nor ends with `_`, it is the longest such slice. */
  lemma StripUnderscoresIsTrim(s: string)
    ensures var i := |s| - |TrimLeftUnderscores(s)|;
            var r := StripUnderscores(s);
            && i + |r| <= |s| && r == s[i..i + |r|]
            && (forall k :: 0 <= k < i ==> s[k] == '_')
            && (forall k :: i + |r| <= k < |s| ==> s[k] == '_')
  {
    var l := TrimLeftUnderscores(s);
    var r := TrimRightUnderscores(l);
    var i := |s| - |l|;
    SliceOfSlice(s, i, |r|);
    forall k | i + |r| <= k < |s| ensures s[k] == '_' {
      assert s[k] == l[k - i];
    }
  }

  /** A character a sanitised name may hold: `[a-z0-9_]`. */
  predicate IsIdentChar(c: char) { IsLower(c) || IsDigit(c) || c == '_' }

  /** What the sanitiser promises of its output: only `[a-z0-9_]`, and no
      `_` at either end. */
  predicate IsIdentifier(s: string) {
    && (forall i :: 0 <= i < |s| ==> IsIdentChar(s[i]))
    && (|s| > 0 ==> s[0] != '_' && s[|s| - 1] != '_')
  }

  /** `limpiar_nombre_columna(nombre)`. */
  function Clean(name: string): (r: string)
    ensures IsIdentifier(r)
  {
    var lowered := Lower(CollapseRuns(name, false));
    assert forall i :: 0 <= i < |lowered| ==> IsIdentChar(lowered[i]);
    StripUnderscores(lowered)
  }

  // ---------------------------------------------------------------------
  // Every step leaves an identifier alone, so sanitising is idempotent.

  lemma {:induction false} CollapseKeepsWords(s: string, inRun: bool)
    requires forall i :: 0 <= i < |s| ==> IsWordChar(s[i])
    ensures CollapseRuns(s, inRun) == s
    decreases |s|
  {
    if |s| > 0 {
      CollapseKeepsWords(s[1..], false);
      assert s == [s[0]] + s[1..];
    }
  }

  lemma {:induction false} LowerKeepsLower(s: string)
    requires forall i :: 0 <= i < |s| ==> !IsUpper(s[i])
    ensures Lower(s) == s
  {
  }

  lemma StripKeepsTrimmed(s: string)
    requires |s| > 0 ==> s[0] != '_' && s[|s| - 1] != '_'
    ensures StripUnderscores(s) == s
  {
    assert TrimLeftUnderscores(s) == s;
    assert TrimRightUnderscores(s) == s;
  }

  /** A name that already is an identifier is its own sanitised form. */
  lemma CleanFixesIdentifiers(s: string)
    requires IsIdentifier(s)
    ensures Clean(s) == s
  {
    CollapseKeepsWords(s, false);
    LowerKeepsLower(s);
    StripKeepsTrimmed(s);
  }

  /** Sanitising twice gives the same result as sanitising once. */
  lemma CleanIdempotent(s: string)
    ensures Clean(Clean(s)) == Clean(s)
  {
    CleanFixesIdentifiers(Clean(s));
  }

  // ---------------------------------------------------------------------
  // Sanitising loses no letter or digit: it only rewrites the separators.

  /** The letters and digits of `s`, in order. */
  function Alnums(s: string): (r: string)
  {
    if |s| == 0 then "" else (if IsAlnum(s[0]) then [s[0]] else "") + Alnums(s[1..])
  }

  lemma {:induction false} AlnumsAppend(a: string, b: string)
    ensures Alnums(a + b) == Alnums(a) + Alnums(b)
    decreases |a|
  {
    if |a| > 0 {
      assert (a + b)[1..] == a[1..] + b;
      AlnumsAppend(a[1..], b);
    } else {
      assert a + b == b;
    }
  }

  lemma {:induction false} AlnumsCollapse(s: string, inRun: bool)
    ensures Alnums(CollapseRuns(s, inRun)) == Alnums(s)
    decreases |s|
  {
    if |s| > 0 {
      AlnumsCollapse(s[1..], IsWordChar(s[0]) == false);
      if IsWordChar(s[0]) {
        AlnumsAppend([s[0]], CollapseRuns(s[1..], false));
      } else if !inRun {
        AlnumsAppend("_", CollapseRuns(s[1..], true));
      }
    }
  }

  lemma {:induction false} AlnumsLower(s: string)
    ensures Alnums(Lower(s)) == Lower(Alnums(s))
    decreases |s|
  {
    if |s| > 0 {
      AlnumsLower(s[1..]);
      assert Lower(s) == [LowerChar(s[0])] + Lower(s[1..]);
      AlnumsAppend([LowerChar(s[0])], Lower(s[1..]));
      var head := if IsAlnum(s[0]) then [s[0]] else "";
      assert Lower(head + Alnums(s[1..])) == Lower(head) + Lower(Alnums(s[1..]));
    }
  }

  lemma {:induction false} LowerAppend(a: string, b: string)
    ensures Lower(a + b) == Lower(a) + Lower(b)
  {
  }

  lemma {:induction false} AlnumsTrimLeft(s: string)
    ensures Alnums(TrimLeftUnderscores(s)) == Alnums(s)
    decreases |s|
  {
    if |s| > 0 && s[0] == '_' {
      AlnumsTrimLeft(s[1..]);
    }
  }

  lemma {:induction false} AlnumsTrimRight(s: string)
    ensures Alnums(TrimRightUnderscores(s)) == Alnums(s)
    decreases |s|
  {
    if |s| > 0 && s[|s| - 1] == '_' {
      var init := s[..|s| - 1];
      AlnumsTrimRight(init);
      assert s == init + "_";
      AlnumsAppend(init, "_");
    }
  }

  /** The sanitised name spells exactly the letters and digits of the
      original, lower-cased and in order. */
  lemma CleanKeepsAlnums(s: string)
    ensures Alnums(Clean(s)) == Lower(Alnums(s))
  {
    var collapsed := CollapseRuns(s, false);
    var lowered := Lower(collapsed);
    AlnumsCollapse(s, false);
    AlnumsLower(collapsed);
    AlnumsTrimLeft(lowered);
    AlnumsTrimRight(TrimLeftUnderscores(lowered));
  }

  /** A run of word characters is copied through unchanged and closes any
      pending run of separators. */
  lemma {:induction false} CollapseWordPrefix(w: string, rest: string, inRun: bool)
    requires |w| > 0 && forall i :: 0 <= i < |w| ==> IsWordChar(w[i])
    ensures CollapseRuns(w + rest, inRun) == w + CollapseRuns(rest, false)
    decreases |w|
  {
    assert (w + rest)[1..] == w[1..] + rest;
    if |w| > 1 {
      CollapseWordPrefix(w[1..], rest, false);
      assert w == [w[0]] + w[1..];
    } else {
      assert w[1..] + rest == rest;
    }
  }

  /** A run of separators yields one `_`, or none when a run is already
      pending. */
  lemma {:induction false} CollapseSeparatorPrefix(sep: string, rest: string, inRun: bool)
    requires |sep| > 0 && forall i :: 0 <= i < |sep| ==> !IsWordChar(sep[i])
    ensures CollapseRuns(sep + rest, inRun) == (if inRun then "" else "_") + CollapseRuns(rest, true)
    decreases |sep|
  {
    assert (sep + rest)[1..] == sep[1..] + rest;
    if |sep| > 1 {
      CollapseSeparatorPrefix(sep[1..], rest, true);
    } else {
      assert sep[1..] + rest == rest;
    }
  }

  /** A word followed by a run of separators: the word, then one `_`. */
  lemma CollapseWordThenSeparators(w: string, sep: string, rest: string, inRun: bool)
    requires |w| > 0 && forall i :: 0 <= i < |w| ==> IsWordChar(w[i])
    requires |sep| > 0 && forall i :: 0 <= i < |sep| ==> !IsWordChar(sep[i])
    ensures CollapseRuns(w + sep + rest, inRun) == w + "_" + CollapseRuns(rest, true)
  {
    CollapseSeparatorPrefix(sep, rest, false);
    assert w + sep + rest == w + (sep + rest);
    CollapseWordPrefix(w, sep + rest, inRun);
  }

  /** Lower-casing is decided character by character. */
  lemma LowerIs(s: string, t: string)
    requires |t| == |s| && forall i :: 0 <= i < |s| ==> t[i] == LowerChar(s[i])
    ensures Lower(s) == t
  {
  }
}

/** Worked examples of the column-name sanitiser. */
module SanitizeExamples {
  import opened Text
  import opened Sanitize

  lemma CollapseUnit()
    ensures CollapseRuns("Total (kg)", false) == "Total_kg_"
  {
    CollapseWordThenSeparators("kg", ")", "", true);
    CollapseWordThenSeparators("Total", " (", "kg)", false);
    assert "kg)" == "kg" + ")" + "";
    assert "Total (kg)" == "Total" + " (" + "kg)";
    assert "Total_kg_" == "Total" + "_" + ("kg" + "_" + "");
  }

  lemma LowerUnit()
    ensures Lower("Total_kg_") == "total_kg_"
  {
    LowerIs("Total_kg_", "total_kg_");
  }

  lemma TrimUnit()
    ensures TrimLeftUnderscores("total_kg_") == "total_kg_"
    ensures TrimRightUnderscores("total_kg_") == "total_kg"
  { }

  /** A name with a parenthesised unit loses the brackets and the space. */
  lemma CleanUnitExample()
    ensures Clean("Total (kg)") == "total_kg"
  {
    CollapseUnit();
    LowerUnit();
    TrimUnit();
  }

  lemma CollapseUnnamed()
    ensures CollapseRuns("Unnamed: 83", false) == "Unnamed_83"
  {
    CollapseWordPrefix("83", "", true);
    CollapseWordThenSeparators("Unnamed", ": ", "83", false);
    assert "83" + "" == "83";
    assert "Unnamed: 83" == "Unnamed" + ": " + "83";
    assert "Unnamed_83" == "Unnamed" + "_" + "83";
  }

  lemma LowerUnnamed()
    ensures Lower("Unnamed_83") == "unnamed_83"
  {
    LowerIs("Unnamed_83", "unnamed_83");
  }

  lemma TrimUnnamed()
    ensures TrimLeftUnderscores("unnamed_83") == "unnamed_83"
    ensures TrimRightUnderscores("unnamed_83") == "unnamed_83"
  { }

  /** A pandas placeholder header becomes a plain identifier. */
  lemma CleanUnnamedExample()
    ensures Clean("Unnamed: 83") == "unnamed_83"
  {
    CollapseUnnamed();
    LowerUnnamed();
    TrimUnnamed();
  }
}

=== FILE: sqltext.dfy ===
/** SQL literals as the two script generators write them, and a reader for
    them. `df_to_sql_insert` and the inline serialiser of `generar_sql` both
    double embedded single quotes; they differ in how they write date and time
    values. The reader is the inverse the rendering promises: it recovers the
    cell from its literal. */
module SqlText {
  import opened Text
  import opened Tables

  /** `s.replace("'", "''")`. */
  function Escape(s: string): (r: string)
    ensures |r| >= |s|
    ensures (forall i :: 0 <= i < |s| ==> s[i] != '\'') ==> r == s
  {
    if |s| == 0 then ""
    else (if s[0] == '\'' then "''" else [s[0]]) + Escape(s[1..])
  }

  /** A single-quoted SQL string literal: `f"'{clean_str}'"`. */
  function Quote(s: string): string
  {
    "'" + Escape(s) + "'"
  }

  /** Reads the body of a quoted literal whose opening quote is already
      consumed: `''` stands for one quote and a lone `'` closes the literal.
      Returns the text and what follows the closing quote. */
  function ReadQuoted(s: string): (r: Result<(string, string)>)
    ensures r.Ok? ==> |r.value.1| < |s|
    decreases |s|
  {
    if |s| == 0 then Err("unterminated literal")
    else if s[0] == '\'' then
      if |s| > 1 && s[1] == '\'' then
        var more := ReadQuoted(s[2..]);
        if more.Err? then more else Ok(("'" + more.value.0, more.value.1))
      else Ok(("", s[1..]))
    else
      var more := ReadQuoted(s[1..]);
      if more.Err? then more else Ok(([s[0]] + more.value.0, more.value.1))
  }

  /** The reader turns a doubled quote into one quote and carries on. */
  lemma ReadQuotedDoubled(tail: string, v: string, w: string)
    requires ReadQuoted(tail) == Ok((v, w))
    ensures ReadQuoted("''" + tail) == Ok(("'" + v, w))
  {
    assert ("''" + tail)[2..] == tail;
  }

  /** The reader copies any other character and carries on. */
  lemma ReadQuotedPlain(c: char, tail: string, v: string, w: string)
    requires c != '\'' && ReadQuoted(tail) == Ok((v, w))
    ensures ReadQuoted([c] + tail) == Ok(([c] + v, w))
  {
    assert ([c] + tail)[1..] == tail;
  }

  /** Escaping works character by character. */
  lemma EscapeCons(x: string, t: string)
    requires |x| > 0
    ensures x[0] == '\'' ==> Escape(x) + t == "''" + (Escape(x[1..]) + t)
    ensures x[0] != '\'' ==> Escape(x) + t == [x[0]] + (Escape(x[1..]) + t)
  {
    var e := Escape(x[1..]);
    if x[0] == '\'' {
      assert Escape(x) == "''" + e;
      Associate("''", e, t);
    } else {
      assert Escape(x) == [x[0]] + e;
      Associate([x[0]], e, t);
    }
  }

  lemma HeadTail(x: string)
    requires |x| > 0
    ensures [x[0]] + x[1..] == x
  {
  }

  /** Un-doubling the quotes of an escaped text gives the text back, and the
      reader stops exactly at the closing quote. */
  lemma {:induction false} ReadQuotedEscape(x: string, rest: string)
    requires |rest| == 0 || rest[0] != '\''
    ensures ReadQuoted(Escape(x) + "'" + rest) == Ok((x, rest))
    decreases |x|
  {
    if |x| == 0 {
      var s := "'" + rest;
      assert Escape(x) + "'" + rest == s;
      assert s[1..] == rest;
    } else {
      var tail := Escape(x[1..]) + "'" + rest;
      ReadQuotedEscape(x[1..], rest);
      Associate(Escape(x), "'", rest);
      Associate(Escape(x[1..]), "'", rest);
      EscapeCons(x, "'" + rest);
      HeadTail(x);
      if x[0] == '\'' {
        ReadQuotedDoubled(tail, x[1..], rest);
      } else {
        ReadQuotedPlain(x[0], tail, x[1..], rest);
      }
    }
  }

  /** A quoted literal reads back as the original text. */
  lemma QuoteRoundTrip(x: string, rest: string)
    requires |rest| == 0 || rest[0] != '\''
    ensures |Quote(x) + rest| > 0 && (Quote(x) + rest)[0] == '\''
    ensures ReadQuoted((Quote(x) + rest)[1..]) == Ok((x, rest))
  {
    ReadQuotedEscape(x, rest);
    assert (Quote(x) + rest)[1..] == Escape(x) + "'" + rest;
  }

  // ---------------------------------------------------------------------
  // Rendering one cell

  /** The two serialisers: `df_to_sql_insert` in the shared utilities, and
      the one written inline in the hospital script's `generar_sql`. */
  datatype Dialect = GenericDialect | HospitalDialect

  /** The SQL text of one cell.
      GenericDialect: null first, then text, then date/time quoted, else `str(v)`.
      HospitalDialect: text first, then null (its `val == 'nan'` test is reached
      only by non-text values, so it never fires), else `str(v)`. Since a
      `Value` is exactly one kind, the order of the tests matters only for
      the text "nan", which both dialects quote. */
  function Render(d: Dialect, v: Value): string
  {
    match v
    case Null => "NULL"
    case Str(s) => Quote(s)
    case Int(i) => IntToString(i)
    case Temporal(repr) => if d == GenericDialect then "'" + repr + "'" else repr
    case Opaque(repr) => repr
  }

  /** The two dialects differ only on date/time values, which the generic one
      quotes and the hospital one leaves bare. */
  lemma DialectsDiffer(v: Value)
    ensures !v.Temporal? ==> Render(GenericDialect, v) == Render(HospitalDialect, v)
    ensures v.Temporal? ==> Render(GenericDialect, v) == "'" + Render(HospitalDialect, v) + "'"
    ensures Render(GenericDialect, v) == "NULL" <== v.Null?
  {
  }

  /** The hospital serialiser's `'nan'` test is never reached by text: the
      text "nan" is quoted like any other. */
  lemma NanTextQuoted()
    ensures Render(HospitalDialect, Str("nan")) == "'nan'"
  {
    var nan := "nan";
    assert forall i :: 0 <= i < |nan| ==> nan[i] != '\'';
  }

  /** A value whose literal reads back: null, text, an integer, or (in the
      generic dialect) a date/time whose text holds no quote. */
  predicate Readable(d: Dialect, v: Value)
  {
    match v
    case Null => true
    case Str(_) => true
    case Int(_) => true
    case Temporal(repr) => d == GenericDialect && forall i :: 0 <= i < |repr| ==> repr[i] != '\''
    case Opaque(_) => false
  }

  /** What reading a literal gives back: a quoted date/time reads as text. */
  function ReadBack(v: Value): Value
  {
    if v.Temporal? then Str(v.repr) else v
  }

  // ---------------------------------------------------------------------
  // Reading one cell

  /** Reads one literal: `NULL`, a quoted string, or an optionally negative
      decimal integer. */
  function ReadValue(s: string): (r: Result<(Value, string)>)
    ensures r.Ok? ==> |r.value.1| < |s|
  {
    if StartsWith(s, "NULL") then Ok((Null, s[4..]))
    else if |s| > 0 && s[0] == '\'' then
      var q := ReadQuoted(s[1..]);
      if q.Err? then Err(q.reason) else Ok((Str(q.value.0), q.value.1))
    else if |s| > 0 && s[0] == '-' then
      var ds := TakeDigits(s[1..]);
      if |ds| == 0 then Err("expected a literal")
      else Ok((Int(-(DigitsValue(ds) as int)), s[1 + |ds|..]))
    else
      var ds := TakeDigits(s);
      if |ds| == 0 then Err("expected a literal")
      else Ok((Int(DigitsValue(ds)), s[|ds|..]))
  }

  /** A separator may follow a literal: a comma or the closing parenthesis. */
  predicate Delimited(rest: string)
  {
    |rest| > 0 && (rest[0] == ',' || rest[0] == ')')
  }

  /** Text that does not start with `N` is not the null literal. */
  lemma NotNull(s: string)
    requires |s| > 0 && s[0] != 'N'
    ensures !StartsWith(s, "NULL")
  {
    if |s| >= 4 { assert s[..4][0] == s[0]; }
  }

  lemma ReadNat(n: nat, rest: string)
    requires Delimited(rest)
    ensures TakeDigits(NatToString(n) + rest) == NatToString(n)
    ensures DigitsValue(NatToString(n)) == n
  {
    TakeAllDigits(NatToString(n), rest);
    NatToStringValue(n);
  }

  lemma ReadNatLiteral(n: nat, rest: string)
    requires Delimited(rest)
    ensures ReadValue(NatToString(n) + rest) == Ok((Int(n), rest))
  {
    var ds := NatToString(n);
    var s := ds + rest;
    ReadNat(n, rest);
    assert s[0] == ds[0] && IsDigit(s[0]);
    NotNull(s);
    assert s[|ds|..] == rest;
  }

  /** What the reader does with text that starts with a minus sign. */
  lemma ReadValueMinus(s: string)
    requires |s| > 0 && s[0] == '-'
    ensures ReadValue(s) == (var ds := TakeDigits(s[1..]);
                             if |ds| == 0 then Err("expected a literal")
                             else Ok((Int(-(DigitsValue(ds) as int)), s[1 + |ds|..])))
  {
    NotNull(s);
  }

  lemma ReadNegativeLiteral(n: nat, rest: string)
    requires n > 0 && Delimited(rest)
    ensures ReadValue("-" + NatToString(n) + rest) == Ok((Int(-(n as int)), rest))
  {
    var ds := NatToString(n);
    var s := "-" + ds + rest;
    ReadNat(n, rest);
    Associate("-", ds, rest);
    DropPrefix("-", ds + rest);
    DropPrefix("-" + ds, rest);
    ReadValueMinus(s);
  }

  lemma ReadIntLiteral(i: int, rest: string)
    requires Delimited(rest)
    ensures ReadValue(IntToString(i) + rest) == Ok((Int(i), rest))
  {
    if i < 0 {
      ReadNegativeLiteral(-i, rest);
      assert IntToString(i) + rest == "-" + NatToString(-i) + rest;
    } else {
      ReadNatLiteral(i, rest);
    }
  }

  lemma ReadQuotedLiteral(x: string, rest: string)
    requires Delimited(rest)
    ensures ReadValue(Quote(x) + rest) == Ok((Str(x), rest))
  {
    var s := Quote(x) + rest;
    QuoteRoundTrip(x, rest);
    NotNull(s);
  }

  /** Every readable cell's literal reads back as that cell. */
  lemma ReadRendered(d: Dialect, v: Value, rest: string)
    requires Readable(d, v) && Delimited(rest)
    ensures ReadValue(Render(d, v) + rest) == Ok((ReadBack(v), rest))
  {
    match v
    case Null =>
      var s := Render(d, v) + rest;
      assert s[..4] == "NULL" && s[4..] == rest;
    case Str(x) =>
      ReadQuotedLiteral(x, rest);
    case Temporal(repr) =>
      assert Render(d, v) == Quote(repr);
      ReadQuotedLiteral(repr, rest);
    case Int(i) =>
      ReadIntLiteral(i, rest);
  }

  // ---------------------------------------------------------------------
  // A parenthesised list of cells

  /** The literals of a row, in cell order. */
  function Literals(d: Dialect, row: Row): (r: seq<string>)
    ensures |r| == |row|
    ensures forall k :: 0 <= k < |row| ==> r[k] == Render(d, row[k])
  {
    if |row| == 0 then [] else [Render(d, row[0])] + Literals(d, row[1..])
  }

  /** `", ".join(vals)` over a row's literals. */
  function ValueList(d: Dialect, row: Row): string
  {
    Join(", ", Literals(d, row))
  }

  /** Reads `lit, lit, ..., lit)` (at least one literal). */
  function ReadItems(s: string): (r: Result<(seq<Value>, string)>)
    ensures r.Ok? ==> |r.value.1| < |s|
    decreases |s|
  {
    var first := ReadValue(s);
    if first.Err? then Err(first.reason)
    else
      var rest := first.value.1;
      if StartsWith(rest, ", ") then
        var more := ReadItems(rest[2..]);
        if more.Err? then more else Ok(([first.value.0] + more.value.0, more.value.1))
      else if |rest| > 0 && rest[0] == ')' then Ok(([first.value.0], rest[1..]))
      else Err("expected ',' or ')'")
  }

  /** Reads a value list up to and including its closing parenthesis. */
  function ReadValueList(s: string): (r: Result<(seq<Value>, string)>)
    ensures r.Ok? ==> |r.value.1| < |s|
  {
    if |s| > 0 && s[0] == ')' then Ok(([], s[1..])) else ReadItems(s)
  }

  /** The cells a reader recovers from a row. */
  function ReadBackRow(row: Row): (r: Row)
    ensures |r| == |row|
    ensures forall k :: 0 <= k < |row| ==> r[k] == ReadBack(row[k])
  {
    if |row| == 0 then [] else [ReadBack(row[0])] + ReadBackRow(row[1..])
  }

  predicate ReadableRow(d: Dialect, row: Row)
  {
    forall k :: 0 <= k < |row| ==> Readable(d, row[k])
  }

  lemma ReadItemsOne(s: string, v: Value, tail: string)
    requires ReadValue(s) == Ok((v, ")" + tail))
    ensures ReadItems(s) == Ok(([v], tail))
  {
    var rest := ")" + tail;
    assert !StartsWith(rest, ", ") by {
      if |rest| >= 2 { assert rest[..2][0] == ')'; }
    }
    assert rest[1..] == tail;
  }

  lemma ReadItemsCons(s: string, v: Value, rest: string, vs: seq<Value>, tail: string)
    requires ReadValue(s) == Ok((v, ", " + rest))
    requires ReadItems(rest) == Ok((vs, tail))
    ensures ReadItems(s) == Ok(([v] + vs, tail))
  {
    assert (", " + rest)[2..] == rest;
  }

  /** A one-cell list: the literal, then the closing parenthesis. */
  lemma ReadItemsRenderedOne(d: Dialect, row: Row, tail: string)
    requires |row| == 1 && ReadableRow(d, row)
    ensures ReadItems(ValueList(d, row) + ")" + tail) == Ok((ReadBackRow(row), tail))
  {
    var head := Render(d, row[0]);
    assert Literals(d, row) == [head];
    assert ValueList(d, row) + ")" + tail == head + (")" + tail);
    ReadRendered(d, row[0], ")" + tail);
    ReadItemsOne(head + (")" + tail), ReadBack(row[0]), tail);
    assert ReadBackRow(row) == [ReadBack(row[0])];
  }

  /** A longer list is its first literal, `, ` and the list of the rest. */
  lemma ValueListCons(d: Dialect, row: Row, tail: string)
    requires |row| > 1
    ensures ValueList(d, row) + ")" + tail
         == Render(d, row[0]) + (", " + (ValueList(d, row[1..]) + ")" + tail))
  {
    var head := Render(d, row[0]);
    var v := ValueList(d, row[1..]);
    var c := ")" + tail;
    assert Literals(d, row) == [head] + Literals(d, row[1..]);
    JoinCons(", ", head, Literals(d, row[1..]));
    Associate(ValueList(d, row), ")", tail);
    Associate(head + ", ", v, c);
    Associate(head, ", ", v + c);
    Associate(v, ")", tail);
  }

  lemma {:induction false} ReadItemsRendered(d: Dialect, row: Row, tail: string)
    requires |row| > 0 && ReadableRow(d, row)
    ensures ReadItems(ValueList(d, row) + ")" + tail) == Ok((ReadBackRow(row), tail))
    decreases |row|
  {
    if |row| == 1 {
      ReadItemsRenderedOne(d, row, tail);
    } else {
      var more := row[1..];
      var after := ValueList(d, more) + ")" + tail;
      ValueListCons(d, row, tail);
      ReadRendered(d, row[0], ", " + after);
      ReadItemsRendered(d, more, tail);
      ReadItemsCons(Render(d, row[0]) + (", " + after), ReadBack(row[0]), after, ReadBackRow(more), tail);
      assert [ReadBack(row[0])] + ReadBackRow(more) == ReadBackRow(row);
    }
  }

  /** A rendered value list, closing parenthesis included, reads back as the
      row it was rendered from. */
  lemma ValueListRoundTrip(d: Dialect, row: Row, tail: string)
    requires ReadableRow(d, row)
    ensures ReadValueList(ValueList(d, row) + ")" + tail) == Ok((ReadBackRow(row), tail))
  {
    if |row| == 0 {
      assert ValueList(d, row) + ")" + tail == ")" + tail;
    } else {
      ReadItemsRendered(d, row, tail);
      var s := ValueList(d, row) + ")" + tail;
      assert s[0] != ')' by {
        assert s == Render(d, row[0]) + s[|Render(d, row[0])|..] by {
          JoinHead(Literals(d, row), ", ");
        }
        RenderNotParen(d, row[0]);
      }
    }
  }

  /** No literal starts with a closing parenthesis. */
  lemma RenderNotParen(d: Dialect, v: Value)
    requires Readable(d, v)
    ensures |Render(d, v)| > 0 && Render(d, v)[0] != ')'
  {
  }

  lemma JoinHead(parts: seq<string>, sep: string)
    requires |parts| > 0
    ensures |parts[0]| <= |Join(sep, parts)|
    ensures Join(sep, parts)[..|parts[0]|] == parts[0]
  {
  }
}

=== FILE: tables.dfy ===
/** In-memory tables: the part of a pandas DataFrame the pipeline uses. A
    table is an ordered list of column names and a list of rows; every row
    holds one cell per column. Cell values are nullable scalars. */
module Tables {
  import opened Text

  /** A cell. `Null` is pandas' missing value (NaN/None/NaT), `Temporal` a
      `datetime.date`/`datetime.time`/`Timestamp`, `Opaque` any other scalar
      (a float, a bool); both of the last carry the text `str()` gives. */
  datatype Value = Null | Str(s: string) | Int(i: int) | Temporal(repr: string) | Opaque(repr: string)

  type Row = seq<Value>

  datatype Table = Table(cols: seq<string>, rows: seq<Row>)

  /** The outcome of an operation that can raise (a pandas KeyError). */
  datatype Result<T> = Ok(value: T) | Err(reason: string)

  predicate Distinct<T(==)>(s: seq<T>) {
    forall i, j :: 0 <= i < j < |s| ==> s[i] != s[j]
  }

  /** Column names are unique and every row has one cell per column. */
  predicate WellFormed(t: Table) {
    Distinct(t.cols) && forall i :: 0 <= i < |t.rows| ==> |t.rows[i]| == |t.cols|
  }

  function IndexOf<T(==)>(s: seq<T>, x: T): (k: nat)
    requires x in s
    ensures k < |s| && s[k] == x
    ensures forall j :: 0 <= j < k ==> s[j] != x
  {
    if s[0] == x then 0 else 1 + IndexOf(s[1..], x)
  }

  function LastIndexOf<T(==)>(s: seq<T>, x: T): (k: nat)
    requires x in s
    ensures k < |s| && s[k] == x
    ensures forall j :: k < j < |s| ==> s[j] != x
  {
    if s[|s| - 1] == x then |s| - 1 else LastIndexOf(s[..|s| - 1], x)
  }

  lemma IndexOfPrefix<T>(s: seq<T>, t: seq<T>, x: T)
    requires x in s
    ensures IndexOf(s + t, x) == IndexOf(s, x)
  {
    var k := IndexOf(s, x);
    var m := IndexOf(s + t, x);
    assert (s + t)[k] == x;
  }

  lemma LastIndexOfSuffix<T>(s: seq<T>, t: seq<T>, x: T)
    requires x in t
    ensures LastIndexOf(s + t, x) == |s| + LastIndexOf(t, x)
  {
    var k := LastIndexOf(t, x);
    var m := LastIndexOf(s + t, x);
    assert (s + t)[|s| + k] == x;
  }

  /** The values of one column, top to bottom. */
  function Column(t: Table, c: string): (vs: seq<Value>)
    requires WellFormed(t) && c in t.cols
    ensures |vs| == |t.rows|
  {
    var k := IndexOf(t.cols, c);
    seq(|t.rows|, i requires 0 <= i < |t.rows| => t.rows[i][k])
  }

  /** The cell of row `i` in column `c`. */
  function Cell(t: Table, i: nat, c: string): Value
    requires WellFormed(t) && c in t.cols && i < |t.rows|
  {
    t.rows[i][IndexOf(t.cols, c)]
  }

  // ---------------------------------------------------------------------
  // Column selection: df[names] and df.drop(columns=...)

  /** `df[names]`: the listed columns, in the listed order. */
  function Select(t: Table, names: seq<string>): (r: Table)
    requires WellFormed(t)
    requires Distinct(names)
    requires forall k :: 0 <= k < |names| ==> names[k] in t.cols
    ensures WellFormed(r) && r.cols == names && |r.rows| == |t.rows|
    ensures forall i, k :: 0 <= i < |r.rows| && 0 <= k < |names| ==>
              r.rows[i][k] == Cell(t, i, names[k])
  {
    Table(names, seq(|t.rows|, i requires 0 <= i < |t.rows| =>
                   seq(|names|, k requires 0 <= k < |names| => Cell(t, i, names[k]))))
  }

  /** Selecting every column, in order, gives the table back. */
  lemma SelectAll(t: Table)
    requires WellFormed(t)
    ensures Select(t, t.cols) == t
  {
    var s := Select(t, t.cols);
    forall i | 0 <= i < |t.rows| ensures s.rows[i] == t.rows[i] {
      forall k | 0 <= k < |t.cols| ensures s.rows[i][k] == t.rows[i][k] {
        assert IndexOf(t.cols, t.cols[k]) == k;
      }
    }
  }

  /** A selected column holds the same values as in the source table. */
  lemma SelectColumn(t: Table, names: seq<string>, c: string)
    requires WellFormed(t) && Distinct(names)
    requires forall k :: 0 <= k < |names| ==> names[k] in t.cols
    requires c in names
    ensures Column(Select(t, names), c) == Column(t, c)
  {
  }

  /** A row of a table holds, in column `c`, one of the column's values. */
  lemma RowCellInColumn(t: Table, row: Row, c: string)
    requires WellFormed(t) && c in t.cols && row in t.rows
    ensures |row| == |t.cols| && row[IndexOf(t.cols, c)] in Column(t, c)
  {
    var i :| 0 <= i < |t.rows| && t.rows[i] == row;
    assert Column(t, c)[i] == row[IndexOf(t.cols, c)];
  }

  /** The elements of `r` occur in `cols`, in the same order. */
  predicate OrderedIn<T(==)>(cols: seq<T>, r: seq<T>)
  {
    && (forall c :: c in r ==> c in cols)
    && forall i, j :: 0 <= i < j < |r| ==> r[i] in cols && r[j] in cols && IndexOf(cols, r[i]) < IndexOf(cols, r[j])
  }

  lemma IndexOfTail<T>(cols: seq<T>, c: T)
    requires |cols| > 0 && Distinct(cols) && c in cols[1..]
    ensures IndexOf(cols, c) == 1 + IndexOf(cols[1..], c)
  {
    var m := IndexOf(cols[1..], c);
    assert cols[0] != cols[1 + m];
  }

  /** A subsequence of the tail of a list of distinct names is one of the
      whole list, with or without the head in front. */
  lemma OrderedInStep<T>(cols: seq<T>, rest: seq<T>)
    requires |cols| > 0 && Distinct(cols) && Distinct(rest) && OrderedIn(cols[1..], rest)
    ensures OrderedIn(cols, rest) && OrderedIn(cols, [cols[0]] + rest)
    ensures Distinct([cols[0]] + rest)
  {
    OrderedInTail(cols, rest);
    OrderedInCons(cols, rest);
  }

  lemma OrderedInTail<T>(cols: seq<T>, rest: seq<T>)
    requires |cols| > 0 && Distinct(cols) && OrderedIn(cols[1..], rest)
    ensures forall c :: c in rest ==> c in cols && IndexOf(cols, c) == 1 + IndexOf(cols[1..], c)
    ensures OrderedIn(cols, rest)
  {
    forall c | c in rest ensures c in cols && IndexOf(cols, c) == 1 + IndexOf(cols[1..], c) {
      IndexOfTail(cols, c);
    }
  }

  lemma OrderedInCons<T>(cols: seq<T>, rest: seq<T>)
    requires |cols| > 0 && Distinct(cols) && Distinct(rest) && OrderedIn(cols[1..], rest)
    ensures OrderedIn(cols, [cols[0]] + rest) && Distinct([cols[0]] + rest)
  {
    OrderedInTail(cols, rest);
    var r := [cols[0]] + rest;
    assert cols[0] !in cols[1..];
    assert forall c :: c in r ==> c in cols;
    forall i, j | 0 <= i < j < |r|
      ensures r[i] in cols && r[j] in cols && IndexOf(cols, r[i]) < IndexOf(cols, r[j]) && r[i] != r[j]
    {
      assert r[j] == rest[j - 1];
      if i > 0 { assert r[i] == rest[i - 1]; }
    }
  }

  /** The names of `cols` not listed in `drop`, in their original order. */
  function Without(cols: seq<string>, drop: seq<string>): (r: seq<string>)
    ensures forall c :: c in r <==> c in cols && c !in drop
    ensures Distinct(cols) ==> Distinct(r) && OrderedIn(cols, r)
  {
    if |cols| == 0 then []
    else
      var rest := Without(cols[1..], drop);
      assert Distinct(cols) ==> OrderedIn(cols, rest) && OrderedIn(cols, [cols[0]] + rest) && Distinct([cols[0]] + rest) by {
        if Distinct(cols) { OrderedInStep(cols, rest); }
      }
      if cols[0] in drop then rest else [cols[0]] + rest
  }

  /** `[c for c in cols if p(c)]`: the names satisfying `p`, in order. */
  function Filter(cols: seq<string>, p: string -> bool): (r: seq<string>)
    ensures |r| <= |cols|
    ensures forall c :: c in r <==> c in cols && p(c)
    ensures Distinct(cols) ==> Distinct(r) && OrderedIn(cols, r)
  {
    if |cols| == 0 then []
    else
      var rest := Filter(cols[1..], p);
      assert Distinct(cols) ==> OrderedIn(cols, rest) && OrderedIn(cols, [cols[0]] + rest) && Distinct([cols[0]] + rest) by {
        if Distinct(cols) { OrderedInStep(cols, rest); }
      }
      if p(cols[0]) then [cols[0]] + rest else rest
  }

  /** `df.drop(columns=[c for c in drop if c in df.columns])`. */
  function DropColumns(t: Table, drop: seq<string>): (r: Table)
    requires WellFormed(t)
    ensures WellFormed(r) && |r.rows| == |t.rows|
    ensures r.cols == Without(t.cols, drop)
    ensures forall i, c :: 0 <= i < |r.rows| && c in r.cols ==> Cell(r, i, c) == Cell(t, i, c)
  {
    Select(t, Without(t.cols, drop))
  }

  // ---------------------------------------------------------------------
  // Cell rewriting: fillna and column assignment

  /** `df[c] = df[c].fillna(v)` for the column at index `k`. */
  function FillNull(t: Table, k: nat, v: Value): (r: Table)
    requires WellFormed(t) && k < |t.cols|
    ensures WellFormed(r) && r.cols == t.cols && |r.rows| == |t.rows|
    ensures forall i, j :: 0 <= i < |t.rows| && 0 <= j < |t.cols| ==>
              r.rows[i][j] == (if j == k && t.rows[i][j] == Null then v else t.rows[i][j])
  {
    Table(t.cols, seq(|t.rows|, i requires 0 <= i < |t.rows| =>
                    t.rows[i][k := if t.rows[i][k] == Null then v else t.rows[i][k]]))
  }

  /** `df[name] = vs`: replaces the column in place when it exists and
      appends it as the last column otherwise. */
  function SetColumn(t: Table, name: string, vs: seq<Value>): (r: Table)
    requires WellFormed(t) && |vs| == |t.rows|
    ensures WellFormed(r) && |r.rows| == |t.rows|
    ensures name in t.cols ==> r.cols == t.cols
    ensures name !in t.cols ==> r.cols == t.cols + [name]
    ensures forall i :: 0 <= i < |r.rows| ==> Cell(r, i, name) == vs[i]
    ensures forall i, c :: 0 <= i < |r.rows| && c in t.cols && c != name ==> Cell(r, i, c) == Cell(t, i, c)
  {
    if name in t.cols then
      var k := IndexOf(t.cols, name);
      Table(t.cols, seq(|t.rows|, i requires 0 <= i < |t.rows| => t.rows[i][k := vs[i]]))
    else
      var r := Table(t.cols + [name], seq(|t.rows|, i requires 0 <= i < |t.rows| => t.rows[i] + [vs[i]]));
      assert forall c :: c in t.cols ==> IndexOf(r.cols, c) == IndexOf(t.cols, c) by {
        forall c | c in t.cols { IndexOfPrefix(t.cols, [name], c); }
      }
      assert IndexOf(r.cols, name) == |t.cols|;
      r
  }

  // ---------------------------------------------------------------------
  // drop_duplicates
  //
  // Deduplication is stated over any sequence and any key function, so that
  // the whole-row comparison of `drop_duplicates()` and the one-column
  // comparison of `drop_duplicates(subset=[c])` share one definition.

  function Keys<T, K>(xs: seq<T>, key: T -> K): (ks: seq<K>)
    ensures |ks| == |xs|
    ensures forall i :: 0 <= i < |xs| ==> ks[i] == key(xs[i])
  {
    seq(|xs|, i requires 0 <= i < |xs| => key(xs[i]))
  }

  lemma KeysAppend<T, K>(xs: seq<T>, ys: seq<T>, key: T -> K)
    ensures Keys(xs + ys, key) == Keys(xs, key) + Keys(ys, key)
  {
  }

  /** keep='first': an element is kept when no earlier element has its key. */
  function KeepFirst<T, K(==)>(xs: seq<T>, key: T -> K): (r: seq<T>)
    ensures |r| <= |xs|
    ensures forall j :: 0 <= j < |r| ==> r[j] in xs
    decreases |xs|
  {
    if |xs| == 0 then []
    else
      var init := xs[..|xs| - 1];
      var last := xs[|xs| - 1];
      if key(last) in Keys(init, key) then KeepFirst(init, key)
      else KeepFirst(init, key) + [last]
  }

  /** keep='last': an element is kept when no later element has its key. */
  function KeepLast<T, K(==)>(xs: seq<T>, key: T -> K): (r: seq<T>)
    ensures |r| <= |xs|
    ensures forall j :: 0 <= j < |r| ==> r[j] in xs
    decreases |xs|
  {
    if |xs| == 0 then []
    else if key(xs[0]) in Keys(xs[1..], key) then KeepLast(xs[1..], key)
    else [xs[0]] + KeepLast(xs[1..], key)
  }

  /** keep='first' leaves one element per key: the keys of the result are
      pairwise distinct and are exactly the keys of the input. */
  lemma {:induction false} KeepFirstKeys<T, K>(xs: seq<T>, key: T -> K)
    ensures Distinct(Keys(KeepFirst(xs, key), key))
    ensures forall k :: k in Keys(KeepFirst(xs, key), key) <==> k in Keys(xs, key)
    decreases |xs|
  {
    if |xs| > 0 {
      var init := xs[..|xs| - 1];
      var last := xs[|xs| - 1];
      var p := KeepFirst(init, key);
      KeepFirstKeys(init, key);
      assert xs == init + [last];
      KeysAppend(init, [last], key);
      if key(last) !in Keys(init, key) {
        KeysAppend(p, [last], key);
      }
    }
  }

  /** keep='first' keeps, for each key, the first element with that key, and
      keeps those elements in input order. */
  lemma {:induction false} KeepFirstPicksFirst<T, K>(xs: seq<T>, key: T -> K)
    ensures forall j :: 0 <= j < |KeepFirst(xs, key)| ==>
              key(KeepFirst(xs, key)[j]) in Keys(xs, key)
              && KeepFirst(xs, key)[j] == xs[IndexOf(Keys(xs, key), key(KeepFirst(xs, key)[j]))]
    ensures forall i, j :: 0 <= i < j < |KeepFirst(xs, key)| ==>
              IndexOf(Keys(xs, key), key(KeepFirst(xs, key)[i])) < IndexOf(Keys(xs, key), key(KeepFirst(xs, key)[j]))
    decreases |xs|
  {
    if |xs| > 0 {
      var init := xs[..|xs| - 1];
      var last := xs[|xs| - 1];
      var p := KeepFirst(init, key);
      var ks := Keys(xs, key);
      var ki := Keys(init, key);
      KeepFirstPicksFirst(init, key);
      assert forall j :: 0 <= j < |p| ==> key(p[j]) in ki && p[j] == init[IndexOf(ki, key(p[j]))];
      assert xs == init + [last];
      KeysAppend(init, [last], key);
      assert ks == ki + [key(last)];
      forall j | 0 <= j < |p|
        ensures key(p[j]) in ks
        ensures IndexOf(ks, key(p[j])) == IndexOf(ki, key(p[j])) < |init|
        ensures p[j] == xs[IndexOf(ks, key(p[j]))]
      {
        IndexOfPrefix(ki, [key(last)], key(p[j]));
      }
      var r := KeepFirst(xs, key);
      if key(last) !in ki {
        assert r == p + [last];
        assert IndexOf(ks, key(last)) == |init|;
        forall j | 0 <= j < |r|
          ensures key(r[j]) in ks && r[j] == xs[IndexOf(ks, key(r[j]))]
        {
          if j < |p| { assert r[j] == p[j]; } else { assert r[j] == last; }
        }
        forall i, j | 0 <= i < j < |r|
          ensures IndexOf(ks, key(r[i])) < IndexOf(ks, key(r[j]))
        {
          assert r[i] == p[i];
          if j < |p| { assert r[j] == p[j]; } else { assert r[j] == last; }
        }
      } else {
        assert r == p;
      }
    }
  }

  /** keep='last' leaves one element per key. */
  lemma {:induction false} KeepLastKeys<T, K>(xs: seq<T>, key: T -> K)
    ensures Distinct(Keys(KeepLast(xs, key), key))
    ensures forall k :: k in Keys(KeepLast(xs, key), key) <==> k in Keys(xs, key)
    decreases |xs|
  {
    if |xs| > 0 {
      var tail := xs[1..];
      var p := KeepLast(tail, key);
      KeepLastKeys(tail, key);
      assert xs == [xs[0]] + tail;
      KeysAppend([xs[0]], tail, key);
      if key(xs[0]) !in Keys(tail, key) {
        KeysAppend([xs[0]], p, key);
      }
    }
  }

  /** Each element of `r` is the last element of `xs` that has its key. */
  ghost predicate PicksLast<T, K>(xs: seq<T>, r: seq<T>, key: T -> K)
  {
    forall j :: 0 <= j < |r| ==>
      key(r[j]) in Keys(xs, key) && r[j] == xs[LastIndexOf(Keys(xs, key), key(r[j]))]
  }

  lemma PicksLastShift<T, K>(first: T, tail: seq<T>, p: seq<T>, key: T -> K)
    requires PicksLast(tail, p, key)
    ensures PicksLast([first] + tail, p, key)
  {
    var xs := [first] + tail;
    var kt := Keys(tail, key);
    KeysAppend([first], tail, key);
    assert Keys(xs, key) == [key(first)] + kt;
    forall j | 0 <= j < |p|
      ensures key(p[j]) in Keys(xs, key) && p[j] == xs[LastIndexOf(Keys(xs, key), key(p[j]))]
    {
      LastIndexOfSuffix([key(first)], kt, key(p[j]));
      assert p[j] == tail[LastIndexOf(kt, key(p[j]))];
    }
  }

  lemma PicksLastCons<T, K>(first: T, tail: seq<T>, p: seq<T>, key: T -> K)
    requires key(first) !in Keys(tail, key) && PicksLast(tail, p, key)
    ensures PicksLast([first] + tail, [first] + p, key)
  {
    var xs := [first] + tail;
    var r := [first] + p;
    PicksLastShift(first, tail, p, key);
    KeysAppend([first], tail, key);
    assert Keys(xs, key) == [key(first)] + Keys(tail, key);
    assert LastIndexOf(Keys(xs, key), key(first)) == 0;
    forall j | 0 <= j < |r|
      ensures key(r[j]) in Keys(xs, key) && r[j] == xs[LastIndexOf(Keys(xs, key), key(r[j]))]
    {
      if j > 0 { assert r[j] == p[j - 1]; }
    }
  }

  /** keep='last' keeps, for each key, the last element with that key. */
  lemma {:induction false} KeepLastPicksLast<T, K>(xs: seq<T>, key: T -> K)
    ensures PicksLast(xs, KeepLast(xs, key), key)
    decreases |xs|
  {
    if |xs| > 0 {
      var first := xs[0];
      var tail := xs[1..];
      KeepLastPicksLast(tail, key);
      assert xs == [first] + tail;
      if key(first) in Keys(tail, key) {
        PicksLastShift(first, tail, KeepLast(tail, key), key);
      } else {
        PicksLastCons(first, tail, KeepLast(tail, key), key);
      }
    }
  }

  /** The keys `rk` occur in `ks`, and their last occurrences there are in
      the order of `rk`. */
  predicate LastOrdered<K(==)>(ks: seq<K>, rk: seq<K>)
  {
    && (forall x :: x in rk ==> x in ks)
    && forall i, j :: 0 <= i < j < |rk| ==> LastIndexOf(ks, rk[i]) < LastIndexOf(ks, rk[j])
  }

  lemma LastOrderedShift<K>(k0: K, kt: seq<K>, rk: seq<K>)
    requires LastOrdered(kt, rk)
    ensures LastOrdered([k0] + kt, rk)
    ensures forall x :: x in rk ==> LastIndexOf([k0] + kt, x) == 1 + LastIndexOf(kt, x)
  {
    forall x | x in rk ensures LastIndexOf([k0] + kt, x) == 1 + LastIndexOf(kt, x) {
      LastIndexOfSuffix([k0], kt, x);
    }
  }

  lemma LastOrderedCons<K>(k0: K, kt: seq<K>, rk: seq<K>)
    requires k0 !in kt && LastOrdered(kt, rk)
    ensures LastOrdered([k0] + kt, [k0] + rk)
  {
    var ks := [k0] + kt;
    var r := [k0] + rk;
    LastOrderedShift(k0, kt, rk);
    assert LastIndexOf(ks, k0) == 0;
    forall i, j | 0 <= i < j < |r| ensures LastIndexOf(ks, r[i]) < LastIndexOf(ks, r[j]) {
      assert r[j] == rk[j - 1];
      if i > 0 { assert r[i] == rk[i - 1]; }
    }
  }

  lemma KeysCons<T, K>(first: T, tail: seq<T>, key: T -> K)
    ensures Keys([first] + tail, key) == [key(first)] + Keys(tail, key)
  {
    KeysAppend([first], tail, key);
  }

  lemma KeepLastUnfold<T, K>(first: T, tail: seq<T>, key: T -> K)
    ensures KeepLast([first] + tail, key)
            == if key(first) in Keys(tail, key) then KeepLast(tail, key) else [first] + KeepLast(tail, key)
  {
    assert ([first] + tail)[1..] == tail;
  }

  lemma KeepLastOrderStep<T, K>(first: T, tail: seq<T>, key: T -> K)
    requires LastOrdered(Keys(tail, key), Keys(KeepLast(tail, key), key))
    ensures LastOrdered(Keys([first] + tail, key), Keys(KeepLast([first] + tail, key), key))
  {
    KeysCons(first, tail, key);
    KeepLastUnfold(first, tail, key);
    if key(first) in Keys(tail, key) {
      LastOrderedShift(key(first), Keys(tail, key), Keys(KeepLast(tail, key), key));
    } else {
      KeysCons(first, KeepLast(tail, key), key);
      LastOrderedCons(key(first), Keys(tail, key), Keys(KeepLast(tail, key), key));
    }
  }

  /** keep='last' keeps the surviving elements in input order. */
  lemma {:induction false} KeepLastInOrder<T, K>(xs: seq<T>, key: T -> K)
    ensures LastOrdered(Keys(xs, key), Keys(KeepLast(xs, key), key))
    decreases |xs|
  {
    if |xs| > 0 {
      KeepLastInOrder(xs[1..], key);
      KeepLastOrderStep(xs[0], xs[1..], key);
      assert xs == [xs[0]] + xs[1..];
    }
  }

  /** The identity key: `drop_duplicates()` compares whole rows. */
  function WholeRow(row: Row): Row { row }

  /** The key `drop_duplicates(subset=[c])` compares: the cell at index `k`. */
  function CellAt(k: nat): Row -> Value
  {
    (row: Row) => if k < |row| then row[k] else Null
  }

  /** `df.drop_duplicates()`: the distinct rows, each at its first position.
      A frame with no columns counts as empty in pandas and comes back
      unchanged, however many rows it has. */
  function DropDuplicates(t: Table): (r: Table)
    requires WellFormed(t)
    ensures WellFormed(r) && r.cols == t.cols
    ensures forall row :: row in r.rows <==> row in t.rows
    ensures |t.cols| > 0 ==> Distinct(r.rows)
    ensures |t.cols| == 0 ==> r == t
  {
    if |t.cols| == 0 then t
    else
      var rows := KeepFirst(t.rows, WholeRow);
      KeepFirstKeys(t.rows, WholeRow);
      assert Keys(rows, WholeRow) == rows;
      assert Keys(t.rows, WholeRow) == t.rows;
      Table(t.cols, rows)
  }

  /** `df.drop_duplicates(subset=[c], keep='first'|'last')`. */
  function DropDuplicatesOn(t: Table, c: string, keepFirst: bool): (r: Table)
    requires WellFormed(t) && c in t.cols
    ensures WellFormed(r) && r.cols == t.cols
    ensures forall j :: 0 <= j < |r.rows| ==> r.rows[j] in t.rows
  {
    var key := CellAt(IndexOf(t.cols, c));
    Table(t.cols, if keepFirst then KeepFirst(t.rows, key) else KeepLast(t.rows, key))
  }

  lemma KeysOfColumn(t: Table, c: string)
    requires WellFormed(t) && c in t.cols
    ensures Keys(t.rows, CellAt(IndexOf(t.cols, c))) == Column(t, c)
  {
  }

  /** Deduplicating on one column leaves that column free of repeats, keeps
      every value it had, and keeps for each value the first (or last) row
      carrying it, in input order. */
  lemma DropDuplicatesOnSpec(t: Table, c: string, keepFirst: bool)
    requires WellFormed(t) && c in t.cols
    ensures Distinct(Column(DropDuplicatesOn(t, c, keepFirst), c))
    ensures forall x :: x in Column(DropDuplicatesOn(t, c, keepFirst), c) <==> x in Column(t, c)
    ensures forall j :: 0 <= j < |DropDuplicatesOn(t, c, keepFirst).rows| ==>
              DropDuplicatesOn(t, c, keepFirst).rows[j]
              == t.rows[if keepFirst then IndexOf(Column(t, c), Column(DropDuplicatesOn(t, c, keepFirst), c)[j])
                        else LastIndexOf(Column(t, c), Column(DropDuplicatesOn(t, c, keepFirst), c)[j])]
  {
    var key := CellAt(IndexOf(t.cols, c));
    var r := DropDuplicatesOn(t, c, keepFirst);
    KeysOfColumn(t, c);
    KeysOfColumn(r, c);
    if keepFirst {
      KeepFirstKeys(t.rows, key);
      KeepFirstPicksFirst(t.rows, key);
    } else {
      KeepLastKeys(t.rows, key);
      KeepLastPicksLast(t.rows, key);
      KeepLastInOrder(t.rows, key);
    }
  }
}

=== FILE: text.dfy ===
/** ASCII character classes and the Python string operations the pipeline
    relies on: `str.split`, `str.strip`, `str.lower`, `str.startswith`, the
    `in` substring test and `str(int)`. Only ASCII semantics are modelled. */
module Text {

  predicate IsDigit(c: char) { '0' <= c <= '9' }

  predicate IsUpper(c: char) { 'A' <= c <= 'Z' }

  predicate IsLower(c: char) { 'a' <= c <= 'z' }

  predicate IsAlnum(c: char) { IsDigit(c) || IsUpper(c) || IsLower(c) }

  /** A character matched by the regex class `\w` (ASCII): letter, digit or `_`. */
  predicate IsWordChar(c: char) { IsAlnum(c) || c == '_' }

  /** The ASCII characters for which Python's `str.isspace` holds. */
  predicate IsSpace(c: char) {
    // space, \t \n \v \f \r, and the separators 0x1c..0x1f
    c == ' ' || 9 <= c as int <= 13 || 28 <= c as int <= 31
  }

  predicate AllDigits(s: string) { forall i :: 0 <= i < |s| ==> IsDigit(s[i]) }

  predicate StartsWith(s: string, prefix: string) {
    |prefix| <= |s| && s[..|prefix|] == prefix
  }

  predicate EndsWith(s: string, suffix: string) {
    |suffix| <= |s| && s[|s| - |suffix|..] == suffix
  }

  /** Python's `sub in s`. */
  predicate Contains(s: string, sub: string)
    decreases |s|
  {
    StartsWith(s, sub) || (|s| > 0 && Contains(s[1..], sub))
  }

  function LowerChar(c: char): (d: char)
    ensures IsUpper(c) ==> IsLower(d)
    ensures !IsUpper(c) ==> d == c
  {
    if IsUpper(c) then (c as int - 'A' as int + 'a' as int) as char else c
  }

  /** `str.lower()` restricted to ASCII. */
  function Lower(s: string): (r: string)
    ensures |r| == |s|
    ensures forall i :: 0 <= i < |s| ==> r[i] == LowerChar(s[i])
  {
    if |s| == 0 then "" else [LowerChar(s[0])] + Lower(s[1..])
  }

  // ---------------------------------------------------------------------
  // str.split(sep)

  /** Python's `s.split(sep)` for a non-empty separator: the text between
      non-overlapping occurrences of `sep`, scanned left to right. */
  function Split(s: string, sep: string): (parts: seq<string>)
    requires |sep| > 0
    ensures |parts| >= 1
    decreases |s|
  {
    if |s| < |sep| then [s]
    else if s[..|sep|] == sep then [""] + Split(s[|sep|..], sep)
    else
      var rest := Split(s[1..], sep);
      [[s[0]] + rest[0]] + rest[1..]
  }

  /** `sep.join(parts)`. */
  function Join(sep: string, parts: seq<string>): string
  {
    if |parts| == 0 then ""
    else if |parts| == 1 then parts[0]
    else parts[0] + sep + Join(sep, parts[1..])
  }

  /** Dropping a prefix from a concatenation leaves the rest. */
  lemma DropPrefix(a: string, b: string)
    ensures (a + b)[|a|..] == b
  {
  }

  /** Concatenation regrouped, for proofs that would otherwise leave the
      solver to find the grouping. */
  lemma Associate(a: string, b: string, c: string)
    ensures a + b + c == a + (b + c)
  {
  }

  lemma JoinCons(sep: string, first: string, rest: seq<string>)
    requires |rest| > 0
    ensures Join(sep, [first] + rest) == first + sep + Join(sep, rest)
  {
    assert ([first] + rest)[1..] == rest;
  }

  /** Putting a character in front of the first part puts it in front of
      the join. */
  lemma JoinExtendHead(sep: string, c: char, rest: seq<string>)
    requires |rest| > 0
    ensures Join(sep, [[c] + rest[0]] + rest[1..]) == [c] + Join(sep, rest)
  {
    if |rest| > 1 {
      JoinCons(sep, [c] + rest[0], rest[1..]);
      JoinCons(sep, rest[0], rest[1..]);
      assert [rest[0]] + rest[1..] == rest;
    } else {
      assert [[c] + rest[0]] + rest[1..] == [[c] + rest[0]];
    }
  }

  /** Splitting and re-joining on the same separator gives back the text. */
  lemma {:induction false} JoinSplit(s: string, sep: string)
    requires |sep| > 0
    ensures Join(sep, Split(s, sep)) == s
    decreases |s|
  {
    if |s| >= |sep| {
      if s[..|sep|] == sep {
        JoinSplit(s[|sep|..], sep);
        JoinSplitAtSep(s, sep);
      } else {
        JoinSplit(s[1..], sep);
        JoinSplitAtChar(s, sep);
      }
    }
  }

  lemma SplitAtSep(s: string, sep: string)
    requires 0 < |sep| <= |s| && s[..|sep|] == sep
    ensures Split(s, sep) == [""] + Split(s[|sep|..], sep)
  {
  }

  lemma JoinEmptyHead(sep: string, tail: seq<string>, rest: string)
    requires |tail| > 0 && Join(sep, tail) == rest
    ensures Join(sep, [""] + tail) == sep + rest
  {
    JoinCons(sep, "", tail);
    assert "" + sep == sep;
  }

  lemma JoinSplitAtSep(s: string, sep: string)
    requires 0 < |sep| <= |s| && s[..|sep|] == sep
    requires Join(sep, Split(s[|sep|..], sep)) == s[|sep|..]
    ensures Join(sep, Split(s, sep)) == s
  {
    SplitAtSep(s, sep);
    JoinEmptyHead(sep, Split(s[|sep|..], sep), s[|sep|..]);
    assert s == s[..|sep|] + s[|sep|..];
  }

  lemma JoinSplitAtChar(s: string, sep: string)
    requires 0 < |sep| <= |s| && s[..|sep|] != sep
    requires Join(sep, Split(s[1..], sep)) == s[1..]
    ensures Join(sep, Split(s, sep)) == s
  {
    var rest := Split(s[1..], sep);
    assert Split(s, sep) == [[s[0]] + rest[0]] + rest[1..];
    JoinExtendHead(sep, s[0], rest);
    assert s == [s[0]] + s[1..];
  }

  /** A text shorter than `sub` does not contain it. */
  lemma {:induction false} ShorterNotContains(s: string, sub: string)
    requires |s| < |sub|
    ensures !Contains(s, sub)
    decreases |s|
  {
    if |s| > 0 {
      ShorterNotContains(s[1..], sub);
    }
  }

  /** The first piece of a split is a prefix of the text. */
  lemma {:induction false} SplitHeadPrefix(s: string, sep: string)
    requires |sep| > 0
    ensures |Split(s, sep)[0]| <= |s| && s[..|Split(s, sep)[0]|] == Split(s, sep)[0]
    decreases |s|
  {
    if |s| >= |sep| && s[..|sep|] != sep {
      SplitHeadPrefix(s[1..], sep);
      var rest := Split(s[1..], sep);
      assert Split(s, sep)[0] == [s[0]] + rest[0];
      assert s[..1 + |rest[0]|] == [s[0]] + s[1..][..|rest[0]|];
    }
  }

  /** No piece of a split contains the separator: `str.split` cuts at every
      occurrence. */
  lemma {:induction false} SplitPiecesFree(s: string, sep: string)
    requires |sep| > 0
    ensures forall j :: 0 <= j < |Split(s, sep)| ==> !Contains(Split(s, sep)[j], sep)
    decreases |s|
  {
    var parts := Split(s, sep);
    if |s| < |sep| {
      ShorterNotContains(s, sep);
    } else if s[..|sep|] == sep {
      SplitPiecesFree(s[|sep|..], sep);
      ShorterNotContains("", sep);
      SplitAtSep(s, sep);
      forall j | 0 <= j < |parts|
        ensures !Contains(parts[j], sep)
      {
        if j > 0 {
          assert parts[j] == Split(s[|sep|..], sep)[j - 1];
        }
      }
    } else {
      var rest := Split(s[1..], sep);
      SplitPiecesFree(s[1..], sep);
      SplitHeadPrefix(s[1..], sep);
      var head := [s[0]] + rest[0];
      assert parts == [head] + rest[1..];
      assert head == s[..1 + |rest[0]|];
      if |sep| <= |head| {
        assert head[..|sep|] == s[..|sep|];
      }
      assert head[1..] == rest[0];
      assert !Contains(head, sep);
      forall j | 0 <= j < |parts|
        ensures !Contains(parts[j], sep)
      {
        if j > 0 {
          assert parts[j] == rest[j];
        }
      }
    }
  }

  /** The separator of the catalog columns. */
  const ListSep: string := ", "

  /** Splitting a piece free of `", "` followed by `", "` cuts exactly there.
      This relies on `", "` not overlapping itself: no occurrence can start
      on the piece's last character. */
  lemma {:induction false} SplitAfterPiece(w: string, rest: string)
    requires !Contains(w, ListSep)
    ensures Split(w + ListSep + rest, ListSep) == [w] + Split(rest, ListSep)
    decreases |w|
  {
    var s := w + ListSep + rest;
    Associate(w, ListSep, rest);
    if |w| == 0 {
      assert s == ListSep + rest;
      assert s[..2] == ListSep;
      assert s[2..] == rest;
    } else {
      assert s[..2] != ListSep by {
        if |w| == 1 {
          assert s[1] == ',';
        } else {
          assert s[..2] == w[..2];
        }
      }
      assert s[1..] == w[1..] + ListSep + rest;
      assert !Contains(w[1..], ListSep);
      SplitAfterPiece(w[1..], rest);
      assert [w[0]] + w[1..] == w;
    }
  }

  /** A text free of the separator splits into itself alone. */
  lemma {:induction false} SplitWhole(w: string, sep: string)
    requires |sep| > 0 && !Contains(w, sep)
    ensures Split(w, sep) == [w]
    decreases |w|
  {
    if |w| >= |sep| {
      assert !StartsWith(w, sep);
      SplitWhole(w[1..], sep);
      assert [w[0]] + w[1..] == w;
    }
  }

  /** `str.split(', ')` is pinned down by its two properties: any non-empty
      list of pieces free of `", "` that joins to `s` is `Split(s, ", ")`. */
  lemma {:induction false} SplitUnique(pieces: seq<string>, s: string)
    requires |pieces| > 0 && Join(ListSep, pieces) == s
    requires forall j :: 0 <= j < |pieces| ==> !Contains(pieces[j], ListSep)
    ensures Split(s, ListSep) == pieces
    decreases |pieces|
  {
    if |pieces| == 1 {
      SplitWhole(pieces[0], ListSep);
    } else {
      var tail := pieces[1..];
      JoinCons(ListSep, pieces[0], tail);
      assert [pieces[0]] + tail == pieces;
      SplitUnique(tail, Join(ListSep, tail));
      SplitAfterPiece(pieces[0], Join(ListSep, tail));
    }
  }

  /** Where part `k` starts in `Join(sep, parts)`. */
  function JoinOffset(sep: string, parts: seq<string>, k: nat): nat
    requires k <= |parts|
  {
    if k == 0 then 0 else |parts[0]| + |sep| + JoinOffset(sep, parts[1..], k - 1)
  }

  lemma {:induction false} JoinOffsetStep(sep: string, parts: seq<string>, k: nat)
    requires k < |parts|
    ensures JoinOffset(sep, parts, k + 1) == JoinOffset(sep, parts, k) + |parts[k]| + |sep|
    decreases k
  {
    if k > 0 {
      JoinOffsetStep(sep, parts[1..], k - 1);
    }
  }

  lemma SliceAfter(a: string, b: string, o: nat, n: nat)
    requires o + n <= |b|
    ensures (a + b)[|a| + o..|a| + o + n] == b[o..o + n]
  {
  }

  /** Part `k` of a join sits at `JoinOffset(k)`. */
  lemma {:induction false} JoinPartAt(sep: string, parts: seq<string>, k: nat)
    requires k < |parts|
    ensures JoinOffset(sep, parts, k) + |parts[k]| <= |Join(sep, parts)|
    ensures Join(sep, parts)[JoinOffset(sep, parts, k)..JoinOffset(sep, parts, k) + |parts[k]|] == parts[k]
    decreases k
  {
    if k > 0 {
      JoinPartAt(sep, parts[1..], k - 1);
      JoinPartAtStep(sep, parts, k);
    } else if |parts| > 1 {
      assert Join(sep, parts) == parts[0] + (sep + Join(sep, parts[1..]));
    }
  }

  lemma JoinPartAtStep(sep: string, parts: seq<string>, k: nat)
    requires 0 < k < |parts|
    requires var o := JoinOffset(sep, parts[1..], k - 1);
             o + |parts[k]| <= |Join(sep, parts[1..])| && Join(sep, parts[1..])[o..o + |parts[k]|] == parts[k]
    ensures JoinOffset(sep, parts, k) + |parts[k]| <= |Join(sep, parts)|
    ensures Join(sep, parts)[JoinOffset(sep, parts, k)..JoinOffset(sep, parts, k) + |parts[k]|] == parts[k]
  {
    var rest := Join(sep, parts[1..]);
    var o := JoinOffset(sep, parts[1..], k - 1);
    assert parts[1..][k - 1] == parts[k];
    assert Join(sep, parts) == (parts[0] + sep) + rest;
    assert JoinOffset(sep, parts, k) == |parts[0] + sep| + o;
    SliceAfter(parts[0] + sep, rest, o, |parts[k]|);
  }

  /** A join ends with its last part. */
  lemma {:induction false} JoinLast(sep: string, parts: seq<string>)
    requires |parts| > 0
    ensures EndsWith(Join(sep, parts), parts[|parts| - 1])
    decreases |parts|
  {
    if |parts| > 1 {
      JoinLast(sep, parts[1..]);
      var rest := Join(sep, parts[1..]);
      assert Join(sep, parts) == (parts[0] + sep) + rest;
    }
  }

  // ---------------------------------------------------------------------
  // str.strip()

  function StripLeft(s: string): (r: string)
    ensures |r| <= |s| && r == s[|s| - |r|..]
    ensures |r| > 0 ==> !IsSpace(r[0])
    ensures forall i :: 0 <= i < |s| - |r| ==> IsSpace(s[i])
  {
    if |s| > 0 && IsSpace(s[0]) then StripLeft(s[1..]) else s
  }

  function StripRight(s: string): (r: string)
    ensures |r| <= |s| && r == s[..|r|]
    ensures |r| > 0 ==> !IsSpace(r[|r| - 1])
    ensures forall i :: |r| <= i < |s| ==> IsSpace(s[i])
  {
    if |s| > 0 && IsSpace(s[|s| - 1]) then StripRight(s[..|s| - 1]) else s
  }

  /** Python's `str.strip()` with no argument (ASCII whitespace): the text
      that remains after cutting the whitespace run at each end. */
  function Strip(s: string): (r: string)
    ensures |r| <= |s|
    ensures |r| > 0 ==> !IsSpace(r[0]) && !IsSpace(r[|r| - 1])
  {
    StripRight(StripLeft(s))
  }

  /** `Strip` removes only whitespace: what it returns is a slice of the input
      with nothing but whitespace on either side. */
  lemma StripIsTrim(s: string)
    ensures var i := |s| - |StripLeft(s)|;
            var r := Strip(s);
            i + |r| <= |s| && r == s[i..i + |r|]
            && (forall k :: 0 <= k < i ==> IsSpace(s[k]))
            && (forall k :: i + |r| <= k < |s| ==> IsSpace(s[k]))
  {
    var l := StripLeft(s);
    var r := StripRight(l);
    var i := |s| - |l|;
    SliceOfSlice(s, i, |r|);
    TrailingSpaces(s, l, |r|);
  }

  lemma SliceOfSlice(s: string, i: nat, n: nat)
    requires i + n <= |s|
    ensures s[i..][..n] == s[i..i + n]
  {
  }

  lemma TrailingSpaces(s: string, l: string, n: nat)
    requires |l| <= |s| && l == s[|s| - |l|..] && n <= |l|
    requires forall k :: n <= k < |l| ==> IsSpace(l[k])
    ensures forall k :: |s| - |l| + n <= k < |s| ==> IsSpace(s[k])
  {
    forall k | |s| - |l| + n <= k < |s| ensures IsSpace(s[k]) {
      assert s[k] == l[k - (|s| - |l|)];
    }
  }

  // ---------------------------------------------------------------------
  // str(int) and its inverse

  function DigitChar(d: nat): (c: char)
    requires d < 10
    ensures IsDigit(c)
  {
    ('0' as int + d) as char
  }

  function DigitValue(c: char): (d: nat)
    requires IsDigit(c)
    ensures d < 10 && DigitChar(d) == c
  {
    c as int - '0' as int
  }

  /** Decimal text of a natural number, most significant digit first, no
      leading zeros. */
  function NatToString(n: nat): (r: string)
    ensures |r| > 0 && AllDigits(r)
    ensures |r| > 1 ==> r[0] != '0'
  {
    if n < 10 then [DigitChar(n)] else NatToString(n / 10) + [DigitChar(n % 10)]
  }

  /** Python's `str(i)` for an `int`. */
  function IntToString(i: int): string
  {
    if i < 0 then "-" + NatToString(-i) else NatToString(i)
  }

  /** The number a run of decimal digits denotes. */
  function DigitsValue(ds: string): nat
    requires AllDigits(ds)
  {
    if |ds| == 0 then 0 else DigitsValue(ds[..|ds| - 1]) * 10 + DigitValue(ds[|ds| - 1])
  }

  /** The longest prefix of `s` made of digits. */
  function TakeDigits(s: string): (ds: string)
    ensures |ds| <= |s| && ds == s[..|ds|] && AllDigits(ds)
    ensures |ds| < |s| ==> !IsDigit(s[|ds|])
  {
    if |s| > 0 && IsDigit(s[0]) then
      var tail := TakeDigits(s[1..]);
      assert [s[0]] + tail == s[..1 + |tail|];
      [s[0]] + tail
    else ""
  }

  lemma {:induction false} NatToStringValue(n: nat)
    ensures DigitsValue(NatToString(n)) == n
  {
    if n >= 10 {
      var s := NatToString(n);
      assert s[..|s| - 1] == NatToString(n / 10);
      NatToStringValue(n / 10);
    }
  }

  lemma {:induction false} TakeAllDigits(ds: string, rest: string)
    requires AllDigits(ds)
    requires |rest| == 0 || !IsDigit(rest[0])
    ensures TakeDigits(ds + rest) == ds
  {
    if |ds| > 0 {
      assert (ds + rest)[1..] == ds[1..] + rest;
      TakeAllDigits(ds[1..], rest);
      assert [ds[0]] + ds[1..] == ds;
    } else {
      assert ds + rest == rest;
    }
  }
}
